=== FILE: README.md ===
# msgpack-js core in Dafny

A model of the MessagePack codec of `msgpack-js`, in three layers:

- **Tag grammar** (`tags.dfy`). The one-byte tag constants, and the five fix-range families. The families are positive fixint, negative fixint, fixstr, fixarray and fixmap. Each has a constructor, a predicate and a reader.
- **Byte cursors** (`buffer.dfy`, with the word arithmetic in `words.dfy`).
  - The growable write buffer with its big-endian writers. This includes the hand-written two's complement of `putI64`.
  - The read cursor with `peek`, `get` and the big-endian readers.
- **Codecs**:
  - `scalars.dfy`: Nil, Bool, Int, Uint, Float, Bytes and Str.
  - `headers.dfy`: the blob and collection length headers.
  - `utf8.dfy`: the hand-written UTF-16 to UTF-8 transcoder.
  - `timestamps.dfy`: the Time codec, which is timestamp extension type -1 with its 32-, 64- and 96-bit forms.
  - `keys.dfy`: property names and the integers they spell. These are the `ToNumber` and `ToString` conversions that a `TypedMap` with an `Int` or `Uint` key codec relies on.
  - `codec.dfy`: the generic `TypedArr`/`TypedMap` codecs and `Any`.

`values.dfy` holds the data model:

- A closed `Value` datatype stands in for the JavaScript values the codecs see.
- A `Type` datatype stands in for the codec descriptors (`Any`, `Int`, `TypedArr(Int)`, …).

Encoders are pure functions from a value to the bytes they append. They return `Failure` where the source throws. Decoders take a `ReadBuffer` (the input bytes and a cursor). They return the value and the advanced cursor, or the exception that stops decoding. A read past the end of the input is `OutOfBounds`, the `RangeError` a `DataView` raises.

Bytes are `int`s in 0..255. Strings are sequences of UTF-16 code units, as in JavaScript.

The central result is `Codec.RoundTrip`. Take any descriptor `t` and any value `v` that `t` accepts (`Fits`) and that `Wf` admits. If `t.enc` writes bytes `bs`, then `t.dec` on a buffer holding `bs` reads back `Normalize(t, v)` and stops right after `bs`. Within the model, `Normalize` describes the two losses left on such values:

- `Nil` forgets its value and reads back `null`.
- `undefined` comes back as `null`.

`Wf` excludes the values on which the source loses more:

- Strings that are not well-formed UTF-16. An unpaired surrogate is transcoded to bytes that read back as a different character (`Utf8.LoneHighSurrogateAtEnd`).
- Integers outside [-2^63, 2^63), which the integer codecs do not cover.
- Dates more than 8.64e15 ms from the epoch, which JavaScript does not represent.
- Objects with a repeated property name.

The dates are round-tripped through the corrected `Time` encoder (see Findings), not the one the source has.

`Codec.AnyRoundTripExact` gives the exact round trip through `Any` for values without `undefined`.

The source loses more in three places that the `Value` datatype cannot express: a `Uint8Array` that comes back as an `ArrayBuffer`, arrays with holes, and inherited properties. These are listed under "## Left out".

## Model

| member | source | states |
|---|---|---|
| Tags.PosFixintTag | src/tags.ts:57-67 | the tag is `i & 0x7f` and satisfies the positive-fixint predicate; for 0 ≤ i ≤ 127 `readPosFixint` gives i back |
| Tags.NegFixintTag | src/tags.ts:71-81 | the tag is 0xe0 plus i modulo 32 and satisfies the negative-fixint predicate; for -32 ≤ i ≤ -1 `readNegFixint` gives i back |
| Tags.FixstrTag | src/tags.ts:85-95 | the tag is 0xa0 plus the length modulo 32 and satisfies the fixstr predicate; for lengths 0..31 `readFixstr` gives the length back |
| Tags.FixarrayTag | src/tags.ts:99-109 | the tag is 0x90 plus the length modulo 16 and satisfies the fixarray predicate; for lengths 0..15 `readFixarray` gives the length back |
| Tags.FixmapTag | src/tags.ts:113-123 | the tag is 0x80 plus the length modulo 16 and satisfies the fixmap predicate; for lengths 0..15 `readFixmap` gives the length back |
| Tags.FixRanges | src/tags.ts:61-119 | each masked predicate holds exactly on its byte range: 0x00-0x7f, 0xe0-0xff, 0xa0-0xbf, 0x90-0x9f, 0x80-0x8f |
| Tags.FixRangesDisjoint | src/tags.ts:61-119 | no byte satisfies two of the five fix-range predicates |
| Tags.FixRangesComplementExplicitBlock | src/tags.ts:56-123 | a byte is in some fix range exactly when it lies outside 0xc0..0xdf |
| Tags.ExplicitTagsReserved | src/tags.ts:2-52 | every explicit tag constant lies in 0xc0..0xdf and is in no fix range |
| Tags.TiersConsecutive | src/tags.ts:26-41 | the 16- and 32-bit Bin and Str tags are base+1 and base+2, and Array32/Map32 are base+1, as the header writers assume |
| Buffer.NewWriteBuffer | src/buffer.ts:40-42 | a new buffer has written nothing and has 64 bytes of room |
| Buffer.WriteBuffer.Need | src/buffer.ts:44-50 | afterwards there is room for x more bytes; the written bytes and the offset are unchanged; nothing is reallocated when there was room |
| Buffer.Grow | src/buffer.ts:44-50 | the array version: the new store holds at least n + x bytes, keeps bytes [0, n), and equals what `Need` describes |
| Buffer.WriteBuffer.Ui8Array | src/buffer.ts:127-129 | the copy is exactly the n bytes written so far, the front of the store |
| Buffer.WriteBuffer.Put | src/buffer.ts:53-57 | the written bytes become the old ones followed by the argument; the offset advances by its length |
| Buffer.WriteBuffer.PutUi8 | src/buffer.ts:96-100 | one byte, v modulo 256, is appended after the unchanged prefix; `putI8` (59-63) stores the same byte |
| Buffer.WriteBuffer.PutUi16 | src/buffer.ts:102-106 | two bytes whose big-endian value is v modulo 2^16 are appended after the unchanged prefix; likewise `putI16` (65-69) |
| Buffer.WriteBuffer.PutUi32 | src/buffer.ts:108-112 | four bytes whose big-endian value is v modulo 2^32 are appended after the unchanged prefix; likewise `putI32` (71-75) |
| Buffer.WriteBuffer.PutI64 | src/buffer.ts:77-94 | eight bytes are appended; for -2^63 ≤ v < 2^63 they are the 64-bit two's-complement big-endian word of v |
| Buffer.I64WordsAreHalves | src/buffer.ts:79-89 | the hand-negated hi/lo words agree modulo 2^32 with v div 2^32 and v mod 2^32, including the carry into hi only when the negated lo is 0 |
| Buffer.I64BytesIsTwosComplement | src/buffer.ts:77-94 | the bytes `putI64` writes are the 8-byte big-endian encoding of v modulo 2^64 |
| Buffer.WriteBuffer.PutUi64 | src/buffer.ts:114-119 | eight bytes are appended; for v ≥ 0 they are the 8-byte big-endian word of v |
| Buffer.Ui64BytesIsBigEndian | src/buffer.ts:114-119 | the high word `(v/2^32)\|0` then the low word `v % 2^32` form the 8-byte big-endian encoding of v |
| Buffer.ReadBuffer.Peek | src/buffer.ts:139-141 | returns the byte at the cursor exactly when there is one, and does not move the cursor |
| Buffer.ReadBuffer.Get | src/buffer.ts:143-146 | advances by len and returns bytes [n, n+len), cut short at the end of the input |
| Buffer.ReadBuffer.GetUi8 | src/buffer.ts:169-171 | returns the byte at the cursor and advances by one, failing at the end |
| Buffer.ReadBuffer.GetUnsigned | src/buffer.ts:173-181 | succeeds exactly when `width` bytes remain, advances by `width`, and returns the number below 256^width whose big-endian bytes are those read |
| Buffer.ReadBuffer.GetSigned | src/buffer.ts:148-160 | succeeds exactly when `width` bytes remain, advances by `width`, and returns the two's-complement number whose bytes are those read |
| Buffer.ReadBuffer.GetFixed | src/buffer.ts:190-198 | the float readers as opaque payloads: the `width` bytes at the cursor, failing past the end |
| Buffer.ReadBuffer.GetI64 | src/buffer.ts:162-167 | succeeds exactly when 8 bytes remain and advances by 8 |
| Buffer.I64Read | src/buffer.ts:162-167 | signed hi times 2^32 plus unsigned lo is a signed 64-bit number whose two's-complement word is the 8 bytes read |
| Buffer.ReadBuffer.GetUi64 | src/buffer.ts:183-188 | succeeds exactly when 8 bytes remain and advances by 8 |
| Buffer.Ui64Read | src/buffer.ts:183-188 | unsigned hi times 2^32 plus lo is below 2^64 and its big-endian word is the 8 bytes read |
| Buffer.I64RoundTrip | src/buffer.ts:162-167 | `getI64` reads back every v in [-2^63, 2^63) that `putI64` wrote, and moves past its 8 bytes |
| Buffer.Ui64RoundTrip | src/buffer.ts:183-188 | `getUi64` reads back every v in [0, 2^64) that `putUi64` wrote, and moves past its 8 bytes |
| Buffer.UnsignedRoundTrip | src/buffer.ts:173-181 | the unsigned readers give back v modulo 256^width from its big-endian bytes |
| Buffer.SignedRoundTrip | src/buffer.ts:148-160 | the signed readers give back every v in the signed range of the width from its big-endian bytes |
| Buffer.I64Example | src/tests.ts:93-97 | -2147483649 is written as ff ff ff ff 7f ff ff ff |
| Headers.PutBlobHeader | src/types.ts:443-456 | fails with the length-limit error exactly above 2^32-1; otherwise it is base, base+1 or base+2 followed by the length in the narrowest of 1, 2 or 4 bytes |
| Headers.GetBlobHeader | src/types.ts:458-478 | Nil reads as length 0 and a fixstr tag as its low bits; a non-blob tag is a type error; every length read is at most 2^32-1 |
| Headers.BlobHeaderRoundTrip | src/types.ts:458-478 | `getBlobHeader` reads back the length `putBlobHeader` wrote, for the Bin and the Str base, and moves past the header |
| Headers.PutCollectionHeader | src/types.ts:481-491 | fails with the length-limit error exactly above 2^32-1; otherwise it is base with 2 length bytes up to 65535, else base+1 with 4 |
| Headers.GetCollectionHeader | src/types.ts:493-504 | Nil reads as 0 without consuming anything; a tag other than Nil and the two tiers is a type error; a success never moves backwards and is at most 2^32-1 |
| Headers.CollectionHeaderRoundTrip | src/types.ts:493-504 | `getCollectionHeader` reads back the length `putCollectionHeader` wrote |
| Headers.PutArrayHeader | src/types.ts:321-327 | below 16 elements, the single fixarray byte for the count; otherwise Array16 exactly up to 65535 and Array32 above; length-limit error exactly above 2^32-1 |
| Headers.PutMapHeader | src/types.ts:361-367 | below 16 properties, the single fixmap byte for the count; otherwise Map16 exactly up to 65535 and Map32 above; length-limit error exactly above 2^32-1 |
| Headers.LongestArray16Header | src/tests.ts:208-212 | 65535 elements take the header Array16 ff ff |
| Headers.GetArrayHeader | src/types.ts:334-343 | with no expected size a fixarray tag reads as its low bits; with an expected size a success returns exactly that size; a success moves the cursor forward |
| Headers.GetMapHeader | src/types.ts:382-387 | a fixmap tag reads as its low bits, and the cursor moves forward |
| Headers.ArrayHeaderRoundTrip | src/types.ts:334-343 | `decHeader` reads back the length `encHeader` wrote, with no expected size or with the right one |
| Headers.MapHeaderRoundTrip | src/types.ts:382-387 | the map `decHeader` reads back the length the map `encHeader` wrote |
| Headers.ArrayHeaderMismatch | src/types.ts:339-341 | an expected size different from the written length is the header-size error |
| Scalars.NilEnc | src/types.ts:137-140 | one byte, the Nil tag, whatever the value |
| Scalars.NilDec | src/types.ts:142-148 | succeeds exactly on the Nil tag, consuming one byte; any other tag is a type error |
| Scalars.NilRoundTrip | src/types.ts:137-148 | `Nil.dec` accepts the single byte 0xc0 that `Nil.enc` writes |
| Scalars.BoolEnc | src/types.ts:152-155 | one byte: True exactly when the value is true, False otherwise |
| Scalars.BoolDec | src/types.ts:157-168 | succeeds exactly on Nil, False and True; true exactly on True; other tags are type errors |
| Scalars.BoolRoundTrip | src/types.ts:152-168 | `Bool.dec` reads back the boolean `Bool.enc` wrote |
| Scalars.IntEnc | src/types.ts:173-193 | tier choice: one fixint byte exactly for -31..127; Int8 exactly for -128..-32; Int16, Int32 and Int64 exactly in their ranges; never a Uint tag |
| Scalars.IntDec | src/types.ts:195-230 | succeeds only on an integer tag; Nil reads as 0; any other tag is a type error; end of input is out of bounds |
| Scalars.IntAfterTag | src/types.ts:203-229 | after the tag: Nil gives 0 without reading more, and non-integer tags are type errors |
| Scalars.IntRoundTrip | src/types.ts:173-230 | `Int.dec` reads back every v in [-2^63, 2^63) that `Int.enc` wrote, and moves past it |
| Scalars.UintEnc | src/types.ts:235-253 | fails exactly on negative numbers; otherwise fixint exactly up to 127, then Uint8, Uint16, Uint32 and Uint64 exactly in their ranges |
| Scalars.UintDec | src/types.ts:255-261 | succeeds exactly when `Int.dec` gives a non-negative number, with the same result; a negative one is the underflow error |
| Scalars.UintRoundTrip | src/types.ts:235-261 | both `Int.dec` and `Uint.dec` read back every v in [0, 2^64) that `Uint.enc` wrote |
| Scalars.UintRefusesNegative | src/types.ts:255-261 | `Uint.dec` of the bytes `Int.enc` writes for a negative number is the underflow error |
| Scalars.FloatEnc | src/types.ts:266-269 | the Float64 tag, then the 8 payload bytes unchanged |
| Scalars.FloatDec | src/types.ts:271-283 | accepts exactly Nil, Float32 and Float64, with a payload of 0, 4 or 8 bytes; Nil gives the payload of +0; other tags are type errors |
| Scalars.FloatRoundTrip | src/types.ts:265-283 | `Float.dec` gives back the 8 payload bytes `Float.enc` wrote after the Float64 tag |
| Scalars.BytesEnc | src/types.ts:288-291 | a Bin header, then the bytes themselves; length-limit error exactly above 2^32-1 |
| Scalars.BytesDec | src/types.ts:293-295 | succeeds exactly when the blob header reads; returns at most the header's length of bytes |
| Scalars.BytesRoundTrip | src/types.ts:287-296 | `Bytes.dec` reads back the bytes `Bytes.enc` wrote |
| Scalars.StrEnc | src/types.ts:300-308 | the UTF-8 bytes after a fixstr tag exactly when there are fewer than 32 of them, else after a Str8/16/32 header |
| Scalars.StrHeader | src/types.ts:302-306 | fixstr exactly below 32 bytes, otherwise a Str blob header; length-limit error exactly above 2^32-1 |
| Scalars.StrDec | src/types.ts:310-313 | a header failure is passed on unchanged; a success moves the cursor forward |
| Scalars.StrRoundTrip | src/types.ts:299-314 | `Str.dec` reads back every well-formed string `Str.enc` wrote |
| Scalars.LetterExample | src/types.ts:300-308 | a one-letter ASCII string is written as a1 and the letter |
| Scalars.IntExamples | src/tests.ts:48-72 | the test vectors for 7, -7, -128, -32768 and 32767 |
| Scalars.Int32Examples | src/tests.ts:73-82 | the test vectors for 2147483647 and -2147483648 |
| Scalars.Int64Examples | src/tests.ts:83-92 | the test vectors for 2147483648 and 4294967296 |
| Scalars.Int64NegativeExample | src/tests.ts:93-97 | the test vector for -2147483649 |
| Scalars.Int64LargeExamples | src/tests.ts:98-107 | the test vectors for 549764202560 and its negation |
| Scalars.IntTierBoundaries | src/types.ts:174-188 | -31 is a negative fixint but -32 takes Int8; 127 is a fixint and 128 takes Int16 |
| Scalars.UintExamples | src/tests.ts:108-128 | the test vectors for 7, 255, 65535 and 4294967295, and the refusal of -1 |
| Scalars.Uint64Examples | src/tests.ts:129-138 | the test vectors for 4294967296 and 549764202560 |
| Scalars.Int8Example | src/tests.ts:383-387 | Int8 0x9e reads as -98 |
| Utf8.EncodeCodePoint | src/types.ts:520-534 | one to four bytes: one exactly below 0x80 and four exactly from 0x10000; the lead byte announces the number of continuation bytes |
| Utf8.Combine | src/types.ts:516-518 | a high surrogate followed by a low one combines into a code point in 0x10000..0x10ffff |
| Utf8.ToUtf8 | src/types.ts:507-537 | at most four bytes per code unit (the buffer it allocates), and some bytes for a non-empty string |
| Utf8.FromCodePoints | src/types.ts:562 | succeeds exactly when every number is a code point; each becomes one or two UTF-16 units |
| Utf8.FromUtf8 | src/types.ts:539-563 | succeeds exactly when every collected code point is at most U+10FFFF, and otherwise fails naming one beyond it; at most two UTF-16 units per input byte, and some for non-empty input |
| Utf8.Utf8RoundTrip | src/types.ts:507-563 | `fromUTF8(toUTF8(s)) == s` for every well-formed string |
| Utf8.LoneHighSurrogateAtEnd | src/types.ts:515-534 | a trailing lone high surrogate becomes f0 80 80 80, which decodes as U+0000 |
| Utf8.SurrogatePairExample | src/tests.ts:177-181 | the pair d800 df48 is f0 90 8d 88, and decodes back |
| Utf8.MultiByteExamples | src/tests.ts:167-176 | "ä" is c3 a4 and "∞" is e2 88 9e |
| Timestamps.TimeEncAsWritten | src/types.ts:403-410 | the source's encoder, with JavaScript's truncating `%` and `putI64` of a fractional quotient: always 15 bytes behind the header Ext8, 12, type -1 |
| Timestamps.TimeEnc | src/types.ts:403-410 | the corrected encoder (floor division for the fields): always 15 bytes behind the header Ext8, 12, type -1 |
| Timestamps.TimeEncAgrees | src/types.ts:403-410 | for dates from the epoch on, the corrected encoder writes the same bytes as the source |
| Timestamps.TimeDec | src/types.ts:412-438 | succeeds only on FixExt4, FixExt8 or Ext8; any other tag is a type error; end of input is out of bounds |
| Timestamps.Ext96Millis | src/types.ts:433-435 | the exact `s*1000 + ns/1e6` truncated toward zero: less than one millisecond from the exact value, on the side of zero |
| Timestamps.Ext96MillisWhole | src/types.ts:433-435 | when the nanoseconds are whole milliseconds, as the encoder writes them, the result is exactly `s*1000 + ns/1e6` |
| Timestamps.Fix64Millis | src/types.ts:420-427 | the source's `(lo & 3) * 2^32 + hi` seconds and `lo / 4e6` are the 34-bit seconds (low 2 bits of the first word above the second word) and the 30-bit nanoseconds in whole milliseconds, the fraction dropped from the exact sum |
| Timestamps.TimeRoundTrip | src/types.ts:402-438 | `Time.dec` reads back every valid date, negative ones included, that the corrected encoder wrote |
| Timestamps.TimeRoundTripAsWritten | src/types.ts:402-438 | `Time.dec` reads back every date from the epoch on that the source's encoder wrote |
| Timestamps.TimeNegativeCounterexample | src/types.ts:408-409 | the source's encoding of -1500 ms reads back as 2794 ms |
| Timestamps.TimeWrongType | src/types.ts:415-428 | a 32- or 64-bit form whose type byte is not -1 is a type error |
| Timestamps.Ext96WrongHeader | src/types.ts:429-437 | a 96-bit form whose length is not 12, or whose type is not -1, is a type error |
| Timestamps.Fix32ReadBack | src/types.ts:415-419 | the 32-bit form reads as its seconds times 1000 |
| Timestamps.Fix64ReadBack | src/types.ts:420-428 | the 64-bit form reads as the milliseconds of its two words, the fraction of the exact sum truncated |
| Timestamps.Fix32Example | src/tests.ts:615-620 | FixExt4 ff 59 ca 52 a7 reads as 2017-09-26T13:14:15Z |
| Timestamps.Fix64Example | src/tests.ts:621-626 | the FixExt8 vector reads as 2017-09-26T13:14:15.016Z |
| Timestamps.Ext96Example | src/tests.ts:225-229 | 2017-09-26T13:14:15.016Z is written as the 15-byte Ext8 vector |
| Timestamps.Ext96WholeSecondExample | src/tests.ts:220-224 | 2017-09-26T13:14:15Z is written as the Ext8 vector with zero nanoseconds |
| Values.Assign | src/types.ts:393-394 | `res[k] = v`: an existing key keeps the object's size, and a new key is appended at the end |
| Values.AssignExisting | src/types.ts:393-394 | assigning to an existing key replaces its value in place |
| Values.AssignSameKeys | src/types.ts:393-394 | assigning to an existing key leaves every key where it was |
| Values.AssignDistinct | src/types.ts:393-394 | assignment keeps keys distinct, and the key is present afterwards |
| Values.AnyEncType | src/types.ts:29-54 | `undefined` and `null` go to Nil, non-negative integers to Uint and negative ones to Int, arrays to `TypedArr(Any)` and objects to `TypedMap(Any, Any)`; never `Any` itself |
| Values.AnyExact | src/types.ts:28-56 | a value comes back unchanged through `Any` exactly when it holds no `undefined` |
| Keys.Number | src/types.ts:377 | a property name converts to an integer only when it is that integer's decimal name, in the 64-bit range |
| Keys.DigitsRoundTrip | src/types.ts:393-394 | the decimal digits of n read back as n |
| Keys.NumberOfName | src/types.ts:377-394 | the name `res[k]` gives an integer key converts back to that integer |
| Keys.NumberIsInverse | src/types.ts:377-394 | `Number(name) == i` exactly when `name` is the decimal name of i and i is in the 64-bit range |
| Keys.NameInjective | src/types.ts:393-394 | different integer keys give different property names |
| Keys.KeyNameDefined | src/types.ts:393-394 | a decoded key has a property name exactly when it is a string, an integer, `null` or a boolean; a string names itself, and an integer's name converts back to it |
| Codec.Encode | src/types.ts:27-56 | for a value the codec accepts, the only exceptions are the length limit, a negative number given to `Uint`, and a property name an integer key codec cannot convert; a success writes at least one byte |
| Codec.EncodeItems | src/types.ts:329-332 | each element writes at least one byte, and only the encoder exceptions can occur |
| Codec.EncodeEntries | src/types.ts:369-380 | each property writes at least a key byte and a value byte, and only the encoder exceptions can occur |
| Codec.EncodeKey | src/types.ts:376-378 | `Str` and `Any` write the name as a string; `Int` succeeds exactly on the decimal names of 64-bit integers, and `Uint` on those of non-negative ones |
| Codec.EncodeScalar | src/types.ts:137-314 | Nil, Bool, Int, Float and Time never fail; Uint fails only on a negative number; Bytes and Str fail only on the length limit |
| Codec.AnyDecType | src/types.ts:59-130 | the codec `Any.dec` picks is never `Any` itself, and a refused tag is the unsupported-tag error naming it |
| Codec.Decode | src/types.ts:58-133 | a success moves the cursor forward; end of input is out of bounds |
| Codec.DecodeItems | src/types.ts:345-352 | a success returns exactly n elements |
| Codec.DecodeScalar | src/types.ts:137-314 | a success moves the cursor forward; end of input is out of bounds |
| Codec.DecodeEntries | src/types.ts:389-397 | at most n new properties, and the keys stay distinct |
| Codec.AnyDecTypeRefuses | src/types.ts:118-129 | `Any.dec` refuses exactly 0xc1, Ext16, Ext32, FixExt1, FixExt2 and FixExt16 |
| Codec.AnyTag | src/types.ts:58-133 | the first byte `Any.enc` writes makes `Any.dec` pick the same codec, except that a Uint tier may be read by `Int` |
| Codec.AnyDispatch | src/types.ts:58-133 | on what `Any.enc` wrote, `Any.dec` gives exactly the result of the codec `Any.enc` chose |
| Codec.ScalarRoundTrip | src/types.ts:137-314 | every scalar codec reads back what it wrote, up to `Normalize` |
| Codec.RoundTrip | src/types.ts:27-133 | every codec, `Any` and the nested array and map codecs included, reads back what it wrote, up to `Normalize` |
| Codec.ArrRoundTrip | src/types.ts:319-354 | `TypedArr(e).dec` reads back the elements `TypedArr(e).enc` wrote, in order |
| Codec.ItemsRoundTrip | src/types.ts:345-352 | the element loop reads back every element in order and stops after the last |
| Codec.MapRoundTrip | src/types.ts:359-399 | `TypedMap(k, e).dec` reads back the properties `TypedMap(k, e).enc` wrote, in order |
| Codec.EntriesRoundTrip | src/types.ts:389-397 | the pair loop reads back each key and value and assigns them in order |
| Codec.DecodeKey | src/types.ts:393-394 | reading a key and converting it to a property name only ever moves forward through the buffer |
| Codec.KeyRoundTrip | src/types.ts:376-394 | a property name written by the key codec reads back, through the key codec and the conversion to a property name, as the very name written |
| Codec.StrKeyRoundTrip | src/types.ts:376-394 | through `Str` or `Any`, the key reads back as the same string |
| Codec.IntKeyRoundTrip | src/types.ts:376-394 | through `Int` or `Uint`, the key reads back as the integer the name spells, whose name is the one written |
| Codec.ArrayExamples | src/tests.ts:203-212 | `repeat(13, 7)` is 97 then seven 0d; `repeat(13, 65535)` is dc ff ff then 65535 0d |
| Codec.RepeatedItems | src/types.ts:329-332 | n copies of a small non-negative integer under `Any` are n positive fixint bytes |
| Codec.MapExample | src/tests.ts:214-218 | `{a: 7, b: 13}` under `Map` is 82 a1 61 07 a1 62 0d |
| Codec.MapExampleReads | src/tests.ts:214-218 | those bytes read back as `{a: 7, b: 13}` |
| Codec.AnyRoundTripExact | src/types.ts:27-133 | `Any.dec(Any.enc(v)) == v` for every value of the `Value` datatype without `undefined` |
| Codec.DecodedMapDistinct | src/types.ts:389-397 | a decoded object never has two properties with the same name |

## Left out

- Floating point. IEEE 754 values are not modelled. A `Float` value carries its 8 payload bytes. `putF`, `getF32` and `getF64` (src/buffer.ts:121-125, 190-198) copy those bytes unchanged. Widening a Float32 to a number and the `Any.enc` branch that sends non-integral numbers to `Float` (src/types.ts:38) are not modelled. The `Nil` reading of `Float.dec` gives the payload of +0.
- Runtime reflection. `Any.enc` inspects values with `typeof`, `instanceof` and `Array.isArray` (src/types.ts:30-54). Here those kinds are the constructors of the closed `Value` datatype, so the `TypeError` for functions and symbols cannot arise.
- Property order. `for…in` enumeration order (src/types.ts:371-373) is not modelled: an object is its sequence of properties in the order given. JavaScript would enumerate integer-like keys first.
- Codec.DecodeEntries: a decoded key is converted to its property name by `Keys.KeyName`. That covers strings, integers, `null` and booleans. A float, a byte array, a date, an array or an object as a key is refused with `UnsupportedKey`; the source would convert it with JavaScript's `ToString`. The special `__proto__` key is not modelled either.
- Codec.EncodeKey, Values.Fits: the `Int` and `Uint` key codecs accept only names that spell an integer of the 64-bit range in canonical decimal form. Other names get `UnsupportedKey`. The source instead writes whatever `ToNumber` makes of them: for "05" the number 5, which reads back as "5"; for "a" the number NaN. The `Float` key codec is not modelled, because floats are opaque payloads here. Nor is the `Nil` key codec (src/types.ts:137-149), which type-checks as a key codec too: `TypedMap(Nil, V)` writes `c0` for every key, and its decoder then assigns every value to the single property "null" (src/types.ts:393-394).
- Utf8.FromCodePoints, Utf8.FromUtf8, Utf8.Utf8RoundTrip, Scalars.StrRoundTrip, Codec.ScalarRoundTrip, Codec.RoundTrip, Codec.AnyRoundTripExact: `fromUTF8` ends with `String.fromCodePoint.apply(null, codepoints)` (src/types.ts:562). This passes every code point as a separate argument. JavaScript engines limit the number of arguments `apply` can pass, and throw a `RangeError` beyond it (in V8, around 10^5 arguments). So `Str.dec` fails on strings of a few hundred kilobytes. That limit depends on the engine and is not modelled: these members succeed and round-trip at every length.
- Codec.RoundTrip, Scalars.IntRoundTrip, Scalars.UintRoundTrip, Buffer.I64RoundTrip and Buffer.Ui64RoundTrip: integers are exact, so the round trips hold for the whole 64-bit ranges. A JavaScript number is exact only up to 2^53, so the source loses precision above that and these lemmas claim more than the source delivers.
- Dates. A date is its millisecond count. Fractional milliseconds, and the invalid date that `new Date` gives beyond 8.64e15 ms, are not modelled: `Wf` admits only valid dates. The decoder truncates the exact millisecond value toward zero.
- Timestamps.Ext96Millis, Timestamps.Fix64Millis, Timestamps.TimeDec, Timestamps.Fix64ReadBack: the binary64 rounding of the source's sums `s*1000 + ns/1000000` and `(hi + (lo&3)*2^32)*1000 + lo/4000000` (src/types.ts:425, 434) is not modelled. The source rounds the sum to the nearest double before `new Date` truncates it. A fraction just below one millisecond can therefore round up. For example, ns = 999999999 at s = 1506431655 gives 1506431656000 ms in the source and 1506431655999 here. The two agree whenever the nanoseconds are whole milliseconds (`Timestamps.Ext96MillisWhole`), which is all the encoder writes, so the round trips are unaffected.
- Codec.RoundTrip, Codec.AnyRoundTripExact: three losses of the source fall outside the `Value` datatype and are not modelled. First, `Any.enc` sends a `Uint8Array` to `Bytes` (src/types.ts:48), and `Bytes.dec` returns an `ArrayBuffer` (src/types.ts:293-295), so the value read back has another type; here both are `Bytes`. Second, `TypedArr.enc` writes the header for `v.length`, but `forEach` skips holes (src/types.ts:329-332): `[1, , 3]` is written as `93 01 03` and cannot be read back. An `Array` value has no holes. Third, `for…in` (src/types.ts:371-373) also enumerates inherited enumerable properties, which come back as own properties. A `Map` value holds only the properties enumerated.
- Values.Fits, Codec.Encode: `Int` and `Uint` accept only `Int` values, so their encoders on a non-integral number are not modelled. The source does not throw there. `Int.enc(1.5)` and `Uint.enc(1.5)` write `01` through the `& 0x7f` of `posFixintTag` (src/types.ts:172-174, 238). `Int.enc(NaN)` fails every range comparison and takes the Int64 tier with zero words.
- Timestamps.TimeEnc, Codec.Encode, Codec.RoundTrip, Codec.AnyRoundTripExact: the rest of the model uses the corrected encoder with floor division, so these describe the corrected program for dates before the epoch. The source's encoder is `Timestamps.TimeEncAsWritten`. They agree from the epoch on (see Findings).
- `createReadBuffer` ignores the `byteOffset` of a typed-array view it is given (src/buffer.ts:135). The model reads the given byte sequence itself.
- `Struct`, `Union` and the fixed-width number descriptors that src/index.ts imports are not part of this model: they are not defined in src/types.ts. Also left out:
  - `encode`/`decode` in src/index.ts, which wrap a buffer around `Any`;
  - the duplicate `typeError` in src/error.ts. Errors are `Failure` values of the `Error` datatype.

## Findings

| source | as written | input that shows it | evidently intended | confidence | as-written member | corrected member |
|---|---|---|---|---|---|---|
| src/types.ts:408-409 | `Time.enc` writes nanoseconds `(ms%1000)*1000000` and seconds `ms/1000`. JavaScript's `%` keeps the sign of `ms`, and `putI64` truncates the seconds toward zero. | ms = -1500 writes nanoseconds 2^32 - 500000000 and seconds -1; `Time.dec` reads that back as 2794 ms | the timestamp format's fields: seconds rounded toward minus infinity and nanoseconds in 0..999999999, so that every date reads back | not executed | Timestamps.TimeEncAsWritten, Timestamps.TimeNegativeCounterexample | Timestamps.TimeEnc, Timestamps.TimeRoundTrip |

=== FILE: buffer.dfy ===
/** The byte cursors of `src/buffer.ts`: a growable write buffer with
    big-endian fixed-width writers, and a sequential read cursor with
    `peek`/`get` and big-endian readers. Floats are carried as opaque
    4- or 8-byte payloads by the codecs and need no writer or reader here. */
module Buffer {
  import opened Wrappers
  import opened Errors
  import opened Words

  /** Initial capacity of a write buffer, and the minimum growth step. */
  const Chunk: nat := 64

  function Max(a: int, b: int): int {
    if a >= b then a else b
  }

  function Min(a: int, b: int): int {
    if a <= b then a else b
  }

  function Zeros(k: nat): (z: seq<Byte>)
    ensures |z| == k && forall i :: 0 <= i < k ==> z[i] == 0
  {
    seq(k, _ => 0)
  }

  // ---------------------------------------------------------------------------
  // 64-bit writers
  // ---------------------------------------------------------------------------

  /** The two 32-bit words `putI64(v)` passes to `setUint32`. The magnitude
      is split into halves with `|0`; a negative value is then negated by
      hand: the low half is complemented and incremented, and the carry
      reaches the high half only when the negated low half is zero. */
  function I64Words(v: int): (hl: (int, int))
  {
    var neg := v < 0;
    var m := if neg then -v else v;
    var hi := ToInt32(m / TwoTo32);
    var lo := ToInt32(m % TwoTo32);
    var lo' := if neg then ToInt32(BitNot(lo) + 1) else lo;
    var hi' := if neg then (if lo' == 0 then ToInt32(BitNot(hi) + 1) else BitNot(hi)) else hi;
    (hi', lo')
  }

  /** The eight bytes `putI64(v)` stores: each word modulo 2^32, high word first. */
  function I64Bytes(v: int): (r: seq<Byte>)
    ensures |r| == 8
  {
    BigEndian(I64Words(v).0, 4) + BigEndian(I64Words(v).1, 4)
  }

  /** The eight bytes `putUi64(v)` stores: `(v/2^32)|0` then `v % 2^32`. */
  function Ui64Bytes(v: int): (r: seq<Byte>)
    ensures |r| == 8
  {
    BigEndian(ToInt32(TruncDiv(v, TwoTo32)), 4) + BigEndian(TruncRem(v, TwoTo32), 4)
  }

  /** The words of `putI64` are the high and low halves of v's 64-bit
      two's complement, modulo 2^32. */
  lemma I64WordsAreHalves(v: int)
    requires -TwoTo63 <= v < TwoTo63
    ensures I64Words(v).0 % TwoTo32 == (v / TwoTo32) % TwoTo32
    ensures I64Words(v).1 % TwoTo32 == v % TwoTo32
  {
    var m := if v < 0 then -v else v;
    var H, L := m / TwoTo32, m % TwoTo32;
    assert m == TwoTo32 * H + L;
    var (hi, lo) := I64Words(v);
    if v >= 0 {
      assert H < TwoTo31;
      assert hi == H;
    } else {
      NegativeHalves(v, H, L, hi, lo);
    }
  }

  /** The negative branch of `putI64`: complementing and incrementing the
      magnitude's halves, with the carry, yields the halves of `v`. */
  lemma NegativeHalves(v: int, H: int, L: int, hi: int, lo: int)
    requires v < 0 && -v == TwoTo32 * H + L && 0 <= L < TwoTo32
    requires lo == ToInt32(BitNot(ToInt32(L)) + 1)
    requires hi == (if lo == 0 then ToInt32(BitNot(ToInt32(H)) + 1) else BitNot(ToInt32(H)))
    ensures hi % TwoTo32 == (v / TwoTo32) % TwoTo32
    ensures lo % TwoTo32 == v % TwoTo32
  {
    NegWord(L, lo);
    if L == 0 {
      ResidueInjective(lo, 0, TwoTo32, -TwoTo31);
      NegWord(H, hi);
      DivModUnique(v, TwoTo32, -H, 0);
    } else {
      DivModUnique(-L, TwoTo32, -1, TwoTo32 - L);
      assert lo != 0;
      NotWord(H, hi);
      DivModUnique(v, TwoTo32, -H - 1, TwoTo32 - L);
    }
  }

  /** `(~(x|0) + 1)|0` is `-x` modulo 2^32. */
  lemma NegWord(x: int, r: int)
    requires r == ToInt32(BitNot(ToInt32(x)) + 1)
    ensures r % TwoTo32 == (-x) % TwoTo32
  {
    var a := ToInt32(x);
    var b := BitNot(a);
    DiffOfCongruent(x, a);
    SumOfMultiples(b + a + 1, x - a);
    CongruentFromDifference(b + 1, -x);
  }

  /** `~(x|0)` is `-x - 1` modulo 2^32. */
  lemma NotWord(x: int, r: int)
    requires r == BitNot(ToInt32(x))
    ensures r % TwoTo32 == (-x - 1) % TwoTo32
  {
    var a := ToInt32(x);
    DiffOfCongruent(x, a);
    SumOfMultiples(r + a + 1, x - a);
    CongruentFromDifference(r, -x - 1);
  }

  lemma DiffOfCongruent(a: int, b: int)
    requires a % TwoTo32 == b % TwoTo32
    ensures (a - b) % TwoTo32 == 0
  {
    DivModUnique(a - b, TwoTo32, a / TwoTo32 - b / TwoTo32, 0);
  }

  lemma SumOfMultiples(p: int, q: int)
    requires p % TwoTo32 == 0 && q % TwoTo32 == 0
    ensures (p + q) % TwoTo32 == 0
  {
    DivModUnique(p + q, TwoTo32, p / TwoTo32 + q / TwoTo32, 0);
  }

  /** The hand-written two's complement of `putI64` is the 64-bit
      two's-complement encoding of every integer in [-2^63, 2^63). */
  lemma I64BytesIsTwosComplement(v: int)
    requires -TwoTo63 <= v < TwoTo63
    ensures I64Bytes(v) == BigEndian(v, 8)
  {
    var (hi, lo) := I64Words(v);
    assert BigEndian(hi, 4) == BigEndian(v / TwoTo32, 4) by {
      assert Pow256(4) == TwoTo32;
      I64WordsAreHalves(v);
      BigEndianCongruent(hi, v / TwoTo32, 4);
    }
    assert BigEndian(lo, 4) == BigEndian(v % TwoTo32, 4) by {
      assert Pow256(4) == TwoTo32;
      I64WordsAreHalves(v);
      ModIdempotent(v, TwoTo32);
      BigEndianCongruent(lo, v % TwoTo32, 4);
    }
    BigEndianSplit8(v);
  }

  lemma ModIdempotent(x: int, m: int)
    requires m > 0
    ensures (x % m) % m == x % m
  {
    DivModUnique(x % m, m, 0, x % m);
  }

  /** a and b are congruent modulo 2^32 when their difference is a multiple of it. */
  lemma CongruentFromDifference(a: int, b: int)
    requires (a - b) % TwoTo32 == 0
    ensures a % TwoTo32 == b % TwoTo32
  {
    var k := (a - b) / TwoTo32;
    assert a - b == TwoTo32 * k;
    DivModUnique(a, TwoTo32, b / TwoTo32 + k, b % TwoTo32);
  }

  /** `putUi64` is the 64-bit unsigned big-endian encoding of every non-negative integer
      below 2^64, high word `v div 2^32` first. */
  lemma Ui64BytesIsBigEndian(v: int)
    requires 0 <= v
    ensures Ui64Bytes(v) == BigEndian(v, 8)
  {
    assert Pow256(4) == TwoTo32;
    assert TruncDiv(v, TwoTo32) == v / TwoTo32 && TruncRem(v, TwoTo32) == v % TwoTo32;
    BigEndianCongruent(ToInt32(v / TwoTo32), v / TwoTo32, 4);
    BigEndianSplit8(v);
  }

  // ---------------------------------------------------------------------------
  // Write buffer
  // ---------------------------------------------------------------------------

  /** `createWriteBuffer()`: a backing store `view` and a write offset `n`. */
  datatype WriteBuffer = WriteBuffer(view: seq<Byte>, n: nat) {

    /** The write offset never passes the end of the backing store. */
    predicate Valid() {
      n <= |view|
    }

    /** `ui8array()`: a copy of the bytes written so far. */
    function Ui8Array(): (r: seq<Byte>)
      requires Valid()
      ensures |r| == n && r <= view
    {
      view[..n]
    }

    /** `need(x)`: make room for `x` more bytes. A reallocation copies the
        written region into a store of max(n + x, capacity + 64) bytes. */
    function Need(x: nat): (w: WriteBuffer)
      requires Valid()
      ensures w.Valid() && w.n == n
      ensures |w.view| >= n + x
      ensures w.Ui8Array() == Ui8Array()
      ensures n + x <= |view| ==> w == this
    {
      if n + x > |view| then
        WriteBuffer(view[..n] + Zeros(Max(n + x, |view| + Chunk) - n), n)
      else
        this
    }

    /** `put(v)`: append raw bytes. */
    function Put(bs: seq<Byte>): (w: WriteBuffer)
      requires Valid()
      ensures w.Valid() && w.n == n + |bs|
      ensures w.Ui8Array() == Ui8Array() + bs
    {
      var g := Need(|bs|);
      var w := WriteBuffer(g.view[..n] + bs + g.view[n + |bs|..], n + |bs|);
      assert w.Ui8Array() == g.view[..n] + bs;
      w
    }

    /** `putUi8(v)`, and `putI8(v)`, which stores the same byte: `v` modulo 2^8. */
    function PutUi8(v: int): (w: WriteBuffer)
      requires Valid()
      ensures w.Valid() && w.n == n + 1
      ensures w.Ui8Array()[..n] == Ui8Array()
      ensures w.Ui8Array()[n] == v % 0x100
    {
      Put(BigEndian(v, 1))
    }

    /** `putUi16(v)` and `putI16(v)`: two bytes, big-endian, `v` modulo 2^16. */
    function PutUi16(v: int): (w: WriteBuffer)
      requires Valid()
      ensures w.Valid() && w.n == n + 2
      ensures w.Ui8Array()[..n] == Ui8Array()
      ensures FromBigEndian(w.Ui8Array()[n..]) == v % TwoTo16
    {
      var w := Put(BigEndian(v, 2));
      assert w.Ui8Array()[n..] == BigEndian(v, 2);
      BigEndianValue(v, 2);
      w
    }

    /** `putUi32(v)` and `putI32(v)`: four bytes, big-endian, `v` modulo 2^32. */
    function PutUi32(v: int): (w: WriteBuffer)
      requires Valid()
      ensures w.Valid() && w.n == n + 4
      ensures w.Ui8Array()[..n] == Ui8Array()
      ensures FromBigEndian(w.Ui8Array()[n..]) == v % TwoTo32
    {
      var w := Put(BigEndian(v, 4));
      assert w.Ui8Array()[n..] == BigEndian(v, 4);
      BigEndianValue(v, 4);
      w
    }

    /** `putI64(v)`: eight bytes, the two's-complement encoding of `v`
        (its 64-bit big-endian word modulo 2^64). */
    function PutI64(v: int): (w: WriteBuffer)
      requires Valid()
      ensures w.Valid() && w.n == n + 8
      ensures w.Ui8Array()[..n] == Ui8Array()
      ensures -TwoTo63 <= v < TwoTo63 ==> w.Ui8Array()[n..] == BigEndian(v, 8)
    {
      I64PutParts(this, v);
      Put(I64Bytes(v))
    }

    /** `putUi64(v)`: eight bytes, high word then low word. */
    function PutUi64(v: int): (w: WriteBuffer)
      requires Valid()
      ensures w.Valid() && w.n == n + 8
      ensures w.Ui8Array()[..n] == Ui8Array()
      ensures 0 <= v ==> w.Ui8Array()[n..] == BigEndian(v, 8)
    {
      Ui64PutParts(this, v);
      Put(Ui64Bytes(v))
    }
  }

  /** What `putI64` and `putUi64` leave in the buffer. */
  lemma I64PutParts(b: WriteBuffer, v: int)
    requires b.Valid()
    ensures b.Put(I64Bytes(v)).Ui8Array()[..b.n] == b.Ui8Array()
    ensures -TwoTo63 <= v < TwoTo63 ==> b.Put(I64Bytes(v)).Ui8Array()[b.n..] == BigEndian(v, 8)
  {
    PutParts(b, I64Bytes(v));
    if -TwoTo63 <= v < TwoTo63 {
      I64BytesIsTwosComplement(v);
    }
  }

  lemma Ui64PutParts(b: WriteBuffer, v: int)
    requires b.Valid()
    ensures b.Put(Ui64Bytes(v)).Ui8Array()[..b.n] == b.Ui8Array()
    ensures 0 <= v ==> b.Put(Ui64Bytes(v)).Ui8Array()[b.n..] == BigEndian(v, 8)
  {
    PutParts(b, Ui64Bytes(v));
    if 0 <= v {
      Ui64BytesIsBigEndian(v);
    }
  }

  /** After `put(bs)` the written bytes are the old ones followed by `bs`. */
  lemma PutParts(b: WriteBuffer, bs: seq<Byte>)
    requires b.Valid()
    ensures b.Put(bs).Ui8Array()[..b.n] == b.Ui8Array()
    ensures b.Put(bs).Ui8Array()[b.n..] == bs
  {
  }

  /** A fresh write buffer: 64 bytes of capacity, nothing written. */
  function NewWriteBuffer(): (w: WriteBuffer)
    ensures w.Valid() && w.Ui8Array() == [] && |w.view| == Chunk
  {
    WriteBuffer(Zeros(Chunk), 0)
  }

  /** `need(x)` on a mutable store: allocate the larger array and copy the
      written prefix byte by byte. It computes exactly `WriteBuffer.Need`. */
  method Grow(view: array<Byte>, n: nat, x: nat) returns (grown: array<Byte>)
    requires n <= view.Length
    ensures grown.Length >= n + x
    ensures grown[..n] == view[..n]
    ensures grown[..] == WriteBuffer(view[..], n).Need(x).view
  {
    if n + x <= view.Length {
      return view;
    }
    grown := new Byte[Max(n + x, view.Length + Chunk)](_ => 0);
    var i := 0;
    while i < n
      invariant 0 <= i <= n
      invariant grown[..i] == view[..i]
      invariant forall k :: i <= k < grown.Length ==> grown[k] == 0
    {
      grown[i] := view[i];
      i := i + 1;
    }
    assert grown[..] == view[..n] + Zeros(grown.Length - n);
  }

  // ---------------------------------------------------------------------------
  // Read buffer
  // ---------------------------------------------------------------------------

  /** A decoded item and the cursor just after it. */
  datatype Decoded<+T> = Decoded(item: T, rest: ReadBuffer)

  /** `createReadBuffer(buf)`: the input bytes and a read offset. The offset
      may run past the end after a `get` of a truncated payload; every
      fixed-width read there fails. */
  datatype ReadBuffer = ReadBuffer(data: seq<Byte>, n: nat) {

    /** Unread bytes; the decoders' termination measure. */
    function Remaining(): nat {
      if n < |data| then |data| - n else 0
    }

    /** The cursor `k` bytes further on. */
    function Skip(k: nat): ReadBuffer {
      ReadBuffer(data, n + k)
    }

    /** `peek()`: the next byte, without advancing. */
    function Peek(): (r: Outcome<Byte>)
      ensures r.Success? <==> n < |data|
      ensures r.Success? ==> r.value == data[n]
    {
      if n < |data| then Success(data[n]) else Failure(OutOfBounds)
    }

    /** `get(len)`: advance by `len` and return the bytes passed over, cut
        short at the end of the input as `ArrayBuffer.slice` does. */
    function Get(len: nat): (r: Decoded<seq<Byte>>)
      ensures r.rest == Skip(len)
      ensures |r.item| <= len
      ensures n + len <= |data| ==> r.item == data[n..n + len]
      ensures n <= |data| < n + len ==> r.item == data[n..]
      ensures |data| < n ==> r.item == []
    {
      Decoded(data[Min(n, |data|)..Min(n + len, |data|)], Skip(len))
    }

    /** An unsigned big-endian read of `width` bytes (`getUint8/16/32`). */
    function GetUnsigned(width: nat): (r: Outcome<Decoded<nat>>)
      ensures r.Success? <==> n + width <= |data|
      ensures r.Success? ==> r.value.rest == Skip(width)
      ensures r.Success? ==> r.value.item < Pow256(width)
      ensures r.Success? ==> BigEndian(r.value.item, width) == data[n..n + width]
    {
      if n + width <= |data| then
        var u := FromBigEndian(data[n..n + width]);
        BigEndianOfFromBigEndian(data[n..n + width]);
        Success(Decoded(u, Skip(width)))
      else
        Failure(OutOfBounds)
    }

    /** A two's-complement big-endian read of `width` bytes (`getInt8/16/32`). */
    function GetSigned(width: nat): (r: Outcome<Decoded<int>>)
      requires 1 <= width
      ensures r.Success? <==> n + width <= |data|
      ensures r.Success? ==> r.value.rest == Skip(width)
      ensures r.Success? ==> -(Pow256(width) as int) / 2 <= r.value.item < Pow256(width) / 2
      ensures r.Success? ==> BigEndian(r.value.item, width) == data[n..n + width]
    {
      if n + width <= |data| then
        var u := FromBigEndian(data[n..n + width]);
        var s := Signed(u, width);
        BigEndianUnique(s, data[n..n + width]);
        Success(Decoded(s, Skip(width)))
      else
        Failure(OutOfBounds)
    }

    /** `getUi8()`: the next byte. */
    function GetUi8(): (r: Outcome<Decoded<Byte>>)
      ensures r.Success? <==> n < |data|
      ensures r.Success? ==> r.value == Decoded(data[n], Skip(1))
    {
      if n < |data| then Success(Decoded(data[n], Skip(1))) else Failure(OutOfBounds)
    }

    function GetUi16(): Outcome<Decoded<nat>> {
      GetUnsigned(2)
    }

    function GetUi32(): Outcome<Decoded<nat>> {
      GetUnsigned(4)
    }

    function GetI8(): Outcome<Decoded<int>> {
      GetSigned(1)
    }

    function GetI16(): Outcome<Decoded<int>> {
      GetSigned(2)
    }

    function GetI32(): Outcome<Decoded<int>> {
      GetSigned(4)
    }

    /** `getF32()`/`getF64()`: the raw IEEE 754 payload of `width` bytes,
        kept opaque; a read past the end fails like every DataView read. */
    function GetFixed(width: nat): (r: Outcome<Decoded<seq<Byte>>>)
      ensures r.Success? <==> n + width <= |data|
      ensures r.Success? ==> r.value == Decoded(data[n..n + width], Skip(width))
    {
      if n + width <= |data| then Success(Decoded(data[n..n + width], Skip(width))) else Failure(OutOfBounds)
    }

    /** `getI64()`: the signed high word (`getInt32`) times 2^32 plus the
        unsigned low word (`getUint32`). */
    function GetI64(): (r: Outcome<Decoded<int>>)
      ensures r.Success? <==> n + 8 <= |data|
      ensures r.Success? ==> r.value.rest == Skip(8)
    {
      if n + 8 <= |data| then
        var hi := Signed(FromBigEndian(data[n..n + 4]), 4);
        var lo := FromBigEndian(data[n + 4..n + 8]);
        Success(Decoded(hi * TwoTo32 + lo, Skip(8)))
      else
        Failure(OutOfBounds)
    }

    /** `getUi64()`: unsigned high word times 2^32 plus unsigned low word. */
    function GetUi64(): (r: Outcome<Decoded<int>>)
      ensures r.Success? <==> n + 8 <= |data|
      ensures r.Success? ==> r.value.rest == Skip(8)
    {
      if n + 8 <= |data| then
        var hi := FromBigEndian(data[n..n + 4]);
        var lo := FromBigEndian(data[n + 4..n + 8]);
        Success(Decoded(hi * TwoTo32 + lo, Skip(8)))
      else
        Failure(OutOfBounds)
    }
  }

  /** What `getI64` reads is a signed 64-bit integer whose two's-complement
      word is the eight bytes it passed over. */
  lemma I64Read(r: ReadBuffer)
    requires r.n + 8 <= |r.data|
    ensures -TwoTo63 <= r.GetI64().value.item < TwoTo63
    ensures BigEndian(r.GetI64().value.item, 8) == r.data[r.n..r.n + 8]
  {
    var hi := Signed(FromBigEndian(r.data[r.n..r.n + 4]), 4);
    var lo := FromBigEndian(r.data[r.n + 4..r.n + 8]);
    WordRead(r.data, r.n, r.GetI64().value.item, hi, lo, -TwoTo31, TwoTo31);
  }

  /** What `getUi64` reads is an unsigned 64-bit integer whose word is the
      eight bytes it passed over. */
  lemma Ui64Read(r: ReadBuffer)
    requires r.n + 8 <= |r.data|
    ensures 0 <= r.GetUi64().value.item < TwoTo64
    ensures BigEndian(r.GetUi64().value.item, 8) == r.data[r.n..r.n + 8]
  {
    var hi := FromBigEndian(r.data[r.n..r.n + 4]);
    var lo := FromBigEndian(r.data[r.n + 4..r.n + 8]);
    assert hi % TwoTo32 == hi by {
      assert Pow256(4) == TwoTo32;
      DivModUnique(hi, TwoTo32, 0, hi);
    }
    WordRead(r.data, r.n, r.GetUi64().value.item, hi, lo, 0, TwoTo32);
  }

  /** The two halves read from eight bytes join into the word of those bytes. */
  lemma WordRead(data: seq<Byte>, n: nat, v: int, hi: int, lo: int, a: int, b: int)
    requires n + 8 <= |data| && a <= hi < b && v == hi * TwoTo32 + lo
    requires hi % TwoTo32 == FromBigEndian(data[n..n + 4]) && lo == FromBigEndian(data[n + 4..n + 8])
    ensures a * TwoTo32 <= v < b * TwoTo32
    ensures BigEndian(v, 8) == data[n..n + 8]
  {
    assert Pow256(4) == TwoTo32;
    BigEndianUnique(hi, data[n..n + 4]);
    BigEndianUnique(lo, data[n + 4..n + 8]);
    WordBounds(hi, lo, a, b);
    JoinHalves(v, hi, lo);
    Concat(data, n, 4, 8);
  }

  /** Adjacent slices join. */
  lemma Concat(data: seq<Byte>, i: nat, j: nat, k: nat)
    requires i + j <= i + k <= |data| && j <= k
    ensures data[i..i + k] == data[i..i + j] + data[i + j..i + k]
  {
  }

  /** `hi * 2^32 + lo` stays within the range the high word scales to. */
  lemma WordBounds(hi: int, lo: int, a: int, b: int)
    requires a <= hi < b && 0 <= lo < TwoTo32
    ensures a * TwoTo32 <= hi * TwoTo32 + lo < b * TwoTo32
  {
    MulAtLeast(TwoTo32, b - hi);
    if a < hi {
      MulAtLeast(TwoTo32, hi - a);
    }
  }

  /** The eight-byte word of `hi * 2^32 + lo` is hi's four bytes then lo's. */
  lemma JoinHalves(v: int, hi: int, lo: int)
    requires v == hi * TwoTo32 + lo && 0 <= lo < TwoTo32
    ensures BigEndian(v, 8) == BigEndian(hi, 4) + BigEndian(lo, 4)
  {
    DivModUnique(v, TwoTo32, hi, lo);
    BigEndianSplit8(v);
  }

  /** A successful read moved the cursor forward over at least one byte of
      the same input, so the number of unread bytes went down. */
  predicate Consumed(r: ReadBuffer, rest: ReadBuffer)
    ensures Consumed(r, rest) ==> rest.Remaining() < r.Remaining()
  {
    rest.data == r.data && r.n < |r.data| && r.n < rest.n
  }

  // ---------------------------------------------------------------------------
  // Positioned reads
  // ---------------------------------------------------------------------------

  /** The unread input of `r` starts with `e`. */
  predicate At(r: ReadBuffer, e: seq<Byte>) {
    r.n + |e| <= |r.data| && r.data[r.n..r.n + |e|] == e
  }

  /** Reading a concatenation: first part here, second part after it. */
  lemma AtAppend(r: ReadBuffer, a: seq<Byte>, b: seq<Byte>)
    requires At(r, a + b)
    ensures At(r, a) && At(r.Skip(|a|), b)
  {
    assert r.data[r.n..r.n + |a|] == (a + b)[..|a|];
    assert r.data[r.n + |a|..r.n + |a| + |b|] == (a + b)[|a|..];
  }

  /** Reading three pieces one after the other. */
  lemma AtThree(r: ReadBuffer, a: seq<Byte>, b: seq<Byte>, c: seq<Byte>)
    requires At(r, a + b + c)
    ensures At(r, a) && At(r.Skip(|a|), b) && At(r.Skip(|a|).Skip(|b|), c)
  {
    AtAppend(r, a + b, c);
    AtAppend(r, a, b);
    SkipAdd(r, |a|, |b|);
  }

  /** `get` of exactly the bytes the input continues with returns them. */
  lemma GetAt(r: ReadBuffer, e: seq<Byte>)
    requires At(r, e)
    ensures r.Get(|e|) == Decoded(e, r.Skip(|e|))
  {
  }

  /** Skipping `a` then `b` bytes is skipping `a + b`. */
  lemma SkipAdd(r: ReadBuffer, a: nat, b: nat)
    ensures r.Skip(a).Skip(b) == r.Skip(a + b)
  {
  }

  /** Skipping two pieces one after the other is skipping their concatenation. */
  lemma SkipAppend(r: ReadBuffer, a: seq<Byte>, b: seq<Byte>)
    ensures r.Skip(|a|).Skip(|b|) == r.Skip(|a + b|)
  {
  }

  /** A 64-bit signed round trip through the buffers: what `putI64` writes, `getI64` reads. */
  lemma I64RoundTrip(v: int, r: ReadBuffer)
    requires -TwoTo63 <= v < TwoTo63 && At(r, I64Bytes(v))
    ensures r.GetI64() == Success(Decoded(v, r.Skip(8)))
  {
    I64BytesIsTwosComplement(v);
    var g := r.GetI64();
    assert g.Success?;
    I64Read(r);
    var d := g.value.item;
    assert BigEndian(d, 8) == BigEndian(v, 8);
    SameWordSameResidue(d, v, 8);
    assert Pow256(8) == TwoTo64;
    ResidueInjective(d, v, TwoTo64, -TwoTo63);
  }

  /** A 64-bit unsigned round trip: what `putUi64` writes, `getUi64` reads. */
  lemma Ui64RoundTrip(v: int, r: ReadBuffer)
    requires 0 <= v < TwoTo64 && At(r, Ui64Bytes(v))
    ensures r.GetUi64() == Success(Decoded(v, r.Skip(8)))
  {
    Ui64BytesIsBigEndian(v);
    var g := r.GetUi64();
    assert g.Success?;
    Ui64Read(r);
    var d := g.value.item;
    assert BigEndian(d, 8) == BigEndian(v, 8);
    SameWordSameResidue(d, v, 8);
    assert Pow256(8) == TwoTo64;
    ResidueInjective(d, v, TwoTo64, 0);
  }

  /** Writing then reading a `width`-byte word recovers it modulo 256^width. */
  lemma UnsignedRoundTrip(v: int, width: nat, r: ReadBuffer)
    requires At(r, BigEndian(v, width))
    ensures r.GetUnsigned(width) == Success(Decoded(v % Pow256(width), r.Skip(width)))
  {
    BigEndianValue(v, width);
  }

  /** Writing then reading a signed `width`-byte word recovers it when it is in range. */
  lemma SignedRoundTrip(v: int, width: nat, r: ReadBuffer)
    requires 1 <= width && -(Pow256(width) as int) / 2 <= v < Pow256(width) / 2
    requires At(r, BigEndian(v, width))
    ensures r.GetSigned(width) == Success(Decoded(v, r.Skip(width)))
  {
    var e := BigEndian(v, width);
    var g := r.GetSigned(width);
    assert g.Success?;
    var d := g.value.item;
    assert BigEndian(d, width) == e;
    SameWordSameResidue(d, v, width);
    ResidueInjective(d, v, Pow256(width), -(Pow256(width) as int) / 2);
  }

  /** Two numbers with the same `w`-byte word agree modulo 256^w. */
  lemma SameWordSameResidue(a: int, b: int, w: nat)
    requires BigEndian(a, w) == BigEndian(b, w)
    ensures a % Pow256(w) == b % Pow256(w)
  {
    BigEndianValue(a, w);
    BigEndianValue(b, w);
  }

  /** Example from the tests: -2147483649 is written as ff ff ff ff 7f ff ff ff. */
  lemma I64Example()
    ensures I64Bytes(-2147483649) == [0xff, 0xff, 0xff, 0xff, 0x7f, 0xff, 0xff, 0xff]
  {
  }
}

=== FILE: codec.dfy ===
/** The codecs as one family indexed by their descriptor: the scalar codecs,
    `TypedArr`, `TypedMap` and `Any`, which picks a codec from the value on
    encode and from the peeked tag on decode. */
module Codec {
  import opened Wrappers
  import opened Seqs
  import opened Errors
  import opened Words
  import opened Tags
  import opened Buffer
  import opened Headers
  import opened Utf8
  import opened Scalars
  import opened Timestamps
  import opened Values
  import opened Keys

  /** The descriptors with no nested codec. */
  predicate IsScalar(t: Type) {
    !(t.AnyT? || t.ArrT? || t.MapT?)
  }

  // ---------------------------------------------------------------------------
  // Encoding
  // ---------------------------------------------------------------------------

  /** `t.enc(buf, v)`: the bytes appended to the buffer, or the exception
      that stops the encoding: a length above 2^32 - 1, a negative number
      given to `Uint`, or a property name an integer key codec cannot take. */
  function Encode(t: Type, v: Value): (e: Outcome<seq<Byte>>)
    requires Fits(t, v)
    ensures e.Success? ==> |e.value| >= 1
    ensures e.Failure? ==> e.error == LengthLimit || e.error.NotUnsigned? || e.error == UnsupportedKey
    decreases Size(v), TypeRank(t)
  {
    match t
    case AnyT => Encode(AnyEncType(v), v)
    case ArrT(e) =>
      var h :- PutArrayHeader(|v.items|);
      var body :- EncodeItems(e, v.items);
      Success(h + body)
    case MapT(k, e) =>
      var h :- PutMapHeader(|v.entries|);
      var body :- EncodeEntries(k, e, v.entries);
      Success(h + body)
    case _ => EncodeScalar(t, v)
  }

  /** `valueT.enc` on each element in order (`v.forEach`). */
  function EncodeItems(t: Type, items: seq<Value>): (e: Outcome<seq<Byte>>)
    requires FitsItems(t, items)
    ensures e.Success? && |items| > 0 ==> |e.value| >= |items|
    ensures e.Failure? ==> e.error == LengthLimit || e.error.NotUnsigned? || e.error == UnsupportedKey
    decreases SizeItems(items), 2
  {
    if |items| == 0 then Success([])
    else
      var x :- Encode(t, items[0]);
      var xs :- EncodeItems(t, items[1..]);
      Success(x + xs)
  }

  /** `keyT.enc(buf, p)` then `valueT.enc(buf, v[p])` for each property in order. */
  function EncodeEntries(kt: Type, vt: Type, entries: seq<Entry>): (e: Outcome<seq<Byte>>)
    requires IsKeyType(kt) && FitsEntries(vt, entries)
    ensures e.Success? && |entries| > 0 ==> |e.value| >= 2 * |entries|
    ensures e.Failure? ==> e.error == LengthLimit || e.error.NotUnsigned? || e.error == UnsupportedKey
    decreases SizeEntries(entries), 2
  {
    if |entries| == 0 then Success([])
    else
      var k :- EncodeKey(kt, entries[0].key);
      var x :- Encode(vt, entries[0].val);
      var xs :- EncodeEntries(kt, vt, entries[1..]);
      Success(k + x + xs)
  }

  /** `keyT.enc(buf, p)` on a property name `p`. `Str` and `Any` write the
      name as a string. `Int` and `Uint` take the number `ToNumber(p)`; the
      model follows that conversion for the names that spell a 64-bit
      integer canonically and refuses every other name. */
  function EncodeKey(kt: Type, name: seq<CodeUnit>): (e: Outcome<seq<Byte>>)
    requires IsKeyType(kt)
    ensures e.Success? ==> |e.value| >= 1
    ensures (kt.StrT? || kt.AnyT?) ==> e == StrEnc(name)
    ensures kt.IntT? ==> (e.Success? <==> Number(name).Some?)
    ensures kt.UintT? ==> (e.Success? <==> Number(name).Some? && Number(name).value >= 0)
    ensures e.Failure? ==> e.error == LengthLimit || e.error.NotUnsigned? || e.error == UnsupportedKey
  {
    if kt.StrT? || kt.AnyT? then StrEnc(name)
    else
      match Number(name)
      case None => Failure(UnsupportedKey)
      case Some(i) => if kt.IntT? then Success(IntEnc(i)) else UintEnc(i)
  }

  /** The scalar codecs' `enc`. */
  function EncodeScalar(t: Type, v: Value): (e: Outcome<seq<Byte>>)
    requires IsScalar(t) && Fits(t, v)
    ensures e.Success? ==> |e.value| >= 1
    ensures e.Failure? ==> e.error == LengthLimit || e.error.NotUnsigned?
    ensures e.Failure? ==> (t.UintT? && v.i < 0) || ((t.BytesT? || t.StrT?) && e.error == LengthLimit)
    ensures t.NilT? || t.BoolT? || t.IntT? || t.FloatT? || t.TimeT? ==> e.Success?
  {
    match t
    case NilT => Success(NilEnc())
    case BoolT => Success(BoolEnc(v.b))
    case IntT => Success(IntEnc(v.i))
    case UintT => UintEnc(v.i)
    case FloatT => Success(FloatEnc(v.bits))
    case BytesT => BytesEnc(v.bytes)
    case StrT => StrEnc(v.s)
    case TimeT => Success(TimeEnc(v.ms))
  }

  // ---------------------------------------------------------------------------
  // Decoding
  // ---------------------------------------------------------------------------

  /** The codec `Any.dec` picks for a peeked tag: the explicit tags first,
      then the fix ranges; the remaining extension tags and the unused byte
      0xc1 are refused. */
  function AnyDecType(tag: Byte): (t: Outcome<Type>)
    ensures t.Success? ==> !t.value.AnyT?
    ensures t.Failure? ==> t.error == UnsupportedTag(tag)
  {
    if tag == Nil then Success(NilT)
    else if tag == False || tag == True then Success(BoolT)
    else if tag == Int8 || tag == Int16 || tag == Int32 || tag == Int64 then Success(IntT)
    else if tag == Uint8 || tag == Uint16 || tag == Uint32 || tag == Uint64 then Success(UintT)
    else if tag == Float32 || tag == Float64 then Success(FloatT)
    else if tag == Bin8 || tag == Bin16 || tag == Bin32 then Success(BytesT)
    else if tag == Str8 || tag == Str16 || tag == Str32 then Success(StrT)
    else if tag == Array16 || tag == Array32 then Success(ArrT(AnyT))
    else if tag == Map16 || tag == Map32 then Success(MapT(AnyT, AnyT))
    else if tag == FixExt4 || tag == FixExt8 || tag == Ext8 then Success(TimeT)
    else if IsPosFixintTag(tag) || IsNegFixintTag(tag) then Success(IntT)
    else if IsFixstrTag(tag) then Success(StrT)
    else if IsFixarrayTag(tag) then Success(ArrT(AnyT))
    else if IsFixmapTag(tag) then Success(MapT(AnyT, AnyT))
    else Failure(UnsupportedTag(tag))
  }

  /** `t.dec(buf)`: the value read and the cursor after it, or the
      exception that stops the decoding. */
  function Decode(t: Type, r: ReadBuffer): (d: Outcome<Decoded<Value>>)
    ensures d.Success? ==> Consumed(r, d.value.rest)
    ensures |r.data| <= r.n ==> d == Failure(OutOfBounds)
    decreases r.Remaining(), TypeRank(t)
  {
    match t
    case AnyT =>
      var tag :- r.Peek();
      var ty :- AnyDecType(tag);
      Decode(ty, r)
    case ArrT(e) =>
      var h :- GetArrayHeader(r, None);
      var items :- DecodeItems(e, h.rest, h.item);
      Success(Decoded(Array(items.item), items.rest))
    case MapT(k, e) =>
      var h :- GetMapHeader(r);
      var entries :- DecodeEntries(k, e, h.rest, h.item, []);
      Success(Decoded(Map(entries.item), entries.rest))
    case _ => DecodeScalar(t, r)
  }

  /** `n` elements in order (`while(n-- > 0) res.push(valueT.dec(buf))`). */
  function DecodeItems(t: Type, r: ReadBuffer, n: nat): (d: Outcome<Decoded<seq<Value>>>)
    ensures d.Success? ==> |d.value.item| == n
    ensures d.Success? ==> d.value.rest.data == r.data && r.n <= d.value.rest.n
    decreases r.Remaining(), 2
  {
    if n == 0 then Success(Decoded([], r))
    else
      var x :- Decode(t, r);
      var xs :- DecodeItems(t, x.rest, n - 1);
      Success(Decoded([x.item] + xs.item, xs.rest))
  }

  /** `n` key/value pairs, each assigned into the object under
      construction (`res[k] = valueT.dec(buf)`), so a repeated key keeps
      its first position and its last value. */
  function DecodeEntries(kt: Type, vt: Type, r: ReadBuffer, n: nat, acc: seq<Entry>)
    : (d: Outcome<Decoded<seq<Entry>>>)
    ensures d.Success? ==> |d.value.item| <= |acc| + n
    ensures d.Success? ==> d.value.rest.data == r.data && r.n <= d.value.rest.n
    ensures d.Success? && DistinctKeys(acc) ==> DistinctKeys(d.value.item)
    decreases r.Remaining(), 3
  {
    if n == 0 then Success(Decoded(acc, r))
    else
      var k :- DecodeKey(kt, r);
      var x :- Decode(vt, k.rest);
      AssignDistinct(acc, k.item, x.item);
      DecodeEntries(kt, vt, x.rest, n - 1, Assign(acc, k.item, x.item))
  }

  /** `keyT.dec(buf)`, then the property name `res[k]` converts the key
      to. A key without a modelled conversion is refused. */
  function DecodeKey(kt: Type, r: ReadBuffer): (d: Outcome<Decoded<seq<CodeUnit>>>)
    ensures d.Success? ==> Consumed(r, d.value.rest)
    decreases r.Remaining(), 2
  {
    var k :- Decode(kt, r);
    match KeyName(k.item)
    case None => Failure(UnsupportedKey)
    case Some(name) => Success(Decoded(name, k.rest))
  }

  /** The scalar codecs' `dec`. */
  function DecodeScalar(t: Type, r: ReadBuffer): (d: Outcome<Decoded<Value>>)
    requires IsScalar(t)
    ensures d.Success? ==> Consumed(r, d.value.rest)
    ensures |r.data| <= r.n ==> d == Failure(OutOfBounds)
  {
    match t
    case NilT =>
      var x :- NilDec(r);
      Success(Decoded(Null, x.rest))
    case BoolT =>
      var x :- BoolDec(r);
      Success(Decoded(Bool(x.item), x.rest))
    case IntT =>
      var x :- IntDec(r);
      Success(Decoded(Int(x.item), x.rest))
    case UintT =>
      var x :- UintDec(r);
      Success(Decoded(Int(x.item), x.rest))
    case FloatT =>
      var x :- FloatDec(r);
      Success(Decoded(Float(x.item), x.rest))
    case BytesT =>
      var x :- BytesDec(r);
      Success(Decoded(Bytes(x.item), x.rest))
    case StrT =>
      var x :- StrDec(r);
      Success(Decoded(Str(x.item), x.rest))
    case TimeT =>
      var x :- TimeDec(r);
      Success(Decoded(Time(x.item), x.rest))
  }

  // ---------------------------------------------------------------------------
  // Round trips
  // ---------------------------------------------------------------------------

  /** Every scalar codec reads back what it wrote, up to `Normalize`. */
  lemma ScalarRoundTrip(t: Type, v: Value, bs: seq<Byte>, r: ReadBuffer)
    requires IsScalar(t) && Fits(t, v) && Wf(v)
    requires EncodeScalar(t, v) == Success(bs) && At(r, bs)
    ensures DecodeScalar(t, r) == Success(Decoded(Normalize(t, v), r.Skip(|bs|)))
  {
    match t
    case NilT => NilRoundTrip(r);
    case BoolT => BoolRoundTrip(v.b, r);
    case IntT => IntRoundTrip(v.i, r);
    case UintT => UintRoundTrip(v.i, bs, r);
    case FloatT => FloatRoundTrip(v.bits, r);
    case BytesT => BytesRoundTrip(v.bytes, bs, r);
    case StrT => StrRoundTrip(v.s, bs, r);
    case TimeT => TimeRoundTrip(v.ms, r);
  }

  /** The tag `Any.enc` writes first leads `Any.dec` back to the codec that
      wrote it, except that a non-negative integer below 128, which `Uint`
      writes as a positive fixint, is read by `Int`. */
  lemma AnyTag(v: Value, bs: seq<Byte>)
    requires Fits(AnyEncType(v), v) && Encode(AnyEncType(v), v) == Success(bs)
    ensures AnyDecType(bs[0]) == Success(AnyEncType(v))
      || (AnyEncType(v) == UintT && AnyDecType(bs[0]) == Success(IntT))
  {
    match v
    case Int(i) =>
      if i < 0 {
        assert bs == IntEnc(i);
        IntTagsPickInt(bs[0]);
      } else {
        assert UintEnc(i) == Success(bs);
        IntTagsPickInt(bs[0]);
        UintTagsPickUint(bs[0]);
      }
    case Str(s) =>
      assert StrEnc(s) == Success(bs);
      StrTagsPickStr(bs[0]);
    case Time(ms) =>
      assert bs[0] == TimeEnc(ms)[..3][0];
    case Array(items) =>
      var h := PutArrayHeader(|items|).value;
      assert bs[0] == h[0];
      ArrayTagsPickArr(h[0]);
    case Map(entries) =>
      var h := PutMapHeader(|entries|).value;
      assert bs[0] == h[0];
      MapTagsPickMap(h[0]);
    case _ =>
  }

  /** The tags of both fixint ranges and of the signed tiers make `Any.dec` pick `Int`. */
  lemma IntTagsPickInt(t: Byte)
    ensures IsPosFixintTag(t) || IsNegFixintTag(t) || t == Int8 || t == Int16 || t == Int32 || t == Int64
      ==> AnyDecType(t) == Success(IntT)
  {
    FixRanges(t);
  }

  /** The unsigned tier tags make `Any.dec` pick `Uint`. */
  lemma UintTagsPickUint(t: Byte)
    ensures t == Uint8 || t == Uint16 || t == Uint32 || t == Uint64 ==> AnyDecType(t) == Success(UintT)
  {
  }

  /** The fixstr tags and the Str tiers make `Any.dec` pick `Str`. */
  lemma StrTagsPickStr(t: Byte)
    ensures IsFixstrTag(t) || t == Str8 || t == Str16 || t == Str32 ==> AnyDecType(t) == Success(StrT)
  {
    FixRanges(t);
  }

  /** The fixarray tags and the Array tiers make `Any.dec` pick `Arr`. */
  lemma ArrayTagsPickArr(t: Byte)
    ensures IsFixarrayTag(t) || t == Array16 || t == Array32 ==> AnyDecType(t) == Success(ArrT(AnyT))
  {
    FixRanges(t);
  }

  /** The fixmap tags and the Map tiers make `Any.dec` pick `Map`. */
  lemma MapTagsPickMap(t: Byte)
    ensures IsFixmapTag(t) || t == Map16 || t == Map32 ==> AnyDecType(t) == Success(MapT(AnyT, AnyT))
  {
    FixRanges(t);
  }

  /** `Any.dec` on what `Any.enc` wrote reads as the codec `Any.enc` chose. */
  lemma AnyDispatch(v: Value, bs: seq<Byte>, r: ReadBuffer)
    requires Fits(AnyEncType(v), v) && Wf(v)
    requires Encode(AnyEncType(v), v) == Success(bs) && At(r, bs)
    ensures Decode(AnyT, r) == Decode(AnyEncType(v), r)
  {
    AnyTag(v, bs);
    assert r.data[r.n] == bs[0];
    if AnyEncType(v) == UintT {
      UintRoundTrip(v.i, bs, r);
    }
  }

  /** Every codec reads back what it wrote, for every well-formed value its
      static type admits: `t.dec` after `t.enc` returns the value up to
      `Normalize` and leaves the cursor right after the bytes written. */
  lemma {:induction false} RoundTrip(t: Type, v: Value, bs: seq<Byte>, r: ReadBuffer)
    requires Fits(t, v) && Wf(v) && Encode(t, v) == Success(bs) && At(r, bs)
    ensures Decode(t, r) == Success(Decoded(Normalize(t, v), r.Skip(|bs|)))
    decreases Size(v), TypeRank(t), 1
  {
    match t
    case AnyT =>
      RoundTrip(AnyEncType(v), v, bs, r);
      AnyDispatch(v, bs, r);
    case ArrT(e) => ArrRoundTrip(e, v, bs, r);
    case MapT(k, e) => MapRoundTrip(k, e, v, bs, r);
    case _ => ScalarRoundTrip(t, v, bs, r);
  }

  /** `TypedArr(e)`: the header, then the elements. */
  lemma {:induction false} ArrRoundTrip(e: Type, v: Value, bs: seq<Byte>, r: ReadBuffer)
    requires Fits(ArrT(e), v) && Wf(v) && Encode(ArrT(e), v) == Success(bs) && At(r, bs)
    ensures Decode(ArrT(e), r) == Success(Decoded(Normalize(ArrT(e), v), r.Skip(|bs|)))
    decreases Size(v), 0, 0
  {
    var h := PutArrayHeader(|v.items|).value;
    var body := EncodeItems(e, v.items).value;
    assert bs == h + body;
    AtAppend(r, h, body);
    ArrayHeaderRoundTrip(|v.items|, h, r, None);
    ItemsRoundTrip(e, v.items, body, r.Skip(|h|));
    SkipAppend(r, h, body);
    ArrSteps(e, r, |v.items|, NormalizeItems(e, v.items), r.Skip(|h|), r.Skip(|h|).Skip(|body|));
  }

  /** Arrays in two steps: the header, then that many elements. */
  lemma ArrSteps(e: Type, r: ReadBuffer, n: nat, items: seq<Value>, r1: ReadBuffer, r2: ReadBuffer)
    requires GetArrayHeader(r, None) == Success(Decoded(n, r1))
    requires DecodeItems(e, r1, n) == Success(Decoded(items, r2))
    ensures Decode(ArrT(e), r) == Success(Decoded(Array(items), r2))
  {
  }

  /** `TypedMap(k, e)`: the header, then the properties. */
  lemma {:induction false} MapRoundTrip(k: Type, e: Type, v: Value, bs: seq<Byte>, r: ReadBuffer)
    requires Fits(MapT(k, e), v) && Wf(v) && Encode(MapT(k, e), v) == Success(bs) && At(r, bs)
    ensures Decode(MapT(k, e), r) == Success(Decoded(Normalize(MapT(k, e), v), r.Skip(|bs|)))
    decreases Size(v), 0, 0
  {
    var h := PutMapHeader(|v.entries|).value;
    var body := EncodeEntries(k, e, v.entries).value;
    assert bs == h + body;
    AtAppend(r, h, body);
    MapHeaderRoundTrip(|v.entries|, h, r);
    EntriesRoundTrip(k, e, v.entries, body, r.Skip(|h|), []);
    SkipAppend(r, h, body);
    var entries := NormalizeEntries(e, v.entries);
    assert [] + entries == entries;
    MapSteps(k, e, r, |v.entries|, entries, r.Skip(|h|), r.Skip(|h|).Skip(|body|));
  }

  /** Maps in two steps: the header, then that many properties. */
  lemma MapSteps(kt: Type, e: Type, r: ReadBuffer, n: nat, entries: seq<Entry>, r1: ReadBuffer, r2: ReadBuffer)
    requires GetMapHeader(r) == Success(Decoded(n, r1))
    requires DecodeEntries(kt, e, r1, n, []) == Success(Decoded(entries, r2))
    ensures Decode(MapT(kt, e), r) == Success(Decoded(Map(entries), r2))
  {
  }

  /** The elements of an array, read back in order. */
  lemma {:induction false} ItemsRoundTrip(t: Type, items: seq<Value>, bs: seq<Byte>, r: ReadBuffer)
    requires FitsItems(t, items) && WfItems(items)
    requires EncodeItems(t, items) == Success(bs) && At(r, bs)
    ensures DecodeItems(t, r, |items|) == Success(Decoded(NormalizeItems(t, items), r.Skip(|bs|)))
    decreases SizeItems(items), 2, 0
  {
    if |items| > 0 {
      var x := Encode(t, items[0]).value;
      var xs := EncodeItems(t, items[1..]).value;
      assert bs == x + xs;
      AtAppend(r, x, xs);
      RoundTrip(t, items[0], x, r);
      ItemsRoundTrip(t, items[1..], xs, r.Skip(|x|));
      SkipAppend(r, x, xs);
      ItemsSteps(t, r, items, Normalize(t, items[0]), r.Skip(|x|), NormalizeItems(t, items[1..]), r.Skip(|x|).Skip(|xs|));
    }
  }

  /** The first element, then the others. */
  lemma ItemsSteps<X>(t: Type, r: ReadBuffer, items: seq<X>, x: Value, r1: ReadBuffer, xs: seq<Value>, r2: ReadBuffer)
    requires |items| > 0 && Decode(t, r) == Success(Decoded(x, r1))
    requires DecodeItems(t, r1, |items[1..]|) == Success(Decoded(xs, r2))
    ensures DecodeItems(t, r, |items|) == Success(Decoded([x] + xs, r2))
  {
  }

  /** The properties of an object, read back in order after the entries
      `acc` already assigned; no key repeats, so each one is appended. */
  lemma {:induction false} EntriesRoundTrip(kt: Type, vt: Type, entries: seq<Entry>, bs: seq<Byte>,
                                            r: ReadBuffer, acc: seq<Entry>)
    requires IsKeyType(kt) && FitsEntries(vt, entries) && WfEntries(entries)
    requires DistinctKeys(entries) && forall i :: 0 <= i < |entries| ==> !HasKey(acc, entries[i].key)
    requires EncodeEntries(kt, vt, entries) == Success(bs) && At(r, bs)
    ensures DecodeEntries(kt, vt, r, |entries|, acc)
      == Success(Decoded(acc + NormalizeEntries(vt, entries), r.Skip(|bs|)))
    decreases SizeEntries(entries), 2, 0
  {
    if |entries| == 0 {
      assert acc + NormalizeEntries(vt, entries) == acc;
    } else {
      var key, val := entries[0].key, entries[0].val;
      var kb, x, xs := EntryParts(kt, vt, entries, bs);
      AtThree(r, kb, x, xs);
      KeyRoundTrip(kt, key, kb, r);
      RoundTrip(vt, val, x, r.Skip(|kb|));
      var nval := Normalize(vt, val);
      var acc' := acc + [Entry(key, nval)];
      TailKeys(entries, acc, key, nval);
      EntriesRoundTrip(kt, vt, entries[1..], xs, r.Skip(|kb|).Skip(|x|), acc');
      EntriesReadBack(kt, vt, entries, acc, nval, r, kb, x, xs, bs);
    }
  }

  /** A property name reads back as itself: the key codec reads a key
      whose property name is the one written. */
  lemma KeyRoundTrip(kt: Type, key: seq<CodeUnit>, bs: seq<Byte>, r: ReadBuffer)
    requires IsKeyType(kt) && WellFormed(key)
    requires EncodeKey(kt, key) == Success(bs) && At(r, bs)
    ensures DecodeKey(kt, r) == Success(Decoded(key, r.Skip(|bs|)))
  {
    var kv: Value;
    if kt.StrT? || kt.AnyT? {
      kv := Str(key);
      StrKeyRoundTrip(kt, key, bs, r);
    } else {
      kv := IntKeyRoundTrip(kt, key, bs, r);
    }
    KeyStep(kt, r, kv, key, r.Skip(|bs|));
  }

  /** A key read back, then its property name. */
  lemma KeyStep(kt: Type, r: ReadBuffer, kv: Value, key: seq<CodeUnit>, r1: ReadBuffer)
    requires Decode(kt, r) == Success(Decoded(kv, r1)) && KeyName(kv) == Some(key)
    ensures DecodeKey(kt, r) == Success(Decoded(key, r1))
  {
  }

  /** `Str` and `Any` read a name written as a string back as that string. */
  lemma StrKeyRoundTrip(kt: Type, key: seq<CodeUnit>, bs: seq<Byte>, r: ReadBuffer)
    requires (kt.StrT? || kt.AnyT?) && WellFormed(key)
    requires StrEnc(key) == Success(bs) && At(r, bs)
    ensures Decode(kt, r) == Success(Decoded(Str(key), r.Skip(|bs|)))
  {
    ScalarRoundTrip(StrT, Str(key), bs, r);
    if kt.AnyT? {
      AnyDispatch(Str(key), bs, r);
    }
  }

  /** `Int` and `Uint` read a key written as an integer back as that
      integer, whose name is the one written. */
  lemma IntKeyRoundTrip(kt: Type, key: seq<CodeUnit>, bs: seq<Byte>, r: ReadBuffer) returns (kv: Value)
    requires (kt.IntT? || kt.UintT?) && EncodeKey(kt, key) == Success(bs) && At(r, bs)
    ensures Decode(kt, r) == Success(Decoded(kv, r.Skip(|bs|))) && KeyName(kv) == Some(key)
  {
    var i := Number(key).value;
    kv := Int(i);
    assert EncodeScalar(kt, kv) == Success(bs);
    ScalarRoundTrip(kt, kv, bs, r);
  }

  /** The bytes of the first property: its name, its value, then the rest. */
  lemma EntryParts(kt: Type, vt: Type, entries: seq<Entry>, bs: seq<Byte>)
    returns (kb: seq<Byte>, x: seq<Byte>, xs: seq<Byte>)
    requires IsKeyType(kt) && FitsEntries(vt, entries) && |entries| > 0
    requires EncodeEntries(kt, vt, entries) == Success(bs)
    ensures EncodeKey(kt, entries[0].key) == Success(kb) && Encode(vt, entries[0].val) == Success(x)
    ensures EncodeEntries(kt, vt, entries[1..]) == Success(xs) && bs == kb + x + xs
  {
    kb := EncodeKey(kt, entries[0].key).value;
    x := Encode(vt, entries[0].val).value;
    xs := EncodeEntries(kt, vt, entries[1..]).value;
  }

  /** The first key and its value, then the other properties. */
  lemma EntriesReadBack(kt: Type, vt: Type, entries: seq<Entry>, acc: seq<Entry>, nval: Value,
                        r: ReadBuffer, kb: seq<Byte>, x: seq<Byte>, xs: seq<Byte>, bs: seq<Byte>)
    requires |entries| > 0 && !HasKey(acc, entries[0].key) && nval == Normalize(vt, entries[0].val)
    requires bs == kb + x + xs
    requires DecodeKey(kt, r) == Success(Decoded(entries[0].key, r.Skip(|kb|)))
    requires Decode(vt, r.Skip(|kb|)) == Success(Decoded(nval, r.Skip(|kb|).Skip(|x|)))
    requires DecodeEntries(kt, vt, r.Skip(|kb|).Skip(|x|), |entries[1..]|, acc + [Entry(entries[0].key, nval)])
      == Success(Decoded(acc + [Entry(entries[0].key, nval)] + NormalizeEntries(vt, entries[1..]),
                         r.Skip(|kb|).Skip(|x|).Skip(|xs|)))
    ensures DecodeEntries(kt, vt, r, |entries|, acc)
      == Success(Decoded(acc + NormalizeEntries(vt, entries), r.Skip(|bs|)))
  {
    var key := entries[0].key;
    AppendFirst(vt, entries, acc, nval);
    SkipAppend(r, kb, x);
    SkipAppend(r, kb + x, xs);
    EntriesSteps(kt, vt, r, entries, acc, key, r.Skip(|kb|), nval, r.Skip(|kb|).Skip(|x|));
  }

  /** Assigning a fresh first property appends it, and the rest follows. */
  lemma AppendFirst(vt: Type, entries: seq<Entry>, acc: seq<Entry>, nval: Value)
    requires |entries| > 0 && !HasKey(acc, entries[0].key) && nval == Normalize(vt, entries[0].val)
    ensures Assign(acc, entries[0].key, nval) == acc + [Entry(entries[0].key, nval)]
    ensures acc + [Entry(entries[0].key, nval)] + NormalizeEntries(vt, entries[1..])
      == acc + NormalizeEntries(vt, entries)
  {
    var e, rest := Entry(entries[0].key, nval), NormalizeEntries(vt, entries[1..]);
    assert NormalizeEntries(vt, entries) == [e] + rest;
    AppendAssociative(acc, [e], rest);
  }

  /** One key and its value, assigned, then the other properties. */
  lemma EntriesSteps<X>(kt: Type, vt: Type, r: ReadBuffer, entries: seq<X>, acc: seq<Entry>,
                        key: seq<CodeUnit>, r1: ReadBuffer, x: Value, r2: ReadBuffer)
    requires |entries| > 0
    requires DecodeKey(kt, r) == Success(Decoded(key, r1)) && Decode(vt, r1) == Success(Decoded(x, r2))
    ensures DecodeEntries(kt, vt, r, |entries|, acc) == DecodeEntries(kt, vt, r2, |entries[1..]|, Assign(acc, key, x))
  {
  }

  /** After the first entry of a map with distinct keys is appended to
      `acc`, no remaining key is in it. */
  lemma TailKeys(entries: seq<Entry>, acc: seq<Entry>, key: seq<CodeUnit>, val: Value)
    requires |entries| > 0 && entries[0].key == key
    requires DistinctKeys(entries) && forall i :: 0 <= i < |entries| ==> !HasKey(acc, entries[i].key)
    ensures DistinctKeys(entries[1..])
    ensures forall i :: 0 <= i < |entries[1..]| ==> !HasKey(acc + [Entry(key, val)], entries[1..][i].key)
  {
    var tail := entries[1..];
    forall i | 0 <= i < |tail|
      ensures !HasKey(acc + [Entry(key, val)], tail[i].key)
    {
      assert tail[i] == entries[i + 1];
      assert !HasKey(acc, entries[i + 1].key);
      forall j | 0 <= j < |acc| + 1
        ensures (acc + [Entry(key, val)])[j].key != tail[i].key
      {
        if j < |acc| {
          assert (acc + [Entry(key, val)])[j] == acc[j];
        }
      }
    }
    forall i, j | 0 <= i < j < |tail|
      ensures tail[i].key != tail[j].key
    {
      assert tail[i] == entries[i + 1] && tail[j] == entries[j + 1];
    }
  }

  // ---------------------------------------------------------------------------
  // Test vectors
  // ---------------------------------------------------------------------------

  /** The arrays `repeat(13, 7)` and `repeat(13, 65535)` under `Arr`: a
      fixarray or Array16 header, then one positive fixint per element. */
  lemma ArrayExamples(n: nat, items: seq<Value>)
    requires (n == 7 || n == 65535) && items == seq(n, _ => Int(13))
    ensures Fits(ArrT(AnyT), Array(items))
    ensures n == 7 ==> Encode(ArrT(AnyT), Array(items)) == Success([0x97] + seq(n, _ => 0x0d))
    ensures n == 65535 ==> Encode(ArrT(AnyT), Array(items)) == Success([Array16, 0xff, 0xff] + seq(n, _ => 0x0d))
  {
    RepeatedItems(n, 13);
    if n == 65535 {
      LongestArray16Header();
    } else {
      assert PutArrayHeader(n) == Success([0x97]);
    }
  }

  /** `n` copies of a small non-negative integer under `Any`: one positive
      fixint byte each. */
  lemma {:induction false} RepeatedItems(n: nat, v: nat)
    requires v <= 0x7f
    ensures FitsItems(AnyT, seq(n, _ => Int(v)))
    ensures EncodeItems(AnyT, seq(n, _ => Int(v))) == Success(seq(n, _ => v as Byte))
  {
    var items := seq(n, _ => Int(v));
    if n > 0 {
      RepeatedItems(n - 1, v);
      assert items[1..] == seq(n - 1, _ => Int(v));
      assert items[0] == Int(v);
      assert UintEnc(v) == Success([v as Byte]);
      assert Fits(AnyT, items[0]) && Encode(AnyT, items[0]) == Success([v as Byte]);
      assert EncodeItems(AnyT, items) == Success([v as Byte] + seq(n - 1, _ => v as Byte));
      assert [v as Byte] + seq(n - 1, _ => v as Byte) == seq(n, _ => v as Byte);
    } else {
      assert items == [] && seq(n, _ => v as Byte) == [];
    }
  }

  /** The object `{a: 7, b: 13}` under `Map`: fixmap 2, then each name as a
      one-letter fixstr and each value as a positive fixint. */
  lemma MapExample(e1: Entry, e2: Entry)
    requires e1 == Entry([0x61], Int(7)) && e2 == Entry([0x62], Int(13))
    ensures Fits(MapT(AnyT, AnyT), Map([e1, e2]))
    ensures Encode(MapT(AnyT, AnyT), Map([e1, e2])) == Success([0x82, 0xa1, 0x61, 0x07, 0xa1, 0x62, 0x0d])
  {
    var k1, x1 := EntryExample(e1);
    var k2, x2 := EntryExample(e2);
    EncodeEntriesCons(AnyT, AnyT, e2, [], k2, x2, []);
    EncodeEntriesCons(AnyT, AnyT, e1, [e2] + [], k1, x1, k2 + x2 + []);
    TwoEntries(e1, e2);
    EncodeMapParts(AnyT, AnyT, [e1, e2], [0x82], k1 + x1 + (k2 + x2 + []));
    MapExampleBytes(k1, x1, k2, x2);
  }

  /** ... and reads back as the same object. */
  lemma MapExampleReads(e1: Entry, e2: Entry, r: ReadBuffer)
    requires e1 == Entry([0x61], Int(7)) && e2 == Entry([0x62], Int(13))
    requires At(r, [0x82, 0xa1, 0x61, 0x07, 0xa1, 0x62, 0x0d])
    ensures Decode(MapT(AnyT, AnyT), r) == Success(Decoded(Map([e1, e2]), r.Skip(7)))
  {
    MapExample(e1, e2);
    var v := Map([e1, e2]);
    ExampleEntriesWf(e1, e2);
    RoundTrip(MapT(AnyT, AnyT), v, [0x82, 0xa1, 0x61, 0x07, 0xa1, 0x62, 0x0d], r);
    ExampleEntriesNormal(e1, e2);
  }

  lemma ExampleEntriesWf(e1: Entry, e2: Entry)
    requires e1 == Entry([0x61], Int(7)) && e2 == Entry([0x62], Int(13))
    ensures Wf(Map([e1, e2]))
  {
    assert [e1, e2][1..] == [e2] && [e2][1..] == [];
    assert WellFormed(e1.key) && WellFormed(e2.key);
    assert Wf(e1.val) && Wf(e2.val);
    assert WfEntries([e2]);
    assert e1.key[0] != e2.key[0];
    assert DistinctKeys([e1, e2]);
  }

  lemma ExampleEntriesNormal(e1: Entry, e2: Entry)
    requires e1 == Entry([0x61], Int(7)) && e2 == Entry([0x62], Int(13))
    ensures Normalize(MapT(AnyT, AnyT), Map([e1, e2])) == Map([e1, e2])
  {
    assert [e1, e2][1..] == [e2] && [e2][1..] == [];
    assert Normalize(AnyT, e1.val) == e1.val && Normalize(AnyT, e2.val) == e2.val;
    assert NormalizeEntries(AnyT, [e2]) == [e2];
    assert NormalizeEntries(AnyT, [e1, e2]) == [e1] + [e2];
  }

  lemma TwoEntries(e1: Entry, e2: Entry)
    ensures [e1, e2] == [e1] + ([e2] + [])
  {
  }

  lemma MapExampleBytes(k1: seq<Byte>, x1: seq<Byte>, k2: seq<Byte>, x2: seq<Byte>)
    requires k1 == [0xa1, 0x61] && x1 == [0x07] && k2 == [0xa1, 0x62] && x2 == [0x0d]
    ensures [0x82] + (k1 + x1 + (k2 + x2 + [])) == [0x82, 0xa1, 0x61, 0x07, 0xa1, 0x62, 0x0d]
  {
  }

  /** A map's bytes are its header and then its entries. */
  lemma EncodeMapParts(kt: Type, vt: Type, entries: seq<Entry>, h: seq<Byte>, body: seq<Byte>)
    requires IsKeyType(kt) && FitsEntries(vt, entries)
    requires PutMapHeader(|entries|) == Success(h) && EncodeEntries(kt, vt, entries) == Success(body)
    ensures Fits(MapT(kt, vt), Map(entries)) && Encode(MapT(kt, vt), Map(entries)) == Success(h + body)
  {
  }

  /** The entries' bytes are the first name, its value, then the others'. */
  lemma EncodeEntriesCons(kt: Type, vt: Type, e: Entry, rest: seq<Entry>, kb: seq<Byte>, x: seq<Byte>, xs: seq<Byte>)
    requires IsKeyType(kt) && Fits(vt, e.val) && FitsEntries(vt, rest)
    requires EncodeKey(kt, e.key) == Success(kb) && Encode(vt, e.val) == Success(x)
    requires EncodeEntries(kt, vt, rest) == Success(xs)
    ensures FitsEntries(vt, [e] + rest) && EncodeEntries(kt, vt, [e] + rest) == Success(kb + x + xs)
  {
    assert ([e] + rest)[0] == e && ([e] + rest)[1..] == rest;
  }

  /** One property of that object: a one-letter name and a small value. */
  lemma EntryExample(e: Entry) returns (kb: seq<Byte>, x: seq<Byte>)
    requires |e.key| == 1 && e.key[0] < 0x80 && e.val.Int? && 0 <= e.val.i <= 0x7f
    ensures Fits(AnyT, e.val) && EncodeKey(AnyT, e.key) == Success(kb) && Encode(AnyT, e.val) == Success(x)
    ensures kb == [0xa1, e.key[0] as Byte] && x == [e.val.i as Byte]
  {
    LetterExample(e.key[0]);
    assert e.key == [e.key[0]];
    assert UintEnc(e.val.i) == Success([e.val.i as Byte]);
    kb, x := [0xa1, e.key[0] as Byte], [e.val.i as Byte];
  }

  // ---------------------------------------------------------------------------
  // Further properties
  // ---------------------------------------------------------------------------

  /** `Any.dec` refuses exactly the extension tags other than the timestamp
      ones and the byte 0xc1 that the format leaves unused. */
  lemma AnyDecTypeRefuses(tag: Byte)
    ensures AnyDecType(tag).Failure? <==>
      tag == 0xc1 || tag == Ext16 || tag == Ext32 || tag == FixExt1 || tag == FixExt2 || tag == FixExt16
  {
    FixRanges(tag);
  }

  /** `Any` reads back exactly what it wrote when the value holds no
      `undefined`. */
  lemma AnyRoundTripExact(v: Value, bs: seq<Byte>, r: ReadBuffer)
    requires Fits(AnyT, v) && Wf(v) && Defined(v)
    requires Encode(AnyT, v) == Success(bs) && At(r, bs)
    ensures Decode(AnyT, r) == Success(Decoded(v, r.Skip(|bs|)))
  {
    RoundTrip(AnyT, v, bs, r);
    AnyExact(v);
  }

  /** A decoded map never has two properties with the same name, even when
      the input repeats a key. */
  lemma DecodedMapDistinct(kt: Type, vt: Type, r: ReadBuffer)
    requires Decode(MapT(kt, vt), r).Success?
    ensures Decode(MapT(kt, vt), r).value.item.Map?
    ensures DistinctKeys(Decode(MapT(kt, vt), r).value.item.entries)
  {
    var none: seq<Entry> := [];
    assert DistinctKeys(none);
  }
}

=== FILE: headers.dfy ===
/** Length headers: the three-tier blob header shared by Bytes and Str,
    and the two-tier collection header shared by arrays and maps, with the
    fix-range shortcut that the array and map codecs put in front of it. */
module Headers {
  import opened Wrappers
  import opened Errors
  import opened Words
  import opened Tags
  import opened Buffer

  /** The longest length any header can carry: 2^32 - 1. */
  const MaxLength: int := TwoTo32 - 1

  /** Payload width of the narrowest blob tier that holds `n`. */
  function BlobWidth(n: nat): (w: nat)
    requires n <= MaxLength
    ensures w == 1 || w == 2 || w == 4
    ensures n < Pow256(w)
    ensures w > 1 ==> Pow256(w / 2) <= n
  {
    if n <= 0xff then 1 else if n <= 0xffff then 2 else 4
  }

  /** `putBlobHeader(buf, baseTag, n)`: the tag `baseTag`, `baseTag + 1` or
      `baseTag + 2` for the 8, 16 or 32-bit tier, followed by `n` in that
      many bits; lengths of 2^32 and more are refused. */
  function PutBlobHeader(base: Byte, n: nat): (r: Outcome<seq<Byte>>)
    requires base == Bin8 || base == Str8
    ensures r.Success? <==> n <= MaxLength
    ensures r.Failure? ==> r.error == LengthLimit
    ensures r.Success? ==> var w := BlobWidth(n);
      |r.value| == 1 + w && FromBigEndian(r.value[1..]) == n
      && r.value[0] == base + (if w == 1 then 0 else if w == 2 then 1 else 2)
  {
    if n > MaxLength then Failure(LengthLimit)
    else
      var w := BlobWidth(n);
      Tier(base + (if w == 1 then 0 else if w == 2 then 1 else 2), n, w)
  }

  /** A tag byte followed by `n` in `w` big-endian bytes. */
  function Tier(tag: Byte, n: nat, w: nat): (r: Outcome<seq<Byte>>)
    requires w == 1 || w == 2 || w == 4
    requires n < Pow256(w)
    ensures r.Success? && |r.value| == 1 + w && r.value[0] == tag
    ensures FromBigEndian(r.value[1..]) == n
  {
    BigEndianBelow(n, w);
    var h := [tag] + BigEndian(n, w);
    assert h[1..] == BigEndian(n, w);
    Success(h)
  }

  /** The tags `getBlobHeader` accepts. */
  predicate IsBlobHeaderTag(t: Byte) {
    t == Nil || t == Bin8 || t == Bin16 || t == Bin32 || t == Str8 || t == Str16 || t == Str32
    || IsFixstrTag(t)
  }

  /** `getBlobHeader(buf)`: the Bin and Str tiers are read alike, fixstr
      carries its length in the tag, and Nil means length 0. */
  function GetBlobHeader(r: ReadBuffer): (d: Outcome<Decoded<nat>>)
    ensures d.Success? ==> Consumed(r, d.value.rest)
    ensures d.Success? ==> d.value.item <= MaxLength
    ensures r.n < |r.data| && !IsBlobHeaderTag(r.data[r.n]) ==>
      d == Failure(UnexpectedTag(r.data[r.n], "bytes or string"))
    ensures r.n < |r.data| && r.data[r.n] == Nil ==> d == Success(Decoded(0, r.Skip(1)))
    ensures r.n < |r.data| && IsFixstrTag(r.data[r.n]) ==>
      d == Success(Decoded(ReadFixstr(r.data[r.n]), r.Skip(1)))
  {
    var t :- r.GetUi8();
    var tag, rest := t.item, t.rest;
    if tag == Nil then Success(Decoded(0, rest))
    else if tag == Bin8 || tag == Str8 then rest.GetUnsigned(1)
    else if tag == Bin16 || tag == Str16 then rest.GetUnsigned(2)
    else if tag == Bin32 || tag == Str32 then rest.GetUnsigned(4)
    else if !IsFixstrTag(tag) then Failure(UnexpectedTag(tag, "bytes or string"))
    else Success(Decoded(ReadFixstr(tag), rest))
  }

  /** Payload width of the narrowest collection tier that holds `n`. */
  function CollectionWidth(n: nat): (w: nat)
    requires n <= MaxLength
    ensures w == 2 || w == 4
    ensures n < Pow256(w)
    ensures w == 4 ==> Pow256(2) <= n
  {
    if n <= 0xffff then 2 else 4
  }

  /** `putCollectionHeader(buf, baseTag, n)`: `baseTag` with a two-byte
      length, or `baseTag + 1` with a four-byte one. */
  function PutCollectionHeader(base: Byte, n: nat): (r: Outcome<seq<Byte>>)
    requires base == Array16 || base == Map16
    ensures r.Success? <==> n <= MaxLength
    ensures r.Failure? ==> r.error == LengthLimit
    ensures r.Success? ==> var w := CollectionWidth(n);
      |r.value| == 1 + w && FromBigEndian(r.value[1..]) == n
      && r.value[0] == base + (if w == 2 then 0 else 1)
  {
    if n > MaxLength then Failure(LengthLimit)
    else
      var w := CollectionWidth(n);
      Tier(base + (if w == 2 then 0 else 1), n, w)
  }

  /** `getCollectionHeader(buf, tag, baseTag)`, after the tag has been read:
      Nil means 0, the two tiers read their length, anything else is refused. */
  function GetCollectionHeader(r: ReadBuffer, tag: Byte, base: Byte): (d: Outcome<Decoded<nat>>)
    requires base == Array16 || base == Map16
    ensures d.Success? ==> d.value.rest.data == r.data && r.n <= d.value.rest.n
    ensures d.Success? ==> d.value.item <= MaxLength
    ensures tag != Nil && tag != base && tag != base + 1 ==> d == Failure(UnexpectedTag(tag, "array or map"))
    ensures tag == Nil ==> d == Success(Decoded(0, r))
  {
    if tag == Nil then Success(Decoded(0, r))
    else if tag == base then r.GetUnsigned(2)
    else if tag == base + 1 then r.GetUnsigned(4)
    else Failure(UnexpectedTag(tag, "array or map"))
  }

  /** `encHeader` of arrays (`fixarray` below 16) and maps (`fixmap` below 16). */
  function PutArrayHeader(n: nat): (r: Outcome<seq<Byte>>)
    ensures r.Success? <==> n <= MaxLength
    ensures r.Success? ==> (|r.value| == 1 <==> n < 16)
    ensures r.Success? ==> |r.value| >= 1 && (IsFixarrayTag(r.value[0]) || r.value[0] == Array16 || r.value[0] == Array32)
    ensures n < 16 ==> r == Success([FixarrayTag(n)])
    ensures r.Success? && n >= 16 ==> (r.value[0] == Array16 <==> n <= 0xffff)
  {
    if n < 16 then Success([FixarrayTag(n)]) else PutCollectionHeader(Array16, n)
  }

  function PutMapHeader(n: nat): (r: Outcome<seq<Byte>>)
    ensures r.Success? <==> n <= MaxLength
    ensures r.Success? ==> (|r.value| == 1 <==> n < 16)
    ensures r.Success? ==> |r.value| >= 1 && (IsFixmapTag(r.value[0]) || r.value[0] == Map16 || r.value[0] == Map32)
    ensures n < 16 ==> r == Success([FixmapTag(n)])
    ensures r.Success? && n >= 16 ==> (r.value[0] == Map16 <==> n <= 0xffff)
  {
    if n < 16 then Success([FixmapTag(n)]) else PutCollectionHeader(Map16, n)
  }

  /** 65535 elements is the longest array with an Array16 header, ff ff. */
  lemma LongestArray16Header()
    ensures PutArrayHeader(65535) == Success([Array16, 0xff, 0xff])
  {
    var h := PutArrayHeader(65535).value;
    assert FromBigEndian([0xff]) == 0xff by {
      assert [0xff][..0] == [];
    }
    assert FromBigEndian([0xff, 0xff]) == 65535 by {
      assert [0xff, 0xff][..1] == [0xff];
    }
    assert Pow256(2) == 65536;
    BigEndianUnique(65535, [0xff, 0xff]);
    assert CollectionWidth(65535) == 2;
    assert |h| == 3 && h[0] == Array16 && FromBigEndian(h[1..]) == 65535;
    BigEndianOfFromBigEndian(h[1..]);
    assert h[1..] == [0xff, 0xff];
    assert h == [h[0]] + h[1..] == [Array16] + [0xff, 0xff];
    assert h == [Array16, 0xff, 0xff];
  }

  /** `TypedArr.decHeader(buf, expect)`: the decoded length must equal
      `expect` when one is given. */
  function GetArrayHeader(r: ReadBuffer, size: Option<nat>): (d: Outcome<Decoded<nat>>)
    ensures d.Success? ==> Consumed(r, d.value.rest)
    ensures d.Success? && size.Some? ==> d.value.item == size.value
    ensures r.n < |r.data| && IsFixarrayTag(r.data[r.n]) && size == None ==>
      d == Success(Decoded(ReadFixarray(r.data[r.n]), r.Skip(1)))
  {
    var t :- r.GetUi8();
    var h :- if IsFixarrayTag(t.item) then Success(Decoded(ReadFixarray(t.item), t.rest))
             else GetCollectionHeader(t.rest, t.item, Array16);
    if size.Some? && h.item != size.value then Failure(HeaderSizeMismatch(h.item))
    else Success(h)
  }

  /** `TypedMap.decHeader(buf)`. */
  function GetMapHeader(r: ReadBuffer): (d: Outcome<Decoded<nat>>)
    ensures d.Success? ==> Consumed(r, d.value.rest)
    ensures r.n < |r.data| && IsFixmapTag(r.data[r.n]) ==>
      d == Success(Decoded(ReadFixmap(r.data[r.n]), r.Skip(1)))
  {
    var t :- r.GetUi8();
    if IsFixmapTag(t.item) then Success(Decoded(ReadFixmap(t.item), t.rest))
    else GetCollectionHeader(t.rest, t.item, Map16)
  }

  // ---------------------------------------------------------------------------
  // Round trips
  // ---------------------------------------------------------------------------

  /** A header's length field re-encodes to the bytes it was written as. */
  lemma LengthField(h: seq<Byte>, n: nat, w: nat, r: ReadBuffer)
    requires |h| == 1 + w && FromBigEndian(h[1..]) == n && n < Pow256(w)
    requires At(r, h)
    ensures r.n < |r.data| && r.data[r.n] == h[0]
    ensures r.Skip(1).GetUnsigned(w) == Success(Decoded(n, r.Skip(1 + w)))
  {
    DivModUnique(n, Pow256(w), 0, n);
    BigEndianUnique(n, h[1..]);
    assert [h[0]] + h[1..] == h;
    AtAppend(r, [h[0]], h[1..]);
    UnsignedRoundTrip(n, w, r.Skip(1));
  }

  /** `getBlobHeader` reads back what `putBlobHeader` wrote, for both bases. */
  lemma BlobHeaderRoundTrip(base: Byte, n: nat, h: seq<Byte>, r: ReadBuffer)
    requires base == Bin8 || base == Str8
    requires PutBlobHeader(base, n) == Success(h) && At(r, h)
    ensures GetBlobHeader(r) == Success(Decoded(n, r.Skip(|h|)))
  {
    var w := BlobWidth(n);
    LengthField(h, n, w, r);
    BlobTierRead(r, h[0], w);
  }

  /** After a blob tag of tier `w`, `getBlobHeader` reads a `w`-byte length. */
  lemma BlobTierRead(r: ReadBuffer, tag: Byte, w: nat)
    requires r.n < |r.data| && r.data[r.n] == tag
    requires w == 1 ==> tag == Bin8 || tag == Str8
    requires w == 2 ==> tag == Bin16 || tag == Str16
    requires w == 4 ==> tag == Bin32 || tag == Str32
    requires w == 1 || w == 2 || w == 4
    ensures GetBlobHeader(r) == r.Skip(1).GetUnsigned(w)
  {
  }

  /** The collection reader reads back what the collection writer wrote. */
  lemma CollectionHeaderRoundTrip(base: Byte, n: nat, h: seq<Byte>, r: ReadBuffer)
    requires base == Array16 || base == Map16
    requires PutCollectionHeader(base, n) == Success(h) && At(r, h)
    ensures r.n < |r.data| && r.data[r.n] == h[0]
    ensures GetCollectionHeader(r.Skip(1), h[0], base) == Success(Decoded(n, r.Skip(|h|)))
  {
    var w := CollectionWidth(n);
    LengthField(h, n, w, r);
    CollectionTierRead(r.Skip(1), h[0], base, w);
  }

  /** After a collection tag of tier `w`, the reader reads a `w`-byte length. */
  lemma CollectionTierRead(r: ReadBuffer, tag: Byte, base: Byte, w: nat)
    requires base == Array16 || base == Map16
    requires w == 2 || w == 4
    requires tag == base + (if w == 2 then 0 else 1)
    ensures GetCollectionHeader(r, tag, base) == r.GetUnsigned(w)
  {
  }

  /** `decHeader` of arrays reads back `encHeader`, with or without `expect`
      set to the written length. */
  lemma ArrayHeaderRoundTrip(n: nat, h: seq<Byte>, r: ReadBuffer, size: Option<nat>)
    requires PutArrayHeader(n) == Success(h) && At(r, h)
    requires size == None || size == Some(n)
    ensures GetArrayHeader(r, size) == Success(Decoded(n, r.Skip(|h|)))
  {
    if n < 16 {
      assert r.data[r.n] == FixarrayTag(n);
    } else {
      CollectionHeaderRoundTrip(Array16, n, h, r);
      FixRanges(r.data[r.n]);
    }
  }

  /** `TypedMap.decHeader` reads back `TypedMap.encHeader`. */
  lemma MapHeaderRoundTrip(n: nat, h: seq<Byte>, r: ReadBuffer)
    requires PutMapHeader(n) == Success(h) && At(r, h)
    ensures GetMapHeader(r) == Success(Decoded(n, r.Skip(|h|)))
  {
    if n < 16 {
      assert r.data[r.n] == FixmapTag(n);
    } else {
      CollectionHeaderRoundTrip(Map16, n, h, r);
      FixRanges(r.data[r.n]);
    }
  }

  /** An `expect` that differs from the written length is refused with the
      decoded length. */
  lemma ArrayHeaderMismatch(n: nat, h: seq<Byte>, r: ReadBuffer, size: nat)
    requires PutArrayHeader(n) == Success(h) && At(r, h)
    requires size != n
    ensures GetArrayHeader(r, Some(size)) == Failure(HeaderSizeMismatch(n))
  {
    ArrayHeaderRoundTrip(n, h, r, None);
  }
}

=== FILE: keys.dfy ===
/** Property names and the numbers they spell. An object's keys are
    strings: `TypedMap.enc` hands each property name to its key codec, and
    the number codecs convert it with `ToNumber` in their comparisons and
    `DataView` setters; `TypedMap.dec` assigns each decoded key with
    `res[k] = ...`, which converts it back with `ToString`. */
module Keys {
  import opened Wrappers
  import opened Words
  import opened Utf8
  import opened Values

  const Minus: CodeUnit := 0x2d
  const Zero: CodeUnit := 0x30

  predicate IsDigit(u: CodeUnit) {
    Zero <= u <= Zero + 9
  }

  predicate AllDigits(ds: seq<CodeUnit>) {
    forall i :: 0 <= i < |ds| ==> IsDigit(ds[i])
  }

  /** The decimal digits of `n`, most significant first. */
  function Digits(n: nat): (ds: seq<CodeUnit>)
    ensures |ds| >= 1 && AllDigits(ds)
    ensures |ds| > 1 ==> ds[0] != Zero
    decreases n
  {
    if n < 10 then [Zero + n]
    else
      var ds := Digits(n / 10) + [Zero + n % 10];
      assert ds[0] == Digits(n / 10)[0];
      ds
  }

  /** The number a string of decimal digits spells. */
  function DigitsValue(ds: seq<CodeUnit>): (n: nat)
    requires AllDigits(ds)
    decreases |ds|
  {
    if |ds| == 0 then 0
    else DigitsValue(ds[..|ds| - 1]) * 10 + (ds[|ds| - 1] - Zero)
  }

  /** `ToString` of an integral number: its digits, after a minus sign
      when it is negative. */
  function Name(i: int): (s: seq<CodeUnit>)
    ensures |s| >= 1
  {
    if i < 0 then [Minus] + Digits(-i) else Digits(i)
  }

  /** `ToNumber` of a property name, on the names that spell an integer of
      the 64-bit range in its canonical form; every other name is `None`. */
  function Number(name: seq<CodeUnit>): (r: Option<int>)
    ensures r.Some? ==> Name(r.value) == name && -TwoTo63 <= r.value < TwoTo63
  {
    var neg := |name| > 0 && name[0] == Minus;
    var ds := if neg then name[1..] else name;
    if |ds| == 0 || !AllDigits(ds) then None
    else
      var i := if neg then -(DigitsValue(ds) as int) else DigitsValue(ds);
      if Name(i) == name && -TwoTo63 <= i < TwoTo63 then Some(i) else None
  }

  /** `ToString` of a decoded key: a string is its own name, an integral
      number its decimal name, `null` and the booleans their literal names.
      The conversion of the other values is not modelled (`None`). */
  function KeyName(k: Value): Option<seq<CodeUnit>> {
    match k
    case Str(s) => Some(s)
    case Int(i) => Some(Name(i))
    case Null => Some([0x6e, 0x75, 0x6c, 0x6c])
    case Bool(b) => if b then Some([0x74, 0x72, 0x75, 0x65]) else Some([0x66, 0x61, 0x6c, 0x73, 0x65])
    case _ => None
  }

  // ---------------------------------------------------------------------------
  // Properties
  // ---------------------------------------------------------------------------

  /** Reading the digits of `n` gives `n` back. */
  lemma {:induction false} DigitsRoundTrip(n: nat)
    ensures DigitsValue(Digits(n)) == n
    decreases n
  {
    var ds := Digits(n);
    if n < 10 {
      assert ds[..0] == [];
    } else {
      DigitsRoundTrip(n / 10);
      assert ds[..|ds| - 1] == Digits(n / 10);
    }
  }

  /** The name of an integer of the 64-bit range converts back to it. */
  lemma NumberOfName(i: int)
    requires -TwoTo63 <= i < TwoTo63
    ensures Number(Name(i)) == Some(i)
  {
    var name := Name(i);
    if i < 0 {
      var ds := Digits(-i);
      assert name[0] == Minus && name[1..] == ds;
      DigitsRoundTrip(-i);
      assert DigitsValue(ds) == -i;
    } else {
      var ds := Digits(i);
      assert IsDigit(ds[0]);
      DigitsRoundTrip(i);
      assert DigitsValue(ds) == i;
    }
  }

  /** `Number` is the inverse of `Name` on the 64-bit range, in both directions. */
  lemma NumberIsInverse(name: seq<CodeUnit>, i: int)
    ensures Number(name) == Some(i) <==> Name(i) == name && -TwoTo63 <= i < TwoTo63
  {
    if Name(i) == name && -TwoTo63 <= i < TwoTo63 {
      NumberOfName(i);
    }
  }

  /** Different integers have different names. */
  lemma NameInjective(i: int, j: int)
    requires -TwoTo63 <= i < TwoTo63 && -TwoTo63 <= j < TwoTo63
    ensures Name(i) == Name(j) <==> i == j
  {
    NumberOfName(i);
    NumberOfName(j);
  }

  /** The decoded key converts to a name exactly for strings, integers,
      `null` and booleans, and an integer's name converts back to it. */
  lemma KeyNameDefined(k: Value)
    ensures KeyName(k).Some? <==> k.Str? || k.Int? || k.Null? || k.Bool?
    ensures k.Str? ==> KeyName(k) == Some(k.s)
    ensures k.Int? && -TwoTo63 <= k.i < TwoTo63 ==> Number(KeyName(k).value) == Some(k.i)
  {
    if k.Int? && -TwoTo63 <= k.i < TwoTo63 {
      NumberOfName(k.i);
    }
  }
}

=== FILE: scalars.dfy ===
/** The scalar codecs of `types.ts`: Nil, Bool, Int, Uint, Float, Bytes and
    Str. Each encoder returns the bytes it appends to the write buffer; each
    decoder reads from a cursor and returns the value and the cursor after it. */
module Scalars {
  import opened Wrappers
  import opened Errors
  import opened Words
  import opened Tags
  import opened Buffer
  import opened Headers
  import opened Utf8

  /** The unread input of `r` starts with the tag `bs[0]` and then the rest of `bs`. */
  lemma AtTag(r: ReadBuffer, bs: seq<Byte>)
    requires |bs| >= 1 && At(r, bs)
    ensures r.n < |r.data| && r.data[r.n] == bs[0]
    ensures At(r.Skip(1), bs[1..])
  {
    assert bs == [bs[0]] + bs[1..];
    AtAppend(r, [bs[0]], bs[1..]);
  }

  // ---------------------------------------------------------------------------
  // Nil
  // ---------------------------------------------------------------------------

  /** `Nil.enc`: the Nil tag, whatever the value. */
  function NilEnc(): (bs: seq<Byte>)
    ensures |bs| == 1 && bs[0] == Nil
  {
    [Nil]
  }

  /** `Nil.dec`: only the Nil tag is accepted. */
  function NilDec(r: ReadBuffer): (d: Outcome<Decoded<()>>)
    ensures d.Success? <==> r.n < |r.data| && r.data[r.n] == Nil
    ensures d.Success? ==> d.value.rest == r.Skip(1)
    ensures r.n < |r.data| && r.data[r.n] != Nil ==> d == Failure(UnexpectedTag(r.data[r.n], "nil"))
    ensures |r.data| <= r.n ==> d == Failure(OutOfBounds)
  {
    var t :- r.GetUi8();
    if t.item != Nil then Failure(UnexpectedTag(t.item, "nil")) else Success(Decoded((), t.rest))
  }

  lemma NilRoundTrip(r: ReadBuffer)
    requires At(r, NilEnc())
    ensures NilDec(r) == Success(Decoded((), r.Skip(1)))
  {
    AtTag(r, NilEnc());
  }

  // ---------------------------------------------------------------------------
  // Bool
  // ---------------------------------------------------------------------------

  /** `Bool.enc`: True or False. */
  function BoolEnc(b: bool): (bs: seq<Byte>)
    ensures |bs| == 1 && (bs[0] == True || bs[0] == False)
    ensures bs[0] == True <==> b
  {
    [if b then True else False]
  }

  /** `Bool.dec`: Nil and False read as false, True as true, any other tag
      is refused. */
  function BoolDec(r: ReadBuffer): (d: Outcome<Decoded<bool>>)
    ensures d.Success? <==> r.n < |r.data| && r.data[r.n] in {Nil, False, True}
    ensures d.Success? ==> d.value.rest == r.Skip(1) && (d.value.item <==> r.data[r.n] == True)
    ensures r.n < |r.data| && r.data[r.n] !in {Nil, False, True} ==>
      d == Failure(UnexpectedTag(r.data[r.n], "bool"))
    ensures |r.data| <= r.n ==> d == Failure(OutOfBounds)
  {
    var t :- r.GetUi8();
    if t.item == Nil || t.item == False then Success(Decoded(false, t.rest))
    else if t.item == True then Success(Decoded(true, t.rest))
    else Failure(UnexpectedTag(t.item, "bool"))
  }

  lemma BoolRoundTrip(b: bool, r: ReadBuffer)
    requires At(r, BoolEnc(b))
    ensures BoolDec(r) == Success(Decoded(b, r.Skip(1)))
  {
    AtTag(r, BoolEnc(b));
  }

  // ---------------------------------------------------------------------------
  // Int
  // ---------------------------------------------------------------------------

  /** `Int.enc`: the narrowest signed tier. Non-negative values up to 127
      are positive fixints and -31..-1 negative fixints (the guard is
      `v > -32`, so -32 takes the Int8 tier); Uint tags are never used, so
      128 already needs Int16. */
  function IntEnc(v: int): (bs: seq<Byte>)
    ensures |bs| >= 1
    ensures |bs| == 1 <==> -0x1f <= v <= 0x7f
    ensures |bs| == 1 ==> IsPosFixintTag(bs[0]) || IsNegFixintTag(bs[0])
    ensures bs[0] == Int8 <==> -0x80 <= v <= -0x20
    ensures bs[0] == Int16 <==> -TwoTo15 <= v < TwoTo15 && !(-0x80 <= v <= 0x7f)
    ensures bs[0] == Int32 <==> -TwoTo31 <= v < TwoTo31 && !(-TwoTo15 <= v < TwoTo15)
    ensures bs[0] == Int64 <==> !(-TwoTo31 <= v < TwoTo31)
    ensures bs[0] == Int8 ==> |bs| == 2
    ensures bs[0] == Int16 ==> |bs| == 3
    ensures bs[0] == Int32 ==> |bs| == 5
    ensures bs[0] == Int64 ==> |bs| == 9
  {
    if -0x80 <= v <= 0x7f then
      if v >= 0 then [PosFixintTag(v)]
      else if v > -0x20 then [NegFixintTag(v)]
      else [Int8] + BigEndian(v, 1)
    else if -TwoTo15 <= v < TwoTo15 then [Int16] + BigEndian(v, 2)
    else if -TwoTo31 <= v < TwoTo31 then [Int32] + BigEndian(v, 4)
    else [Int64] + I64Bytes(v)
  }

  /** The tags `Int.dec` accepts: both fixint ranges, Nil, and every signed
      and unsigned tier. */
  predicate IsIntTag(t: Byte) {
    IsPosFixintTag(t) || IsNegFixintTag(t) || t == Nil
    || t == Int8 || t == Int16 || t == Int32 || t == Int64
    || t == Uint8 || t == Uint16 || t == Uint32 || t == Uint64
  }

  /** `Int.dec`. */
  function IntDec(r: ReadBuffer): (d: Outcome<Decoded<int>>)
    ensures d.Success? ==> Consumed(r, d.value.rest) && IsIntTag(r.data[r.n])
    ensures d.Success? && r.data[r.n] == Nil ==> d.value == Decoded(0, r.Skip(1))
    ensures r.n < |r.data| && !IsIntTag(r.data[r.n]) ==> d == Failure(UnexpectedTag(r.data[r.n], "int"))
    ensures |r.data| <= r.n ==> d == Failure(OutOfBounds)
  {
    if |r.data| <= r.n then Failure(OutOfBounds) else IntAfterTag(r.data[r.n], r.Skip(1))
  }

  /** The body of `Int.dec` once the tag has been read. The signed cases
      `getI8`..`getI32` differ only in width, and so do the unsigned ones;
      `TierWidth` gives it. */
  function IntAfterTag(tag: Byte, rest: ReadBuffer): (d: Outcome<Decoded<int>>)
    ensures d.Success? ==> IsIntTag(tag) && d.value.rest.data == rest.data && rest.n <= d.value.rest.n
    ensures d.Success? && tag == Nil ==> d.value == Decoded(0, rest)
    ensures !IsIntTag(tag) ==> d == Failure(UnexpectedTag(tag, "int"))
  {
    if IsPosFixintTag(tag) then Success(Decoded(ReadPosFixint(tag), rest))
    else if IsNegFixintTag(tag) then Success(Decoded(ReadNegFixint(tag), rest))
    else if tag == Nil then Success(Decoded(0, rest))
    else if tag == Int8 || tag == Int16 || tag == Int32 then rest.GetSigned(TierWidth(tag))
    else if tag == Int64 then rest.GetI64()
    else if tag == Uint8 || tag == Uint16 || tag == Uint32 then rest.GetUnsigned(TierWidth(tag))
    else if tag == Uint64 then rest.GetUi64()
    else Failure(UnexpectedTag(tag, "int"))
  }

  /** The payload width of the 8, 16 and 32-bit integer tiers. */
  function TierWidth(tag: Byte): (w: nat)
    ensures 1 <= w
  {
    if tag == Int8 || tag == Uint8 then 1 else if tag == Int16 || tag == Uint16 then 2 else 4
  }

  /** `Int.dec` reads back what `Int.enc` wrote, for every integer in the
      64-bit signed range. */
  lemma IntRoundTrip(v: int, r: ReadBuffer)
    requires -TwoTo63 <= v < TwoTo63 && At(r, IntEnc(v))
    ensures IntDec(r) == Success(Decoded(v, r.Skip(|IntEnc(v)|)))
  {
    if -0x1f <= v <= 0x7f {
      AtTag(r, IntEnc(v));
      FixintTier(v, r);
    } else if -0x80 <= v < 0 {
      assert Pow256(1) == 0x100;
      SignedTierRoundTrip(v, r, Int8, 1);
    } else if v >= -TwoTo15 && v < TwoTo15 {
      assert Pow256(2) == TwoTo16;
      SignedTierRoundTrip(v, r, Int16, 2);
    } else if v >= -TwoTo31 && v < TwoTo31 {
      assert Pow256(4) == TwoTo32;
      SignedTierRoundTrip(v, r, Int32, 4);
    } else {
      assert IntEnc(v)[1..] == I64Bytes(v);
      AtTag(r, IntEnc(v));
      Int64Tier(v, r);
    }
  }

  /** A signed tier tag followed by `v` in `w` bytes, as `Int.enc` writes
      it, reads back as `v`. */
  lemma SignedTierRoundTrip(v: int, r: ReadBuffer, tag: Byte, w: nat)
    requires (tag == Int8 && w == 1) || (tag == Int16 && w == 2) || (tag == Int32 && w == 4)
    requires -(Pow256(w) as int) / 2 <= v < Pow256(w) / 2
    requires At(r, [tag] + BigEndian(v, w))
    ensures IntDec(r) == Success(Decoded(v, r.Skip(1 + w)))
  {
    var bs := [tag] + BigEndian(v, w);
    AtTag(r, bs);
    assert bs[1..] == BigEndian(v, w);
    SignedTier(v, r, tag, w);
  }

  /** A fixint written by `Int.enc` reads back from its tag alone. */
  lemma FixintTier(v: int, r: ReadBuffer)
    requires -0x1f <= v <= 0x7f
    requires r.n < |r.data| && r.data[r.n] == IntEnc(v)[0]
    ensures IntDec(r) == Success(Decoded(v, r.Skip(1)))
  {
    var tag := r.data[r.n];
    FixRanges(tag);
    if v >= 0 {
      assert tag == PosFixintTag(v);
    } else {
      assert tag == NegFixintTag(v);
    }
  }

  /** A signed tier tag followed by `v` in `w` bytes reads back as `v`. */
  lemma SignedTier(v: int, r: ReadBuffer, tag: Byte, w: nat)
    requires (tag == Int8 && w == 1) || (tag == Int16 && w == 2) || (tag == Int32 && w == 4)
    requires -(Pow256(w) as int) / 2 <= v < Pow256(w) / 2
    requires r.n < |r.data| && r.data[r.n] == tag && At(r.Skip(1), BigEndian(v, w))
    ensures IntDec(r) == Success(Decoded(v, r.Skip(1 + w)))
  {
    SignedTierRead(r, tag, w);
    SignedPayload(v, r, w);
  }

  /** The `w` payload bytes after the tag read back as `v`. */
  lemma SignedPayload(v: int, r: ReadBuffer, w: nat)
    requires 1 <= w && -(Pow256(w) as int) / 2 <= v < Pow256(w) / 2
    requires r.n < |r.data| && At(r.Skip(1), BigEndian(v, w))
    ensures r.Skip(1).GetSigned(w) == Success(Decoded(v, r.Skip(1 + w)))
  {
    SignedRoundTrip(v, w, r.Skip(1));
    SkipAdd(r, 1, w);
  }

  /** After a signed tier tag, `Int.dec` is a signed read of that tier's width. */
  lemma SignedTierRead(r: ReadBuffer, tag: Byte, w: nat)
    requires (tag == Int8 && w == 1) || (tag == Int16 && w == 2) || (tag == Int32 && w == 4)
    requires r.n < |r.data| && r.data[r.n] == tag
    ensures IntDec(r) == r.Skip(1).GetSigned(w)
  {
    ExplicitIntTag(tag);
    assert IntDec(r) == IntAfterTag(tag, r.Skip(1));
  }

  /** The explicit integer tags lie outside both fixint ranges, so
      `Int.dec` reaches its `switch` for them. */
  lemma ExplicitIntTag(tag: Byte)
    requires 0xc0 <= tag <= 0xdf
    ensures !IsPosFixintTag(tag) && !IsNegFixintTag(tag)
  {
    FixRanges(tag);
  }

  /** The Int64 tag followed by the eight bytes `putI64` wrote reads back as `v`. */
  lemma Int64Tier(v: int, r: ReadBuffer)
    requires -TwoTo63 <= v < TwoTo63
    requires r.n < |r.data| && r.data[r.n] == Int64 && At(r.Skip(1), I64Bytes(v))
    ensures IntDec(r) == Success(Decoded(v, r.Skip(9)))
  {
    I64RoundTrip(v, r.Skip(1));
    ExplicitIntTag(Int64);
    assert IntDec(r) == IntAfterTag(Int64, r.Skip(1));
    SkipAdd(r, 1, 8);
  }

  // ---------------------------------------------------------------------------
  // Uint
  // ---------------------------------------------------------------------------

  /** `Uint.enc`: negative numbers are refused; otherwise the narrowest of
      positive fixint, Uint8, Uint16, Uint32 and Uint64. */
  function UintEnc(v: int): (r: Outcome<seq<Byte>>)
    ensures r.Failure? <==> v < 0
    ensures r.Failure? ==> r.error == NotUnsigned(v)
    ensures r.Success? ==> |r.value| >= 1
    ensures r.Success? ==> (|r.value| == 1 <==> v <= 0x7f)
    ensures r.Success? && |r.value| == 1 ==> IsPosFixintTag(r.value[0])
    ensures r.Success? ==> (r.value[0] == Uint8 <==> 0x80 <= v <= 0xff)
    ensures r.Success? ==> (r.value[0] == Uint16 <==> 0x100 <= v < TwoTo16)
    ensures r.Success? ==> (r.value[0] == Uint32 <==> TwoTo16 <= v < TwoTo32)
    ensures r.Success? ==> (r.value[0] == Uint64 <==> TwoTo32 <= v)
  {
    if v < 0 then Failure(NotUnsigned(v))
    else if v <= 0x7f then Success([PosFixintTag(v)])
    else if v <= 0xff then Success([Uint8] + BigEndian(v, 1))
    else if v < TwoTo16 then Success([Uint16] + BigEndian(v, 2))
    else if v < TwoTo32 then Success([Uint32] + BigEndian(v, 4))
    else Success([Uint64] + Ui64Bytes(v))
  }

  /** `Uint.dec`: `Int.dec`, refusing a negative result. */
  function UintDec(r: ReadBuffer): (d: Outcome<Decoded<int>>)
    ensures d.Success? ==> Consumed(r, d.value.rest) && d.value.item >= 0
    ensures d.Success? <==> IntDec(r).Success? && IntDec(r).value.item >= 0
    ensures d.Success? ==> d == IntDec(r)
    ensures IntDec(r).Success? && IntDec(r).value.item < 0 ==> d == Failure(UnsignedUnderflow)
  {
    var x :- IntDec(r);
    if x.item < 0 then Failure(UnsignedUnderflow) else Success(x)
  }

  /** `Uint.dec`, and `Int.dec` with it, read back what `Uint.enc` wrote,
      for every integer in the 64-bit unsigned range. */
  lemma UintRoundTrip(v: int, bs: seq<Byte>, r: ReadBuffer)
    requires 0 <= v < TwoTo64 && UintEnc(v) == Success(bs) && At(r, bs)
    ensures IntDec(r) == Success(Decoded(v, r.Skip(|bs|)))
    ensures UintDec(r) == Success(Decoded(v, r.Skip(|bs|)))
  {
    AtTag(r, bs);
    if v <= 0x7f {
      FixintTier(v, r);
    } else if v <= 0xff {
      assert bs[1..] == BigEndian(v, 1);
      UnsignedTier(v, r, Uint8, 1);
    } else if v < TwoTo16 {
      assert bs[1..] == BigEndian(v, 2);
      UnsignedTier(v, r, Uint16, 2);
    } else if v < TwoTo32 {
      assert bs[1..] == BigEndian(v, 4);
      UnsignedTier(v, r, Uint32, 4);
    } else {
      assert bs[1..] == Ui64Bytes(v);
      Uint64Tier(v, r);
    }
  }

  /** An unsigned tier tag followed by `v` in `w` bytes reads back as `v`. */
  lemma UnsignedTier(v: int, r: ReadBuffer, tag: Byte, w: nat)
    requires (tag == Uint8 && w == 1) || (tag == Uint16 && w == 2) || (tag == Uint32 && w == 4)
    requires 0 <= v < Pow256(w)
    requires r.n < |r.data| && r.data[r.n] == tag && At(r.Skip(1), BigEndian(v, w))
    ensures IntDec(r) == Success(Decoded(v, r.Skip(1 + w)))
  {
    UnsignedTierRead(r, tag, w);
    UnsignedPayload(v, r, w);
  }

  /** The `w` payload bytes after the tag read back as `v`. */
  lemma UnsignedPayload(v: int, r: ReadBuffer, w: nat)
    requires 1 <= w && 0 <= v < Pow256(w)
    requires r.n < |r.data| && At(r.Skip(1), BigEndian(v, w))
    ensures r.Skip(1).GetUnsigned(w) == Success(Decoded(v, r.Skip(1 + w)))
  {
    DivModUnique(v, Pow256(w), 0, v);
    UnsignedRoundTrip(v, w, r.Skip(1));
    SkipAdd(r, 1, w);
  }

  /** After an unsigned tier tag, `Int.dec` is an unsigned read of that tier's width. */
  lemma UnsignedTierRead(r: ReadBuffer, tag: Byte, w: nat)
    requires (tag == Uint8 && w == 1) || (tag == Uint16 && w == 2) || (tag == Uint32 && w == 4)
    requires r.n < |r.data| && r.data[r.n] == tag
    ensures IntDec(r) == r.Skip(1).GetUnsigned(w)
  {
    ExplicitIntTag(tag);
    assert IntDec(r) == IntAfterTag(tag, r.Skip(1));
  }

  /** The Uint64 tag followed by the eight bytes `putUi64` wrote reads back as `v`. */
  lemma Uint64Tier(v: int, r: ReadBuffer)
    requires 0 <= v < TwoTo64
    requires r.n < |r.data| && r.data[r.n] == Uint64 && At(r.Skip(1), Ui64Bytes(v))
    ensures IntDec(r) == Success(Decoded(v, r.Skip(9)))
  {
    Ui64RoundTrip(v, r.Skip(1));
    ExplicitIntTag(Uint64);
    assert IntDec(r) == IntAfterTag(Uint64, r.Skip(1));
    SkipAdd(r, 1, 8);
  }

  /** A negative number on the wire is an underflow for `Uint.dec`. */
  lemma UintRefusesNegative(v: int, r: ReadBuffer)
    requires -TwoTo63 <= v < 0 && At(r, IntEnc(v))
    ensures UintDec(r) == Failure(UnsignedUnderflow)
  {
    IntRoundTrip(v, r);
  }

  // ---------------------------------------------------------------------------
  // Float
  // ---------------------------------------------------------------------------

  /** `Float.enc`: the Float64 tag and the number's 8-byte binary64 payload. */
  function FloatEnc(bits: seq<Byte>): (bs: seq<Byte>)
    requires |bits| == 8
    ensures |bs| == 9 && bs[0] == Float64 && bs[1..] == bits
  {
    [Float64] + bits
  }

  /** `Float.dec`: a Float32 or Float64 payload, kept as its raw bytes; Nil
      reads as 0, whose binary64 payload is eight zero bytes. */
  function FloatDec(r: ReadBuffer): (d: Outcome<Decoded<seq<Byte>>>)
    ensures d.Success? ==> Consumed(r, d.value.rest)
    ensures d.Success? ==> r.data[r.n] in {Nil, Float32, Float64}
    ensures d.Success? ==> |d.value.item| == (if r.data[r.n] == Float32 then 4 else 8)
    ensures d.Success? && r.data[r.n] == Nil ==> d.value == Decoded(Zeros(8), r.Skip(1))
    ensures r.n < |r.data| && r.data[r.n] !in {Nil, Float32, Float64} ==>
      d == Failure(UnexpectedTag(r.data[r.n], "float"))
  {
    var t :- r.GetUi8();
    if t.item == Nil then Success(Decoded(Zeros(8), t.rest))
    else if t.item == Float32 then t.rest.GetFixed(4)
    else if t.item == Float64 then t.rest.GetFixed(8)
    else Failure(UnexpectedTag(t.item, "float"))
  }

  lemma FloatRoundTrip(bits: seq<Byte>, r: ReadBuffer)
    requires |bits| == 8 && At(r, FloatEnc(bits))
    ensures FloatDec(r) == Success(Decoded(bits, r.Skip(9)))
  {
    AtTag(r, FloatEnc(bits));
    assert FloatEnc(bits)[1..] == bits;
  }

  // ---------------------------------------------------------------------------
  // Bytes
  // ---------------------------------------------------------------------------

  /** `Bytes.enc`: a blob header with base Bin8, then the bytes. */
  function BytesEnc(b: seq<Byte>): (r: Outcome<seq<Byte>>)
    ensures r.Success? <==> |b| <= MaxLength
    ensures r.Failure? ==> r.error == LengthLimit
    ensures r.Success? ==> |b| <= |r.value| && r.value[|r.value| - |b|..] == b
    ensures r.Success? ==> |r.value| >= 1 && (r.value[0] == Bin8 || r.value[0] == Bin16 || r.value[0] == Bin32)
  {
    var h :- PutBlobHeader(Bin8, |b|);
    assert (h + b)[|h|..] == b;
    Success(h + b)
  }

  /** `Bytes.dec`: `get` of the header's length. A payload cut short by the
      end of the input comes back short rather than failing. */
  function BytesDec(r: ReadBuffer): (d: Outcome<Decoded<seq<Byte>>>)
    ensures d.Success? <==> GetBlobHeader(r).Success?
    ensures d.Success? ==> Consumed(r, d.value.rest)
    ensures d.Success? ==> |d.value.item| <= GetBlobHeader(r).value.item
  {
    var h :- GetBlobHeader(r);
    Success(h.rest.Get(h.item))
  }

  lemma BytesRoundTrip(b: seq<Byte>, bs: seq<Byte>, r: ReadBuffer)
    requires BytesEnc(b) == Success(bs) && At(r, bs)
    ensures BytesDec(r) == Success(Decoded(b, r.Skip(|bs|)))
  {
    var h := PutBlobHeader(Bin8, |b|).value;
    assert bs == h + b;
    AtAppend(r, h, b);
    BlobHeaderRoundTrip(Bin8, |b|, h, r);
    BytesReadBack(r, |h|, b, |bs|);
  }

  /** A blob header for `|b|` bytes, then the bytes, reads back as `b`. */
  lemma BytesReadBack(r: ReadBuffer, k: nat, b: seq<Byte>, len: nat)
    requires GetBlobHeader(r) == Success(Decoded(|b|, r.Skip(k)))
    requires At(r.Skip(k), b) && len == k + |b|
    ensures BytesDec(r) == Success(Decoded(b, r.Skip(len)))
  {
    GetAt(r.Skip(k), b);
    SkipAdd(r, k, |b|);
  }

  // ---------------------------------------------------------------------------
  // Str
  // ---------------------------------------------------------------------------

  /** `Str.enc`: the UTF-8 bytes after a fixstr tag when there are fewer
      than 32 of them, after a Str8/16/32 blob header otherwise. */
  function StrEnc(s: seq<CodeUnit>): (r: Outcome<seq<Byte>>)
    ensures r.Success? <==> |ToUtf8(s)| <= MaxLength
    ensures r.Failure? ==> r.error == LengthLimit
    ensures r.Success? ==> |ToUtf8(s)| < |r.value| && r.value[|r.value| - |ToUtf8(s)|..] == ToUtf8(s)
    ensures r.Success? ==> (IsFixstrTag(r.value[0]) <==> |ToUtf8(s)| < 32)
    ensures r.Success? ==> IsFixstrTag(r.value[0]) || r.value[0] == Str8 || r.value[0] == Str16 || r.value[0] == Str32
  {
    var utf8 := ToUtf8(s);
    var h :- StrHeader(|utf8|);
    assert (h + utf8)[|h|..] == utf8;
    Success(h + utf8)
  }

  /** The header `Str.enc` writes for `n` bytes of UTF-8. */
  function StrHeader(n: nat): (r: Outcome<seq<Byte>>)
    ensures r.Success? <==> n <= MaxLength
    ensures r.Failure? ==> r.error == LengthLimit
    ensures r.Success? ==> |r.value| >= 1 && (IsFixstrTag(r.value[0]) <==> n < 32)
    ensures r.Success? ==> IsFixstrTag(r.value[0]) || r.value[0] == Str8 || r.value[0] == Str16 || r.value[0] == Str32
  {
    if n < 32 then Success([FixstrTag(n)])
    else
      var h := PutBlobHeader(Str8, n);
      if h.Success? then FixRanges(h.value[0]); h else h
  }

  /** `Str.dec`: the header's length of bytes, decoded from UTF-8. */
  function StrDec(r: ReadBuffer): (d: Outcome<Decoded<seq<CodeUnit>>>)
    ensures d.Success? ==> Consumed(r, d.value.rest)
    ensures GetBlobHeader(r).Failure? ==> d == Failure(GetBlobHeader(r).error)
  {
    var h :- GetBlobHeader(r);
    var g := h.rest.Get(h.item);
    var s :- FromUtf8(g.item);
    Success(Decoded(s, g.rest))
  }

  /** `Str.dec` reads back what `Str.enc` wrote, for every well-formed string. */
  lemma StrRoundTrip(s: seq<CodeUnit>, bs: seq<Byte>, r: ReadBuffer)
    requires WellFormed(s) && StrEnc(s) == Success(bs) && At(r, bs)
    ensures StrDec(r) == Success(Decoded(s, r.Skip(|bs|)))
  {
    var utf8 := ToUtf8(s);
    var h := StrHeader(|utf8|).value;
    assert bs == h + utf8;
    AtAppend(r, h, utf8);
    StrHeaderRead(|utf8|, h, r);
    Utf8RoundTrip(s);
    StrReadBack(r, |h|, utf8, s, |bs|);
  }

  /** A string header for `|utf8|` bytes, then UTF-8 that decodes to `s`,
      reads back as `s`. */
  lemma StrReadBack(r: ReadBuffer, k: nat, utf8: seq<Byte>, s: seq<CodeUnit>, len: nat)
    requires GetBlobHeader(r) == Success(Decoded(|utf8|, r.Skip(k)))
    requires At(r.Skip(k), utf8) && FromUtf8(utf8) == Success(s) && len == k + |utf8|
    ensures StrDec(r) == Success(Decoded(s, r.Skip(len)))
  {
    GetAt(r.Skip(k), utf8);
    StrDecSteps(r, |utf8|, r.Skip(k), utf8, s);
    SkipAdd(r, k, |utf8|);
  }

  /** `Str.dec` in three steps: header, payload, UTF-8 decoding. */
  lemma StrDecSteps(r: ReadBuffer, n: nat, rest: ReadBuffer, utf8: seq<Byte>, s: seq<CodeUnit>)
    requires GetBlobHeader(r) == Success(Decoded(n, rest))
    requires rest.Get(n) == Decoded(utf8, rest.Skip(n)) && FromUtf8(utf8) == Success(s)
    ensures StrDec(r) == Success(Decoded(s, rest.Skip(n)))
  {
  }

  /** `getBlobHeader` reads back the header `Str.enc` wrote. */
  lemma StrHeaderRead(n: nat, h: seq<Byte>, r: ReadBuffer)
    requires StrHeader(n) == Success(h) && At(r, h)
    ensures GetBlobHeader(r) == Success(Decoded(n, r.Skip(|h|)))
  {
    if n < 32 {
      AtTag(r, h);
    } else {
      BlobHeaderRoundTrip(Str8, n, h, r);
    }
  }

  // ---------------------------------------------------------------------------
  // Byte vectors from the tests
  // ---------------------------------------------------------------------------

  /** A one-letter ASCII string is its fixstr tag 0xa1 and the letter. */
  lemma LetterExample(c: CodeUnit)
    requires c < 0x80
    ensures StrEnc([c]) == Success([0xa1, c as Byte])
  {
    assert !IsHighSurrogate(c) && [c][1..] == [];
    assert ToUtf8([c]) == EncodeCodePoint(c) + ToUtf8([]) == [c as Byte];
    assert StrHeader(1) == Success([FixstrTag(1)]) && FixstrTag(1) == 0xa1;
    assert StrEnc([c]) == Success([0xa1] + [c as Byte]);
    assert [0xa1] + [c as Byte] == [0xa1, c as Byte];
  }

  /** The `Int` encodings in the tests that fit 8 or 16 bits. */
  lemma IntExamples()
    ensures IntEnc(7) == [0x07]
    ensures IntEnc(-7) == [0xf9]
    ensures IntEnc(-128) == [Int8, 0x80]
    ensures IntEnc(-32768) == [Int16, 0x80, 0x00]
    ensures IntEnc(32767) == [Int16, 0x7f, 0xff]
  {
    assert BigEndian(-128, 1) == [0x80];
    assert BigEndian(-32768, 2) == [0x80, 0x00];
    assert BigEndian(32767, 2) == [0x7f, 0xff];
  }

  /** The `Int` encodings in the tests that take the 32-bit tier. */
  lemma Int32Examples()
    ensures IntEnc(2147483647) == [Int32, 0x7f, 0xff, 0xff, 0xff]
    ensures IntEnc(-2147483648) == [Int32, 0x80, 0x00, 0x00, 0x00]
  {
    assert BigEndian(2147483647, 4) == [0x7f, 0xff, 0xff, 0xff];
    assert BigEndian(-2147483648, 4) == [0x80, 0x00, 0x00, 0x00];
  }

  /** The `Int` encodings in the tests of 2^31 and 2^32, the first
      values past the Int32 tier. */
  lemma Int64Examples()
    ensures IntEnc(2147483648) == [Int64, 0x00, 0x00, 0x00, 0x00, 0x80, 0x00, 0x00, 0x00]
    ensures IntEnc(4294967296) == [Int64, 0x00, 0x00, 0x00, 0x01, 0x00, 0x00, 0x00, 0x00]
  {
    var a, b: seq<Byte> := [0x00, 0x00, 0x00, 0x00], [0x80, 0x00, 0x00, 0x00];
    Int64Example(2147483648, 0, 0x8000_0000, a, b);
    assert [Int64] + (a + b) == [Int64, 0x00, 0x00, 0x00, 0x00, 0x80, 0x00, 0x00, 0x00];
    var e, f: seq<Byte> := [0x00, 0x00, 0x00, 0x01], [0x00, 0x00, 0x00, 0x00];
    Int64Example(4294967296, 1, 0, e, f);
    assert [Int64] + (e + f) == [Int64, 0x00, 0x00, 0x00, 0x01, 0x00, 0x00, 0x00, 0x00];
  }

  /** The `Int` encoding in the tests of -2^31 - 1, the first negative
      value past the Int32 tier: the high word is all ones. */
  lemma Int64NegativeExample()
    ensures IntEnc(-2147483649) == [Int64, 0xff, 0xff, 0xff, 0xff, 0x7f, 0xff, 0xff, 0xff]
  {
    var c, d: seq<Byte> := [0xff, 0xff, 0xff, 0xff], [0x7f, 0xff, 0xff, 0xff];
    DivModUnique(-1, TwoTo32, -1, 0xffff_ffff);
    Int64Example(-2147483649, -1, 0x7fff_ffff, c, d);
    assert [Int64] + (c + d) == [Int64, 0xff, 0xff, 0xff, 0xff, 0x7f, 0xff, 0xff, 0xff];
  }

  /** The `Int` encodings in the tests of a value above 2^32 and its negation. */
  lemma Int64LargeExamples()
    ensures IntEnc(549764202560) == [Int64, 0x00, 0x00, 0x00, 0x80, 0x00, 0x80, 0x00, 0x40]
    ensures IntEnc(-549764202560) == [Int64, 0xff, 0xff, 0xff, 0x7f, 0xff, 0x7f, 0xff, 0xc0]
  {
    var a, b: seq<Byte> := [0x00, 0x00, 0x00, 0x80], [0x00, 0x80, 0x00, 0x40];
    Int64Example(549764202560, 0x80, 0x80_0040, a, b);
    assert [Int64] + (a + b) == [Int64, 0x00, 0x00, 0x00, 0x80, 0x00, 0x80, 0x00, 0x40];
    var c, d: seq<Byte> := [0xff, 0xff, 0xff, 0x7f], [0xff, 0x7f, 0xff, 0xc0];
    DivModUnique(-129, TwoTo32, -1, 0xffff_ff7f);
    Int64Example(-549764202560, -129, 0xff7f_ffc0, c, d);
    assert [Int64] + (c + d) == [Int64, 0xff, 0xff, 0xff, 0x7f, 0xff, 0x7f, 0xff, 0xc0];
  }

  /** A 64-bit `Int` encoding from the bytes of the value's two words. */
  lemma Int64Example(v: int, hi: int, lo: int, a: seq<Byte>, b: seq<Byte>)
    requires !(-TwoTo31 <= v < TwoTo31) && -TwoTo63 <= v < TwoTo63
    requires v == hi * TwoTo32 + lo && 0 <= lo < TwoTo32
    requires |a| == 4 && hi % TwoTo32 == Digits4(a)
    requires |b| == 4 && lo == Digits4(b)
    ensures IntEnc(v) == [Int64] + (a + b)
  {
    I64BytesIsTwosComplement(v);
    Word8(v, hi, lo, a, b);
  }

  /** The tier boundaries the guards draw: -32 is not a negative fixint
      (`v > -32`), and 128 skips the Uint tags and takes Int16. */
  lemma IntTierBoundaries()
    ensures IntEnc(-31) == [0xe1]
    ensures IntEnc(-32) == [Int8, 0xe0]
    ensures IntEnc(127) == [0x7f]
    ensures IntEnc(128) == [Int16, 0x00, 0x80]
  {
    assert BigEndian(-32, 1) == [0xe0];
    assert BigEndian(128, 2) == [0x00, 0x80];
  }

  /** The `Uint` encodings in the tests up to 32 bits, and the refusal of
      a negative number. */
  lemma UintExamples()
    ensures UintEnc(-1) == Failure(NotUnsigned(-1))
    ensures UintEnc(7) == Success([0x07])
    ensures UintEnc(255) == Success([Uint8, 0xff])
    ensures UintEnc(65535) == Success([Uint16, 0xff, 0xff])
    ensures UintEnc(4294967295) == Success([Uint32, 0xff, 0xff, 0xff, 0xff])
  {
    assert [Uint8] + BigEndian(255, 1) == [Uint8, 0xff];
    assert [Uint16] + BigEndian(65535, 2) == [Uint16, 0xff, 0xff];
    assert [Uint32] + BigEndian(4294967295, 4) == [Uint32, 0xff, 0xff, 0xff, 0xff];
  }

  /** The `Uint` encodings in the tests that take the 64-bit tier. */
  lemma Uint64Examples()
    ensures UintEnc(4294967296) == Success([Uint64, 0x00, 0x00, 0x00, 0x01, 0x00, 0x00, 0x00, 0x00])
    ensures UintEnc(549764202560) == Success([Uint64, 0x00, 0x00, 0x00, 0x80, 0x00, 0x80, 0x00, 0x40])
  {
    var a, b: seq<Byte> := [0x00, 0x00, 0x00, 0x01], [0x00, 0x00, 0x00, 0x00];
    Ui64Example(4294967296, 0x1, 0x0, a, b);
    assert [Uint64] + (a + b) == [Uint64, 0x00, 0x00, 0x00, 0x01, 0x00, 0x00, 0x00, 0x00];
    var c, d: seq<Byte> := [0x00, 0x00, 0x00, 0x80], [0x00, 0x80, 0x00, 0x40];
    Ui64Example(549764202560, 0x80, 0x80_0040, c, d);
    assert [Uint64] + (c + d) == [Uint64, 0x00, 0x00, 0x00, 0x80, 0x00, 0x80, 0x00, 0x40];
  }

  /** A 64-bit `Uint` encoding from the bytes of the value's two words. */
  lemma Ui64Example(v: int, hi: nat, lo: nat, a: seq<Byte>, b: seq<Byte>)
    requires TwoTo32 <= v && v == hi * TwoTo32 + lo && lo < TwoTo32
    requires |a| == 4 && hi % TwoTo32 == Digits4(a)
    requires |b| == 4 && lo == Digits4(b)
    ensures UintEnc(v) == Success([Uint64] + (a + b))
  {
    assert UintEnc(v) == Success([Uint64] + Ui64Bytes(v));
    Ui64BytesIsBigEndian(v);
    Word8(v, hi, lo, a, b);
  }

  /** Int8 0x9e reads as -98. */
  lemma Int8Example(r: ReadBuffer)
    requires At(r, [Int8, 0x9e])
    ensures IntDec(r) == Success(Decoded(-98, r.Skip(2)))
  {
    assert IntEnc(-98) == [Int8, 0x9e] by {
      assert BigEndian(-98, 1) == [0x9e];
    }
    IntRoundTrip(-98, r);
  }
}

=== FILE: tags.dfy ===
/** The one-byte tag vocabulary of the wire format: the explicit tag
    constants and the five fix-range families, each with a constructor,
    a membership predicate and a reader. All of them use the same bit
    masks as the TypeScript code: the predicates on the tag as an 8-bit
    vector, the readers and constructors through the `BitAnd`, `BitOr`
    and `JsAnd` models of the JS operators; the contracts restate each
    in plain arithmetic. */
module Tags {
  import opened Words

  const Nil: Byte := 0xc0

  const False: Byte := 0xc2
  const True: Byte := 0xc3

  const Int8: Byte := 0xd0
  const Int16: Byte := 0xd1
  const Int32: Byte := 0xd2
  const Int64: Byte := 0xd3

  const Uint8: Byte := 0xcc
  const Uint16: Byte := 0xcd
  const Uint32: Byte := 0xce
  const Uint64: Byte := 0xcf

  const Float32: Byte := 0xca
  const Float64: Byte := 0xcb

  const Str8: Byte := 0xd9
  const Str16: Byte := 0xda
  const Str32: Byte := 0xdb

  const Bin8: Byte := 0xc4
  const Bin16: Byte := 0xc5
  const Bin32: Byte := 0xc6

  const Array16: Byte := 0xdc
  const Array32: Byte := 0xdd

  const Map16: Byte := 0xde
  const Map32: Byte := 0xdf

  const Ext8: Byte := 0xc7
  const Ext16: Byte := 0xc8
  const Ext32: Byte := 0xc9
  const FixExt1: Byte := 0xd4
  const FixExt2: Byte := 0xd5
  const FixExt4: Byte := 0xd6
  const FixExt8: Byte := 0xd7
  const FixExt16: Byte := 0xd8

  /** Every explicit tag, in declaration order. */
  const ExplicitTags: seq<Byte> := [
    Nil, False, True,
    Int8, Int16, Int32, Int64,
    Uint8, Uint16, Uint32, Uint64,
    Float32, Float64,
    Str8, Str16, Str32,
    Bin8, Bin16, Bin32,
    Array16, Array32,
    Map16, Map32,
    Ext8, Ext16, Ext32, FixExt1, FixExt2, FixExt4, FixExt8, FixExt16
  ]

  // positive fixint: 0xxx xxxx

  predicate IsPosFixintTag(t: Byte) {
    (t as bv8) & 0x80 == 0
  }

  function ReadPosFixint(t: Byte): (v: int)
    ensures v == t % 0x80
    ensures IsPosFixintTag(t) ==> v == t
  {
    ByteMasks(t);
    FixRanges(t);
    BitAnd(t, 0x7f)
  }

  function PosFixintTag(i: int): (t: Byte)
    ensures t == i % 0x80
    ensures IsPosFixintTag(t)
    ensures 0 <= i <= 0x7f ==> ReadPosFixint(t) == i
  {
    LowMasks();
    JsAndLowMask(i, 7);
    var t := JsAnd(i, 0x7f);
    FixRanges(t);
    LowBitsReadBack(t, ReadPosFixint(t), i, 0, 0x80);
    t
  }

  // negative fixint: 111x xxxx

  predicate IsNegFixintTag(t: Byte) {
    (t as bv8) & 0xe0 == 0xe0
  }

  function ReadNegFixint(t: Byte): (v: int)
    ensures IsNegFixintTag(t) ==> -0x20 <= v <= -1
  {
    FixRanges(t);
    t - 0x100
  }

  function NegFixintTag(i: int): (t: Byte)
    ensures t == 0xe0 + i % 0x20
    ensures IsNegFixintTag(t)
    ensures -0x20 <= i <= -1 ==> ReadNegFixint(t) == i
  {
    LowMasks();
    JsAndLowMask(i, 5);
    BitOrDisjoint(0xe0, i % 0x20, 5);
    var t := BitOr(0xe0, JsAnd(i, 0x1f));
    FixRanges(t);
    NegBitsReadBack(t, ReadNegFixint(t), i);
    t
  }

  // fixstr: 101x xxxx

  predicate IsFixstrTag(t: Byte) {
    (t as bv8) & 0xe0 == 0xa0
  }

  function ReadFixstr(t: Byte): (len: int)
    ensures len == t % 0x20
    ensures IsFixstrTag(t) ==> t == 0xa0 + len
  {
    ByteMasks(t);
    FixRanges(t);
    InBlock(t, 5, 0x20);
    BitAnd(t, 0x1f)
  }

  function FixstrTag(len: int): (t: Byte)
    ensures t == 0xa0 + len % 0x20
    ensures IsFixstrTag(t)
    ensures 0 <= len <= 0x1f ==> ReadFixstr(t) == len
  {
    LowMasks();
    JsAndLowMask(len, 5);
    BitOrDisjoint(0xa0, len % 0x20, 5);
    var t := BitOr(0xa0, JsAnd(len, 0x1f));
    FixRanges(t);
    LowBitsReadBack(t, ReadFixstr(t), len, 5, 0x20);
    t
  }

  // fixarray: 1001 xxxx

  predicate IsFixarrayTag(t: Byte) {
    (t as bv8) & 0xf0 == 0x90
  }

  function ReadFixarray(t: Byte): (len: int)
    ensures len == t % 0x10
    ensures IsFixarrayTag(t) ==> t == 0x90 + len
  {
    ByteMasks(t);
    FixRanges(t);
    InBlock(t, 9, 0x10);
    BitAnd(t, 0x0f)
  }

  function FixarrayTag(len: int): (t: Byte)
    ensures t == 0x90 + len % 0x10
    ensures IsFixarrayTag(t)
    ensures 0 <= len <= 0x0f ==> ReadFixarray(t) == len
  {
    LowMasks();
    JsAndLowMask(len, 4);
    BitOrDisjoint(0x90, len % 0x10, 4);
    var t := BitOr(0x90, JsAnd(len, 0x0f));
    FixRanges(t);
    LowBitsReadBack(t, ReadFixarray(t), len, 9, 0x10);
    t
  }

  // fixmap: 1000 xxxx

  predicate IsFixmapTag(t: Byte) {
    (t as bv8) & 0xf0 == 0x80
  }

  function ReadFixmap(t: Byte): (len: int)
    ensures len == t % 0x10
    ensures IsFixmapTag(t) ==> t == 0x80 + len
  {
    ByteMasks(t);
    FixRanges(t);
    InBlock(t, 8, 0x10);
    BitAnd(t, 0x0f)
  }

  function FixmapTag(len: int): (t: Byte)
    ensures t == 0x80 + len % 0x10
    ensures IsFixmapTag(t)
    ensures 0 <= len <= 0x0f ==> ReadFixmap(t) == len
  {
    LowMasks();
    JsAndLowMask(len, 4);
    BitOrDisjoint(0x80, len % 0x10, 4);
    var t := BitOr(0x80, JsAnd(len, 0x0f));
    FixRanges(t);
    LowBitsReadBack(t, ReadFixmap(t), len, 8, 0x10);
    t
  }

  /** True when the tag belongs to one of the five fix ranges. */
  predicate IsFixRangeTag(t: Byte) {
    IsPosFixintTag(t) || IsNegFixintTag(t) || IsFixstrTag(t) || IsFixarrayTag(t) || IsFixmapTag(t)
  }

  /** A constructor's low bits read back as its argument when it is in range. */
  lemma LowBitsReadBack(t: Byte, x: int, i: int, q: nat, m: nat)
    requires m >= 1 && t == q * m + i % m && x == t % m
    ensures 0 <= i < m ==> x == i
  {
    if 0 <= i < m {
      DivModUnique(i, m, 0, i);
      DivModUnique(t, m, q, i);
    }
  }

  /** A byte inside the `q`-th block of `m` bytes is the block start plus
      its remainder. */
  lemma InBlock(t: Byte, q: nat, m: nat)
    requires m >= 1
    ensures q * m <= t < q * m + m ==> t == q * m + t % m
  {
    if q * m <= t < q * m + m {
      DivModUnique(t, m, q, t - q * m);
    }
  }

  /** The negative-fixint byte reads back as its argument when it is in range. */
  lemma NegBitsReadBack(t: Byte, x: int, i: int)
    requires t == 0xe0 + i % 0x20 && x == t - 0x100
    ensures -0x20 <= i <= -1 ==> x == i
  {
    if -0x20 <= i <= -1 {
      DivModUnique(i, 0x20, -1, i + 0x20);
    }
  }

  /** The masks the tag functions use, as powers of two. */
  lemma LowMasks()
    ensures Pow2(4) == 0x10 && Pow2(5) == 0x20 && Pow2(7) == 0x80 && Pow2(8) == 0x100
  {
    assert Pow2(4) == 0x10;
    assert Pow2(8) == 0x100 by {
      Pow2Add(4, 4);
    }
  }

  /** On a byte, each low mask takes a remainder and each high mask clears
      the bits below it. */
  lemma ByteMasks(t: Byte)
    ensures BitAnd(t, 0x7f) == t % 0x80 && BitAnd(t, 0x80) == t / 0x80 * 0x80
    ensures BitAnd(t, 0x1f) == t % 0x20 && BitAnd(t, 0xe0) == t / 0x20 * 0x20
    ensures BitAnd(t, 0x0f) == t % 0x10 && BitAnd(t, 0xf0) == t / 0x10 * 0x10
  {
    LowMasks();
    BitAndLowMask(t, 7);
    BitAndLowMask(t, 5);
    BitAndLowMask(t, 4);
    BitAndHighMask(t, 7, 8);
    BitAndHighMask(t, 5, 8);
    BitAndHighMask(t, 4, 8);
  }

  // ---------------------------------------------------------------------------
  // Properties of the grammar
  // ---------------------------------------------------------------------------

  /** The five masks select contiguous byte ranges. */
  lemma FixRanges(t: Byte)
    ensures IsPosFixintTag(t) <==> t <= 0x7f
    ensures IsNegFixintTag(t) <==> 0xe0 <= t
    ensures IsFixstrTag(t) <==> 0xa0 <= t <= 0xbf
    ensures IsFixarrayTag(t) <==> 0x90 <= t <= 0x9f
    ensures IsFixmapTag(t) <==> 0x80 <= t <= 0x8f
  {
  }

  /** No byte lies in two fix ranges. */
  lemma FixRangesDisjoint(t: Byte)
    ensures !(IsPosFixintTag(t) && IsNegFixintTag(t))
    ensures !(IsPosFixintTag(t) && IsFixstrTag(t))
    ensures !(IsPosFixintTag(t) && IsFixarrayTag(t))
    ensures !(IsPosFixintTag(t) && IsFixmapTag(t))
    ensures !(IsNegFixintTag(t) && IsFixstrTag(t))
    ensures !(IsNegFixintTag(t) && IsFixarrayTag(t))
    ensures !(IsNegFixintTag(t) && IsFixmapTag(t))
    ensures !(IsFixstrTag(t) && IsFixarrayTag(t))
    ensures !(IsFixstrTag(t) && IsFixmapTag(t))
    ensures !(IsFixarrayTag(t) && IsFixmapTag(t))
  {
    FixRanges(t);
  }

  /** The fix ranges cover exactly the bytes outside 0xc0..0xdf, so every
      byte is either in exactly one fix range or in the explicit-tag block. */
  lemma FixRangesComplementExplicitBlock(t: Byte)
    ensures IsFixRangeTag(t) <==> !(0xc0 <= t <= 0xdf)
  {
    FixRanges(t);
  }

  /** Every explicit tag lies in 0xc0..0xdf and is therefore in no fix range. */
  lemma ExplicitTagsReserved()
    ensures forall k :: 0 <= k < |ExplicitTags| ==> 0xc0 <= ExplicitTags[k] <= 0xdf
    ensures forall k :: 0 <= k < |ExplicitTags| ==> !IsFixRangeTag(ExplicitTags[k])
  {
    forall k | 0 <= k < |ExplicitTags|
      ensures 0xc0 <= ExplicitTags[k] <= 0xdf && !IsFixRangeTag(ExplicitTags[k])
    {
      FixRangesComplementExplicitBlock(ExplicitTags[k]);
    }
  }

  /** The 8/16/32-bit tiers of blobs and collections are consecutive bytes,
      as the header writers' `baseTag + 1` and `baseTag + 2` rely on. */
  lemma TiersConsecutive()
    ensures Bin16 == Bin8 + 1 && Bin32 == Bin8 + 2
    ensures Str16 == Str8 + 1 && Str32 == Str8 + 2
    ensures Array32 == Array16 + 1
    ensures Map32 == Map16 + 1
  {
  }
}

=== FILE: timestamps.dfy ===
/** The Time codec: a JS `Date`, held as whole milliseconds since the
    epoch, carried in the timestamp extension type (-1) of the MessagePack
    format. The encoder always writes the 96-bit form; the decoder also
    accepts the 32-bit and 64-bit forms. */
module Timestamps {
  import opened Wrappers
  import opened Errors
  import opened Words
  import opened Tags
  import opened Buffer

  /** The extension type of timestamps. */
  const TimestampType: int := -1

  /** The payload length of the 96-bit form. */
  const Ext8Length: int := 12

  /** The header `Time.enc` writes: Ext8, the length 12, and the type -1
      as a signed byte. */
  function TimeHeader(): (h: seq<Byte>)
    ensures |h| == 3 && h[0] == Ext8 && h[1] == 12 && h[2] == 0xff
  {
    [Ext8] + BigEndian(Ext8Length, 1) + BigEndian(TimestampType, 1)
  }

  /** `Time.enc` as written: the nanoseconds `(ms % 1000) * 10^6` and the
      seconds `ms / 1000` use JS's `%`, whose remainder takes the sign of
      `ms`, and `/`, whose fraction `putI64` cuts off toward zero (its `|0`
      on each half of the magnitude). */
  function TimeEncAsWritten(ms: int): (bs: seq<Byte>)
    ensures |bs| == 15 && bs[..3] == TimeHeader()
  {
    TimeHeader() + BigEndian(TruncRem(ms, 1000) * 1_000_000, 4) + I64Bytes(TruncDiv(ms, 1000))
  }

  /** `Time.enc` with floor division: the nanosecond field stays in
      0..999_999_999 and the seconds round toward minus infinity, as the
      timestamp format defines them. This is the encoder the rest of the
      model uses; it writes the same bytes as the source from the epoch on
      (`TimeEncAgrees`). */
  function TimeEnc(ms: int): (bs: seq<Byte>)
    ensures |bs| == 15 && bs[..3] == TimeHeader()
  {
    TimeHeader() + BigEndian(ms % 1000 * 1_000_000, 4) + I64Bytes(ms / 1000)
  }

  /** For dates from the epoch on, the two encoders write the same bytes. */
  lemma TimeEncAgrees(ms: int)
    requires ms >= 0
    ensures TimeEnc(ms) == TimeEncAsWritten(ms)
  {
    assert TruncRem(ms, 1000) == ms % 1000;
  }

  /** Milliseconds of the 64-bit form, from its first word `lo` (30 bits
      of nanoseconds above the top 2 bits of the seconds) and its second
      word `hi` (the low 32 bits of the seconds). `lo / 4000000` is the
      nanoseconds in milliseconds plus a fraction below one. Here the
      fraction is dropped from the exact sum; the source adds in binary64,
      which can round a fraction just below one up to the next millisecond
      before `new Date` truncates. */
  function Fix64Millis(lo: nat, hi: nat): (ms: int)
    requires lo < TwoTo32 && hi < TwoTo32
    ensures ms == ((lo % 4) * TwoTo32 + hi) * 1000 + (lo / 4) / 1_000_000
  {
    JsAndLowMask(lo, 2);
    assert Pow2(2) == 4;
    ModSplit(lo, 4, 1_000_000);
    (hi + JsAnd(lo, 3) * TwoTo32) * 1000 + lo / 4_000_000
  }

  /** Milliseconds of the 96-bit form: the exact `s*1000 + ns/1000000`,
      truncated toward zero. The source adds in binary64 first, which can
      round a fraction just below one up to the next millisecond; the two
      agree when `ns` is a whole number of milliseconds (`Ext96MillisWhole`). */
  function Ext96Millis(ns: nat, s: int): (ms: int)
    ensures var t := s * 1_000_000_000 + ns;
      (t >= 0 ==> 0 <= ms && ms * 1_000_000 <= t < (ms + 1) * 1_000_000) &&
      (t < 0 ==> ms <= 0 && (ms - 1) * 1_000_000 < t <= ms * 1_000_000)
  {
    var t := s * 1_000_000_000 + ns;
    var a := if t < 0 then -t else t;
    assert a == (a / 1_000_000) * 1_000_000 + a % 1_000_000;
    TruncDiv(t, 1_000_000)
  }

  /** When the nanoseconds are whole milliseconds, as `TimeEnc` writes
      them, there is no fraction: the milliseconds are exactly
      `s*1000 + ns/1000000`, with no rounding for binary64 to do. */
  lemma Ext96MillisWhole(ns: nat, s: int)
    requires ns % 1_000_000 == 0
    ensures Ext96Millis(ns, s) == s * 1000 + ns / 1_000_000
  {
    var ms := Ext96Millis(ns, s);
    var m := s * 1000 + ns / 1_000_000;
    assert s * 1_000_000_000 + ns == m * 1_000_000;
    if m * 1_000_000 >= 0 {
      assert ms * 1_000_000 <= m * 1_000_000 < (ms + 1) * 1_000_000;
    } else {
      assert (ms - 1) * 1_000_000 < m * 1_000_000 <= ms * 1_000_000;
    }
  }

  /** `Time.dec`. Each form must carry type -1 (and the 96-bit form the
      length 12); anything else, including any other tag, is a type error
      naming the first tag. */
  function TimeDec(r: ReadBuffer): (d: Outcome<Decoded<int>>)
    ensures d.Success? ==> Consumed(r, d.value.rest)
    ensures d.Success? ==> r.data[r.n] in {FixExt4, FixExt8, Ext8}
    ensures r.n < |r.data| && r.data[r.n] !in {FixExt4, FixExt8, Ext8} ==>
      d == Failure(UnexpectedTag(r.data[r.n], "time"))
    ensures |r.data| <= r.n ==> d == Failure(OutOfBounds)
  {
    var t :- r.GetUi8();
    var tag := t.item;
    if tag == FixExt4 then
      var ty :- t.rest.GetI8();
      if ty.item != TimestampType then Failure(UnexpectedTag(tag, "time"))
      else
        var s :- ty.rest.GetUi32();
        Success(Decoded(s.item * 1000, s.rest))
    else if tag == FixExt8 then
      var ty :- t.rest.GetI8();
      if ty.item != TimestampType then Failure(UnexpectedTag(tag, "time"))
      else
        var lo :- ty.rest.GetUi32();
        var hi :- lo.rest.GetUi32();
        Success(Decoded(Fix64Millis(lo.item, hi.item), hi.rest))
    else if tag == Ext8 then
      var len :- t.rest.GetUi8();
      if len.item != Ext8Length then Failure(UnexpectedTag(tag, "time"))
      else
        var ty :- len.rest.GetI8();
        if ty.item != TimestampType then Failure(UnexpectedTag(tag, "time"))
        else
          var ns :- ty.rest.GetUi32();
          var s :- ns.rest.GetI64();
          Success(Decoded(Ext96Millis(ns.item, s.item), s.rest))
    else Failure(UnexpectedTag(tag, "time"))
  }

  /** A 32- or 64-bit form whose type byte is not -1 is a type error. */
  lemma TimeWrongType(r: ReadBuffer)
    requires r.n + 2 <= |r.data| && r.data[r.n] in {FixExt4, FixExt8} && r.data[r.n + 1] != 0xff
    ensures TimeDec(r) == Failure(UnexpectedTag(r.data[r.n], "time"))
  {
    var ty := r.Skip(1).GetI8();
    assert ty.Success? && ty.value.item % 0x100 == r.data[r.n + 1];
  }

  /** A 96-bit form whose length byte is not 12, or whose type byte is not
      -1, is a type error. */
  lemma Ext96WrongHeader(r: ReadBuffer)
    requires r.n + 3 <= |r.data| && r.data[r.n] == Ext8
    requires r.data[r.n + 1] != 12 || r.data[r.n + 2] != 0xff
    ensures TimeDec(r) == Failure(UnexpectedTag(Ext8, "time"))
  {
    var ty := r.Skip(2).GetI8();
    assert ty.Success? && ty.value.item % 0x100 == r.data[r.n + 2];
  }

  // ---------------------------------------------------------------------------
  // Round trip
  // ---------------------------------------------------------------------------

  /** The largest distance from the epoch a `Date` can hold, in milliseconds. */
  const MaxTime: int := 8_640_000_000_000_000

  /** `Time.dec` reads back what the encoder wrote, for every valid date. */
  lemma TimeRoundTrip(ms: int, r: ReadBuffer)
    requires -MaxTime <= ms <= MaxTime && At(r, TimeEnc(ms))
    ensures TimeDec(r) == Success(Decoded(ms, r.Skip(15)))
  {
    var ns, s := EncodedFields(ms);
    Ext96Fields(r, ns, s);
  }

  /** The two fields `TimeEnc` writes for a valid date: in range, and
      together worth `ms`. */
  lemma EncodedFields(ms: int) returns (ns: int, s: int)
    requires -MaxTime <= ms <= MaxTime
    ensures TimeEnc(ms) == TimeHeader() + (BigEndian(ns, 4) + I64Bytes(s))
    ensures 0 <= ns < TwoTo32 && -TwoTo63 <= s < TwoTo63
    ensures Ext96Millis(ns, s) == ms
  {
    ns, s := ms % 1000 * 1_000_000, ms / 1000;
    TimeFields(ms, ns, s);
  }

  /** The nanosecond and second fields of a valid date are in range and
      give the date back. */
  lemma TimeFields(ms: int, ns: int, s: int)
    requires -MaxTime <= ms <= MaxTime && ns == ms % 1000 * 1_000_000 && s == ms / 1000
    ensures 0 <= ns < TwoTo32 && -TwoTo63 <= s < TwoTo63
    ensures Ext96Millis(ns, s) == ms
  {
    MillisSplit(ms);
    TruncDivExact(ms, 1_000_000);
  }

  /** The 96-bit form with nanoseconds `ns` and seconds `s` reads back as
      `Ext96Millis(ns, s)`. */
  lemma Ext96Fields(r: ReadBuffer, ns: int, s: int)
    requires 0 <= ns < TwoTo32 && -TwoTo63 <= s < TwoTo63
    requires At(r, TimeHeader() + (BigEndian(ns, 4) + I64Bytes(s)))
    ensures TimeDec(r) == Success(Decoded(Ext96Millis(ns, s), r.Skip(15)))
  {
    var p := r.Skip(3);
    AtAppend(r, TimeHeader(), BigEndian(ns, 4) + I64Bytes(s));
    AtAppend(p, BigEndian(ns, 4), I64Bytes(s));
    UnsignedRoundTrip(ns, 4, p);
    DivModUnique(ns, Pow256(4), 0, ns);
    I64RoundTrip(s, p.Skip(4));
    Ext96Steps(r, ns, s);
    SkipAdd(r, 3, 4);
    SkipAdd(r, 7, 8);
  }

  /** Floor seconds and the nanosecond remainder put `ms` back together. */
  lemma MillisSplit(ms: int)
    ensures (ms / 1000) * 1_000_000_000 + (ms % 1000 * 1_000_000) == ms * 1_000_000
  {
    assert ms == 1000 * (ms / 1000) + ms % 1000;
  }

  /** Truncating division of an exact multiple. */
  lemma TruncDivExact(k: int, m: int)
    requires m > 0
    ensures TruncDiv(k * m, m) == k
  {
    if k >= 0 {
      DivModUnique(k * m, m, k, 0);
    } else {
      DivModUnique(-(k * m), m, -k, 0);
    }
  }

  /** `Time.dec` on the 96-bit header, once its two fields read back. */
  lemma Ext96Steps(r: ReadBuffer, ns: nat, s: int)
    requires At(r, TimeHeader())
    requires r.Skip(3).GetUi32() == Success(Decoded(ns, r.Skip(3).Skip(4)))
    requires r.Skip(3).Skip(4).GetI64() == Success(Decoded(s, r.Skip(3).Skip(4).Skip(8)))
    ensures TimeDec(r) == Success(Decoded(Ext96Millis(ns, s), r.Skip(3).Skip(4).Skip(8)))
  {
    assert r.data[r.n..r.n + 3] == TimeHeader();
    assert r.data[r.n] == Ext8 && r.data[r.n + 1] == 12 && r.data[r.n + 2] == 0xff;
    assert r.GetUi8() == Success(Decoded(Ext8, r.Skip(1)));
    assert r.Skip(1).GetUi8() == Success(Decoded(12, r.Skip(1).Skip(1)));
    TypeByte(r.Skip(2));
    assert r.Skip(1).Skip(1) == r.Skip(2) && r.Skip(2).Skip(1) == r.Skip(3);
  }

  /** Dates from the epoch on survive the encoder as written. */
  lemma TimeRoundTripAsWritten(ms: int, r: ReadBuffer)
    requires 0 <= ms <= MaxTime && At(r, TimeEncAsWritten(ms))
    ensures TimeDec(r) == Success(Decoded(ms, r.Skip(15)))
  {
    TimeEncAgrees(ms);
    TimeRoundTrip(ms, r);
  }

  /** A date 1.5 s before the epoch, written by the encoder as written,
      reads back 2.794 s after it: the nanosecond field wraps from
      -500_000_000 to 3_794_967_296 and the seconds come out as -1. */
  lemma TimeNegativeCounterexample(r: ReadBuffer)
    requires At(r, TimeEncAsWritten(-1500))
    ensures TimeDec(r) == Success(Decoded(2794, r.Skip(15)))
  {
    NegativeFields();
    Ext96Fields(r, 3_794_967_296, -1);
    assert Ext96Millis(3_794_967_296, -1) == 2794 by {
      DivModUnique(2_794_967_296, 1_000_000, 2794, 967_296);
    }
  }

  /** The fields the encoder as written produces for -1500 ms. */
  lemma NegativeFields()
    ensures TimeEncAsWritten(-1500) == TimeHeader() + (BigEndian(3_794_967_296, 4) + I64Bytes(-1))
  {
    var ns := TruncRem(-1500, 1000) * 1_000_000;
    assert ns == -500_000_000;
    assert TruncDiv(-1500, 1000) == -1;
    assert BigEndian(ns, 4) == BigEndian(3_794_967_296, 4) by {
      assert Pow256(4) == TwoTo32;
      DivModUnique(ns, TwoTo32, -1, 3_794_967_296);
      DivModUnique(3_794_967_296, TwoTo32, 0, 3_794_967_296);
      BigEndianCongruent(ns, 3_794_967_296, 4);
    }
  }

  /** The byte 0xff reads as the timestamp type -1. */
  lemma TypeByte(r: ReadBuffer)
    requires r.n < |r.data| && r.data[r.n] == 0xff
    ensures r.GetI8() == Success(Decoded(TimestampType, r.Skip(1)))
  {
    assert r.data[r.n..r.n + 1] == BigEndian(-1, 1);
    SignedRoundTrip(-1, 1, r);
  }

  /** The 32-bit form: type -1, then the seconds as an unsigned word. */
  lemma Fix32ReadBack(r: ReadBuffer, secs: int)
    requires 0 <= secs < TwoTo32 && At(r, [FixExt4, 0xff] + BigEndian(secs, 4))
    ensures TimeDec(r) == Success(Decoded(secs * 1000, r.Skip(6)))
  {
    AtAppend(r, [FixExt4, 0xff], BigEndian(secs, 4));
    ExtPrefix(r, FixExt4);
    UnsignedRoundTrip(secs, 4, r.Skip(2));
    DivModUnique(secs, Pow256(4), 0, secs);
    SkipAdd(r, 2, 4);
    Fix32Steps(r, secs);
  }

  lemma Fix32Steps(r: ReadBuffer, secs: nat)
    requires r.n < |r.data| && r.data[r.n] == FixExt4
    requires r.Skip(1).GetI8() == Success(Decoded(TimestampType, r.Skip(2)))
    requires r.Skip(2).GetUi32() == Success(Decoded(secs, r.Skip(6)))
    ensures TimeDec(r) == Success(Decoded(secs * 1000, r.Skip(6)))
  {
  }

  /** A fixext tag followed by the type byte 0xff. */
  lemma ExtPrefix(r: ReadBuffer, tag: Byte)
    requires At(r, [tag, 0xff])
    ensures r.n < |r.data| && r.data[r.n] == tag
    ensures r.Skip(1).GetI8() == Success(Decoded(TimestampType, r.Skip(2)))
  {
    assert r.data[r.n..r.n + 2][0] == tag;
    assert r.data[r.n..r.n + 2][1] == 0xff;
    TypeByte(r.Skip(1));
    SkipAdd(r, 1, 1);
  }

  /** The 64-bit form: type -1, then the two words `lo` and `hi`. */
  lemma Fix64ReadBack(r: ReadBuffer, lo: int, hi: int)
    requires 0 <= lo < TwoTo32 && 0 <= hi < TwoTo32
    requires At(r, [FixExt8, 0xff] + (BigEndian(lo, 4) + BigEndian(hi, 4)))
    ensures TimeDec(r) == Success(Decoded(Fix64Millis(lo, hi), r.Skip(10)))
  {
    var p := r.Skip(2);
    AtAppend(r, [FixExt8, 0xff], BigEndian(lo, 4) + BigEndian(hi, 4));
    AtAppend(p, BigEndian(lo, 4), BigEndian(hi, 4));
    ExtPrefix(r, FixExt8);
    UnsignedRoundTrip(lo, 4, p);
    UnsignedRoundTrip(hi, 4, p.Skip(4));
    DivModUnique(lo, Pow256(4), 0, lo);
    DivModUnique(hi, Pow256(4), 0, hi);
    SkipAdd(r, 2, 4);
    SkipAdd(r, 6, 4);
    Fix64Steps(r, lo, hi);
  }

  lemma Fix64Steps(r: ReadBuffer, lo: nat, hi: nat)
    requires lo < TwoTo32 && hi < TwoTo32
    requires r.n < |r.data| && r.data[r.n] == FixExt8
    requires r.Skip(1).GetI8() == Success(Decoded(TimestampType, r.Skip(2)))
    requires r.Skip(2).GetUi32() == Success(Decoded(lo, r.Skip(6)))
    requires r.Skip(6).GetUi32() == Success(Decoded(hi, r.Skip(10)))
    ensures TimeDec(r) == Success(Decoded(Fix64Millis(lo, hi), r.Skip(10)))
  {
  }

  // ---------------------------------------------------------------------------
  // Byte vectors from the tests
  // ---------------------------------------------------------------------------

  /** 2017-09-26T13:14:15Z in the 32-bit form, and 2017-09-26T13:14:15.016Z
      in the 64-bit and 96-bit forms. */
  lemma Fix32Example(r: ReadBuffer)
    requires At(r, [FixExt4, 0xff, 0x59, 0xca, 0x52, 0xa7])
    ensures TimeDec(r) == Success(Decoded(1_506_431_655_000, r.Skip(6)))
  {
    assert [FixExt4, 0xff, 0x59, 0xca, 0x52, 0xa7] == [FixExt4, 0xff] + BigEndian(1_506_431_655, 4);
    Fix32ReadBack(r, 1_506_431_655);
  }

  lemma Fix64Example(r: ReadBuffer)
    requires At(r, [FixExt8, 0xff, 0x03, 0xd0, 0x90, 0x00, 0x59, 0xca, 0x52, 0xa7])
    ensures TimeDec(r) == Success(Decoded(1_506_431_655_016, r.Skip(10)))
  {
    assert [FixExt8, 0xff, 0x03, 0xd0, 0x90, 0x00, 0x59, 0xca, 0x52, 0xa7]
      == [FixExt8, 0xff] + (BigEndian(64_000_000, 4) + BigEndian(1_506_431_655, 4)) by {
      DivModUnique(64_000_000, TwoTo32, 0, 64_000_000);
      Word4(64_000_000, [0x03, 0xd0, 0x90, 0x00]);
      DivModUnique(1_506_431_655, TwoTo32, 0, 1_506_431_655);
      Word4(1_506_431_655, [0x59, 0xca, 0x52, 0xa7]);
    }
    Fix64ReadBack(r, 64_000_000, 1_506_431_655);
    assert Fix64Millis(64_000_000, 1_506_431_655) == 1_506_431_655_016;
  }

  lemma Ext96Example()
    ensures TimeEnc(1_506_431_655_016) ==
      [Ext8, 12, 0xff, 0x00, 0xf4, 0x24, 0x00, 0x00, 0x00, 0x00, 0x00, 0x59, 0xca, 0x52, 0xa7]
  {
    var ms := 1_506_431_655_016;
    var ns: seq<Byte> := [0x00, 0xf4, 0x24, 0x00];
    var secs: seq<Byte> := [0x00, 0x00, 0x00, 0x00, 0x59, 0xca, 0x52, 0xa7];
    assert TimeEnc(ms) == TimeHeader() + BigEndian(16_000_000, 4) + I64Bytes(1_506_431_655) by {
      DivModUnique(ms, 1000, 1_506_431_655, 16);
    }
    assert BigEndian(16_000_000, 4) == ns by {
      DivModUnique(16_000_000, TwoTo32, 0, 16_000_000);
      Word4(16_000_000, ns);
    }
    assert I64Bytes(1_506_431_655) == secs by {
      Ext96SecondsExample();
    }
    assert TimeHeader() == [Ext8, 12, 0xff];
    assert [Ext8, 12, 0xff] + ns + secs ==
      [Ext8, 12, 0xff, 0x00, 0xf4, 0x24, 0x00, 0x00, 0x00, 0x00, 0x00, 0x59, 0xca, 0x52, 0xa7];
  }

  lemma Ext96WholeSecondExample()
    ensures TimeEnc(1_506_431_655_000) ==
      [Ext8, 12, 0xff, 0x00, 0x00, 0x00, 0x00, 0x00, 0x00, 0x00, 0x00, 0x59, 0xca, 0x52, 0xa7]
  {
    var ms := 1_506_431_655_000;
    var ns: seq<Byte> := [0x00, 0x00, 0x00, 0x00];
    var secs: seq<Byte> := [0x00, 0x00, 0x00, 0x00, 0x59, 0xca, 0x52, 0xa7];
    assert TimeEnc(ms) == TimeHeader() + BigEndian(0, 4) + I64Bytes(1_506_431_655) by {
      DivModUnique(ms, 1000, 1_506_431_655, 0);
    }
    assert BigEndian(0, 4) == ns by {
      Word4(0, ns);
    }
    assert I64Bytes(1_506_431_655) == secs by {
      Ext96SecondsExample();
    }
    assert TimeHeader() == [Ext8, 12, 0xff];
    assert [Ext8, 12, 0xff] + ns + secs ==
      [Ext8, 12, 0xff, 0x00, 0x00, 0x00, 0x00, 0x00, 0x00, 0x00, 0x00, 0x59, 0xca, 0x52, 0xa7];
  }

  lemma Ext96SecondsExample()
    ensures I64Bytes(1_506_431_655) == [0x00, 0x00, 0x00, 0x00, 0x59, 0xca, 0x52, 0xa7]
  {
    var a, b: seq<Byte> := [0x00, 0x00, 0x00, 0x00], [0x59, 0xca, 0x52, 0xa7];
    I64BytesIsTwosComplement(1_506_431_655);
    Word8(1_506_431_655, 0, 1_506_431_655, a, b);
    assert a + b == [0x00, 0x00, 0x00, 0x00, 0x59, 0xca, 0x52, 0xa7];
  }
}

=== FILE: utf8.dfy ===
/** The hand-written transcoder between JS strings (sequences of UTF-16
    code units) and UTF-8 bytes: `toUTF8` combines surrogate pairs as
    section 2.2 of RFC 2781 describes and emits the one- to four-byte forms
    of section 3 of RFC 3629; `fromUTF8` reads those forms back without
    validating continuation bytes, then builds the string with
    `String.fromCodePoint`. Bit operations on non-negative operands are
    written as division and remainder by powers of two. */
module Utf8 {
  import opened Wrappers
  import opened Errors
  import opened Words
  import opened Seqs

  /** A UTF-16 code unit, what `charCodeAt` returns. */
  type CodeUnit = u: int | 0 <= u < 0x1_0000

  /** `(c & 0xfc00) === 0xd800` */
  predicate IsHighSurrogate(u: int) {
    0xd800 <= u <= 0xdbff
  }

  predicate IsLowSurrogate(u: int) {
    0xdc00 <= u <= 0xdfff
  }

  /** Well-formed UTF-16: every high surrogate is followed by a low one.
      Lone low surrogates are allowed; they travel as three-byte forms. */
  predicate WellFormed(s: seq<CodeUnit>) {
    forall i :: 0 <= i < |s| && IsHighSurrogate(s[i]) ==> i + 1 < |s| && IsLowSurrogate(s[i + 1])
  }

  const MaxCodePoint: int := 0x10_ffff

  // ---------------------------------------------------------------------------
  // Encoding
  // ---------------------------------------------------------------------------

  /** Number of continuation bytes announced by a lead byte, from its high
      nibble (`c & 0xf0`): 0xf → 3, 0xe → 2, 0xd or 0xc → 1, otherwise 0. */
  function LeadLength(b: Byte): (n: nat)
    ensures n <= 3
  {
    var hi := b / 0x10;
    if hi == 0xf then 3 else if hi == 0xe then 2 else if hi == 0xd || hi == 0xc then 1 else 0
  }

  /** One code point as one to four bytes. The surrogate combination of
      `toUTF8` can produce values up to 0x111fff when a high surrogate is
      followed by something other than a low surrogate, hence the bound. */
  function EncodeCodePoint(c: int): (bs: seq<Byte>)
    requires 0 <= c < 0x11_2000
    ensures 1 <= |bs| <= 4
    ensures LeadLength(bs[0]) == |bs| - 1
    ensures |bs| == 1 <==> c < 0x80
    ensures |bs| == 4 <==> 0x1_0000 <= c
  {
    if c < 0x80 then [c]
    else if c < 0x800 then [0xc0 + c / 0x40, 0x80 + c % 0x40]
    else if c < 0x1_0000 then [0xe0 + c / 0x1000, 0x80 + c / 0x40 % 0x40, 0x80 + c % 0x40]
    else [0xf0 + c / 0x4_0000, 0x80 + c / 0x1000 % 0x40, 0x80 + c / 0x40 % 0x40, 0x80 + c % 0x40]
  }

  /** `(hi << 10) + lo - 0x35fdc00`: the code point of a surrogate pair. */
  function Combine(hi: CodeUnit, lo: CodeUnit): (c: int)
    requires IsHighSurrogate(hi)
    ensures 0x2400 <= c < 0x11_2000
    ensures IsLowSurrogate(lo) ==> 0x1_0000 <= c <= MaxCodePoint
  {
    hi * 0x400 + lo - 0x35f_dc00
  }

  /** `toUTF8(v)`. A high surrogate in the last position reads `NaN` as its
      partner, and every comparison with `NaN` fails, so it falls into the
      four-byte branch with all shifts of `NaN` giving 0. The result never
      exceeds the `4*n` bytes the function allocates. */
  function ToUtf8(s: seq<CodeUnit>): (bs: seq<Byte>)
    ensures |bs| <= 4 * |s|
    ensures |s| > 0 ==> |bs| > 0
    decreases |s|
  {
    if |s| == 0 then []
    else if IsHighSurrogate(s[0]) then
      if |s| == 1 then [0xf0, 0x80, 0x80, 0x80]
      else EncodeCodePoint(Combine(s[0], s[1])) + ToUtf8(s[2..])
    else EncodeCodePoint(s[0]) + ToUtf8(s[1..])
  }

  // ---------------------------------------------------------------------------
  // Decoding
  // ---------------------------------------------------------------------------

  /** The payload bits kept from a lead byte: `c & ((1 << (6 - n)) - 1)`
      when `n` is non-zero, the byte itself otherwise. */
  function LeadBits(b: Byte, n: nat): (c: int)
    requires n <= 3
    ensures 0 <= c <= b
  {
    if n == 3 then b % 0x08
    else if n == 2 then b % 0x10
    else if n == 1 then b % 0x20
    else b
  }

  /** `c = (c << 6) + (bin[i++] & 0x3f)`, `k` times. A read past the end of
      the array yields `undefined`, and `undefined & 0x3f` is 0. The shifts
      cannot overflow: at most 3 + 18 bits are ever set. */
  function Accumulate(c: int, tail: seq<Byte>, k: nat): (a: int)
    ensures c >= 0 ==> a >= 0
    decreases k
  {
    if k == 0 then c
    else if |tail| == 0 then Accumulate(c * 0x40, [], k - 1)
    else Accumulate(c * 0x40 + tail[0] % 0x40, tail[1..], k - 1)
  }

  /** The code points `fromUTF8` collects: one per lead byte, which
      swallows the continuation bytes it announces. */
  function CodePoints(bs: seq<Byte>): (cps: seq<int>)
    ensures |cps| <= |bs|
    ensures |bs| > 0 ==> |cps| > 0
    ensures forall i :: 0 <= i < |cps| ==> cps[i] >= 0
    decreases |bs|
  {
    if |bs| == 0 then []
    else
      var n := LeadLength(bs[0]);
      var next := if 1 + n <= |bs| then 1 + n else |bs|;
      [Accumulate(LeadBits(bs[0], n), bs[1..], n)] + CodePoints(bs[next..])
  }

  /** The UTF-16 form of a code point: itself, or a surrogate pair above U+FFFF. */
  function Utf16(c: int): (us: seq<CodeUnit>)
    requires 0 <= c <= MaxCodePoint
    ensures 1 <= |us| <= 2
    ensures |us| == 2 <==> 0x1_0000 <= c
    ensures |us| == 2 ==> IsHighSurrogate(us[0]) && IsLowSurrogate(us[1])
  {
    if c < 0x1_0000 then [c]
    else [0xd800 + (c - 0x1_0000) / 0x400, 0xdc00 + (c - 0x1_0000) % 0x400]
  }

  /** Every code point lies in 0..U+10FFFF. */
  predicate AllCodePoints(cps: seq<int>)
    decreases |cps|
  {
    |cps| == 0 || (0 <= cps[0] <= MaxCodePoint && AllCodePoints(cps[1..]))
  }

  /** `String.fromCodePoint(...cps)`: a RangeError on the first code point
      beyond U+10FFFF. The engine's limit on the number of arguments `apply`
      can pass is not modelled. */
  function FromCodePoints(cps: seq<int>): (r: Outcome<seq<CodeUnit>>)
    ensures r.Success? <==> AllCodePoints(cps)
    ensures r.Success? ==> |cps| <= |r.value| <= 2 * |cps|
    ensures r.Failure? ==> r.error.InvalidCodePoint? && !(0 <= r.error.c <= MaxCodePoint)
    ensures r.Failure? && (forall i :: 0 <= i < |cps| ==> cps[i] >= 0) ==> r.error.c > MaxCodePoint
    decreases |cps|
  {
    if |cps| == 0 then Success([])
    else if cps[0] < 0 || cps[0] > MaxCodePoint then Failure(InvalidCodePoint(cps[0]))
    else
      var rest :- FromCodePoints(cps[1..]);
      Success(Utf16(cps[0]) + rest)
  }

  /** `fromUTF8(buf)`: one code point per lead byte, then
      `String.fromCodePoint`, which refuses a code point beyond U+10FFFF. */
  function FromUtf8(bs: seq<Byte>): (r: Outcome<seq<CodeUnit>>)
    ensures r.Success? <==> AllCodePoints(CodePoints(bs))
    ensures r.Success? ==> |r.value| <= 2 * |bs| && (|bs| > 0 ==> |r.value| > 0)
    ensures r.Failure? ==> r.error.InvalidCodePoint? && r.error.c > MaxCodePoint
  {
    FromCodePoints(CodePoints(bs))
  }

  // ---------------------------------------------------------------------------
  // Properties
  // ---------------------------------------------------------------------------

  /** Reading the bytes of one code point gives that code point back and
      leaves exactly the bytes that follow. */
  lemma DecodeEncodedCodePoint(c: int, rest: seq<Byte>)
    requires 0 <= c < 0x11_2000
    ensures CodePoints(EncodeCodePoint(c) + rest) == [c] + CodePoints(rest)
  {
    var e := EncodeCodePoint(c);
    var bs := e + rest;
    var n := |e| - 1;
    assert bs[0] == e[0];
    assert bs[1 + n..] == rest;
    assert bs[1..] == e[1..] + rest;
    AccumulateSuffix(LeadBits(e[0], n), e[1..], rest);
    AccumulateEncoded(c);
  }

  /** Continuation bytes beyond the announced count are not read. */
  lemma {:induction false} AccumulateSuffix(c: int, p: seq<Byte>, rest: seq<Byte>)
    ensures Accumulate(c, p + rest, |p|) == Accumulate(c, p, |p|)
    decreases |p|
  {
    if |p| > 0 {
      assert (p + rest)[0] == p[0];
      assert (p + rest)[1..] == p[1..] + rest;
      AccumulateSuffix(c * 0x40 + p[0] % 0x40, p[1..], rest);
    }
  }

  /** The lead byte's payload bits and the continuation bytes of one
      encoded code point add up to that code point. */
  lemma AccumulateEncoded(c: int)
    requires 0 <= c < 0x11_2000
    ensures var e := EncodeCodePoint(c); Accumulate(LeadBits(e[0], |e| - 1), e[1..], |e| - 1) == c
  {
    if c < 0x80 {
    } else if c < 0x800 {
      AccumulateTwo(c);
    } else if c < 0x1_0000 {
      AccumulateThree(c);
    } else {
      AccumulateFour(c);
    }
  }

  lemma AccumulateTwo(c: int)
    requires 0x80 <= c < 0x800
    ensures var e := EncodeCodePoint(c); Accumulate(LeadBits(e[0], 1), e[1..], 1) == c
  {
    var e := EncodeCodePoint(c);
    assert LeadBits(e[0], 1) == c / 0x40;
    AccumulateStep(c / 0x40, e[1], [], 0);
    assert e[1..] == [e[1]] + [];
  }

  lemma AccumulateThree(c: int)
    requires 0x800 <= c < 0x1_0000
    ensures var e := EncodeCodePoint(c); Accumulate(LeadBits(e[0], 2), e[1..], 2) == c
  {
    var e := EncodeCodePoint(c);
    assert e == [0xe0 + c / 0x1000, 0x80 + c / 0x40 % 0x40, 0x80 + c % 0x40];
    assert e[1..] == [e[1], e[2]];
    ThreeBytes(c, e[0], e[1], e[2]);
  }

  /** The three-byte form, with its bytes named. */
  lemma ThreeBytes(c: int, b0: Byte, b1: Byte, b2: Byte)
    requires 0x800 <= c < 0x1_0000
    requires b0 == 0xe0 + c / 0x1000 && b1 == 0x80 + c / 0x40 % 0x40 && b2 == 0x80 + c % 0x40
    ensures Accumulate(LeadBits(b0, 2), [b1, b2], 2) == c
  {
    var x := c / 0x1000;
    var y := x * 0x40 + b1 % 0x40;
    ContinuationBits(c / 0x40 % 0x40, b1);
    ContinuationBits(c % 0x40, b2);
    assert LeadBits(b0, 2) == x;
    AccumulateStep(x, b1, [b2], 1);
    AccumulateStep(y, b2, [], 0);
    assert [b1, b2] == [b1] + [b2];
    assert [b2] == [b2] + [];
    Peel(c, 0x40);
    Peel(c, 1);
  }

  lemma AccumulateFour(c: int)
    requires 0x1_0000 <= c < 0x11_2000
    ensures var e := EncodeCodePoint(c); Accumulate(LeadBits(e[0], 3), e[1..], 3) == c
  {
    var e := EncodeCodePoint(c);
    assert e == [0xf0 + c / 0x4_0000, 0x80 + c / 0x1000 % 0x40, 0x80 + c / 0x40 % 0x40, 0x80 + c % 0x40];
    assert e[1..] == [e[1], e[2], e[3]];
    FourBytes(c, e[0], e[1], e[2], e[3]);
  }

  /** The four-byte form, with its bytes named. */
  lemma FourBytes(c: int, b0: Byte, b1: Byte, b2: Byte, b3: Byte)
    requires 0x1_0000 <= c < 0x11_2000
    requires b0 == 0xf0 + c / 0x4_0000 && b1 == 0x80 + c / 0x1000 % 0x40
    requires b2 == 0x80 + c / 0x40 % 0x40 && b3 == 0x80 + c % 0x40
    ensures Accumulate(LeadBits(b0, 3), [b1, b2, b3], 3) == c
  {
    var x := c / 0x4_0000;
    ContinuationBits(c / 0x1000 % 0x40, b1);
    ContinuationBits(c / 0x40 % 0x40, b2);
    ContinuationBits(c % 0x40, b3);
    assert LeadBits(b0, 3) == x;
    AccumulateThreeBytes(x, b1, b2, b3);
    SixBitDigits(c);
  }

  /** A continuation byte `0x80 + d` carries the six bits `d`. */
  lemma ContinuationBits(d: int, b: Byte)
    requires 0 <= d < 0x40 && b == 0x80 + d
    ensures b % 0x40 == d
  {
    DivModUnique(b, 0x40, 2, d);
  }

  /** Three accumulation steps over three continuation bytes. */
  lemma AccumulateThreeBytes(x: int, b1: Byte, b2: Byte, b3: Byte)
    ensures Accumulate(x, [b1, b2, b3], 3) == ((x * 0x40 + b1 % 0x40) * 0x40 + b2 % 0x40) * 0x40 + b3 % 0x40
  {
    var y := x * 0x40 + b1 % 0x40;
    var z := y * 0x40 + b2 % 0x40;
    AccumulateStep(x, b1, [b2, b3], 2);
    AccumulateStep(y, b2, [b3], 1);
    AccumulateStep(z, b3, [], 0);
    assert [b1, b2, b3] == [b1] + [b2, b3];
    assert [b2, b3] == [b2] + [b3];
    assert [b3] == [b3] + [];
  }

  /** A number below 2^24 written as four six-bit digits. */
  lemma SixBitDigits(c: int)
    requires 0 <= c
    ensures ((c / 0x4_0000 * 0x40 + c / 0x1000 % 0x40) * 0x40 + c / 0x40 % 0x40) * 0x40 + c % 0x40 == c
  {
    Peel(c, 0x1000);
    Peel(c, 0x40);
    Peel(c, 1);
  }

  /** Six more bits of a number: `c / d` is `c / (64 * d)` shifted left by
      six, plus the next six bits. */
  lemma Peel(c: int, d: int)
    requires 0 <= c && 0 < d
    ensures c / (d * 0x40) * 0x40 + c / d % 0x40 == c / d
  {
    var q := c / d;
    var hi, lo := q / 0x40, q % 0x40;
    assert c == d * q + c % d;
    assert d * q == d * 0x40 * hi + d * lo by {
      assert q == 0x40 * hi + lo;
      MulSplit(d, 0x40 * hi, lo);
    }
    assert d * lo <= d * 0x3f by {
      MulSplit(d, lo, 0x3f - lo);
    }
    DivModUnique(c, d * 0x40, hi, d * lo + c % d);
  }

  lemma MulSplit(d: int, a: int, b: int)
    ensures d * (a + b) == d * a + d * b
  {
  }

  /** One accumulation step consumes the next byte's low six bits. */
  lemma AccumulateStep(c: int, b: Byte, tail: seq<Byte>, k: nat)
    ensures Accumulate(c, [b] + tail, k + 1) == Accumulate(c * 0x40 + b % 0x40, tail, k)
  {
    assert ([b] + tail)[1..] == tail;
  }

  /** Continuation bytes with no payload bits add nothing to an empty code point. */
  lemma {:induction false} AccumulateEmpty(tail: seq<Byte>, k: nat)
    requires forall i :: 0 <= i < |tail| ==> tail[i] % 0x40 == 0
    ensures Accumulate(0, tail, k) == 0
    decreases k
  {
    if k > 0 {
      if |tail| == 0 {
        AccumulateEmpty([], k - 1);
      } else {
        AccumulateEmpty(tail[1..], k - 1);
      }
    }
  }

  /** Building the string from one valid code point and then the rest. */
  lemma FromCodePointsCons(c: int, cps: seq<int>)
    requires 0 <= c <= MaxCodePoint
    ensures FromCodePoints([c] + cps).Success? <==> FromCodePoints(cps).Success?
    ensures FromCodePoints(cps).Success? ==>
      FromCodePoints([c] + cps).value == Utf16(c) + FromCodePoints(cps).value
  {
    assert ([c] + cps)[1..] == cps;
  }

  /** The first character of a well-formed string: its code point `c`
      spans `k` code units, and the rest of the string is well-formed. */
  lemma SplitFirst(s: seq<CodeUnit>) returns (c: int, k: nat)
    requires |s| > 0 && WellFormed(s)
    ensures 1 <= k <= 2 && k <= |s| && 0 <= c <= MaxCodePoint
    ensures ToUtf8(s) == EncodeCodePoint(c) + ToUtf8(s[k..])
    ensures Utf16(c) == s[..k]
    ensures WellFormed(s[k..])
  {
    k := if IsHighSurrogate(s[0]) then 2 else 1;
    c := if k == 2 then Combine(s[0], s[1]) else s[0];
    forall i | 0 <= i < |s[k..]| && IsHighSurrogate(s[k..][i])
      ensures i + 1 < |s[k..]| && IsLowSurrogate(s[k..][i + 1])
    {
      assert s[k..][i] == s[k + i];
    }
  }

  /** `fromUTF8` inverts `toUTF8` on every well-formed string. */
  lemma Utf8RoundTrip(s: seq<CodeUnit>)
    requires WellFormed(s)
    ensures FromUtf8(ToUtf8(s)) == Success(s)
  {
    assert FromUtf8([]) == Success([]);
    Utf8RoundTripThen(s, []);
    assert ToUtf8(s) + [] == ToUtf8(s) && s + [] == s;
  }

  /** The bytes of a well-formed string, followed by any decodable bytes,
      decode to the string followed by what those bytes decode to. */
  lemma {:induction false} Utf8RoundTripThen(s: seq<CodeUnit>, tail: seq<Byte>)
    requires WellFormed(s) && FromUtf8(tail).Success?
    ensures FromUtf8(ToUtf8(s) + tail) == Success(s + FromUtf8(tail).value)
    decreases |s|
  {
    if |s| == 0 {
      assert ToUtf8(s) + tail == tail;
      assert s + FromUtf8(tail).value == FromUtf8(tail).value;
    } else {
      var c, k := SplitFirst(s);
      Utf8RoundTripThen(s[k..], tail);
      FirstCodePointThen(s, c, k, ToUtf8(s), ToUtf8(s[k..]), tail, FromUtf8(tail).value);
    }
  }

  /** One round-trip step: the bytes of the first code point `c`, then
      bytes that decode to the rest of the string, decode to the whole. */
  lemma FirstCodePointThen(s: seq<CodeUnit>, c: int, k: nat, whole: seq<Byte>, rest: seq<Byte>, tail: seq<Byte>, t: seq<CodeUnit>)
    requires 1 <= k <= |s| && 0 <= c <= MaxCodePoint
    requires Utf16(c) == s[..k]
    requires whole == EncodeCodePoint(c) + rest
    requires FromUtf8(rest + tail) == Success(s[k..] + t)
    ensures FromUtf8(whole + tail) == Success(s + t)
  {
    var r := rest + tail;
    AppendAssociative(EncodeCodePoint(c), rest, tail);
    DecodeEncodedCodePoint(c, r);
    FromCodePointsCons(c, CodePoints(r));
    AppendAssociative(s[..k], s[k..], t);
    SplitAt(s, k);
  }

  /** A high surrogate at the very end of a string is written as
      f0 80 80 80, which reads back as U+0000: the lone surrogate is lost. */
  lemma LoneHighSurrogateAtEnd(s: seq<CodeUnit>, hi: CodeUnit)
    requires IsHighSurrogate(hi) && WellFormed(s)
    ensures ToUtf8(s + [hi]) == ToUtf8(s) + [0xf0, 0x80, 0x80, 0x80]
    ensures FromUtf8(ToUtf8(s + [hi])) == Success(s + [0])
  {
    LoneHighSurrogateAppend(s, hi);
    var tail: seq<Byte> := [0xf0, 0x80, 0x80, 0x80];
    EmptyFourByteForm();
    Utf8RoundTripThen(s, tail);
  }

  /** A four-byte lead with empty payload bits reads as U+0000. */
  lemma EmptyFourByteForm()
    ensures FromUtf8([0xf0, 0x80, 0x80, 0x80]) == Success([0])
  {
    var tail: seq<Byte> := [0xf0, 0x80, 0x80, 0x80];
    assert LeadLength(0xf0) == 3 && LeadBits(0xf0, 3) == 0;
    var t1: seq<Byte> := [0x80, 0x80, 0x80];
    AccumulateEmpty(t1, 3);
    assert tail[1..] == t1 && tail[4..] == [];
    assert CodePoints(tail) == [0];
    assert FromCodePoints([0]) == Success([0]);
  }

  lemma {:induction false} LoneHighSurrogateAppend(s: seq<CodeUnit>, hi: CodeUnit)
    requires IsHighSurrogate(hi) && WellFormed(s)
    ensures ToUtf8(s + [hi]) == ToUtf8(s) + [0xf0, 0x80, 0x80, 0x80]
    decreases |s|
  {
    if |s| == 0 {
      assert s + [hi] == [hi];
    } else {
      var e, k := SplitFirstAppend(s, hi);
      LoneHighSurrogateAppend(s[k..], hi);
      var r := ToUtf8(s[k..]);
      assert e + (r + [0xf0, 0x80, 0x80, 0x80]) == (e + r) + [0xf0, 0x80, 0x80, 0x80];
    }
  }

  /** A well-formed non-empty string keeps its first character when a
      code unit is appended. */
  lemma SplitFirstAppend(s: seq<CodeUnit>, u: CodeUnit) returns (e: seq<Byte>, k: nat)
    requires |s| > 0 && WellFormed(s)
    ensures 1 <= k <= |s| && WellFormed(s[k..])
    ensures ToUtf8(s) == e + ToUtf8(s[k..])
    ensures ToUtf8(s + [u]) == e + ToUtf8(s[k..] + [u])
  {
    var c;
    c, k := SplitFirst(s);
    e := EncodeCodePoint(c);
    DropAppend(s, [u], k);
  }

  /** The test vector for U+10348, the surrogate pair d800 df48. */
  lemma SurrogatePairExample()
    ensures ToUtf8([0xd800, 0xdf48]) == [0xf0, 0x90, 0x8d, 0x88]
    ensures FromUtf8([0xf0, 0x90, 0x8d, 0x88]) == Success([0xd800, 0xdf48])
  {
    Utf8RoundTrip([0xd800, 0xdf48]);
  }

  /** The test vectors for "ä" (two bytes) and "∞" (three bytes). */
  lemma MultiByteExamples()
    ensures ToUtf8([0xe4]) == [0xc3, 0xa4]
    ensures ToUtf8([0x221e]) == [0xe2, 0x88, 0x9e]
  {
  }
}

=== FILE: values.dfy ===
/** The JavaScript values the codecs handle, as a closed datatype, and the
    type descriptors (`Type<T>` objects such as `Int`, `Str` or `TypedArr(Int)`)
    that choose a codec. */
module Values {
  import opened Words
  import opened Utf8
  import opened Timestamps

  /** A JavaScript value as the codecs see it. By convention numbers are
      split the way `Any.enc` splits them: integral numbers are `Int`, every
      other number is a `Float` carried as its IEEE 754 payload bytes. The
      model does not enforce the split, since a payload is opaque: a `Float`
      whose payload is integral is still written as a float. Strings are
      UTF-16 code units; objects are the properties `for…in` enumerates, in
      order, with no holes in arrays. */
  datatype Value =
    | Undefined
    | Null
    | Bool(b: bool)
    | Int(i: int)
    | Float(bits: seq<Byte>)
    | Str(s: seq<CodeUnit>)
    | Bytes(bytes: seq<Byte>)
    | Time(ms: int)
    | Array(items: seq<Value>)
    | Map(entries: seq<Entry>)

  /** One property of an object. */
  datatype Entry = Entry(key: seq<CodeUnit>, val: Value)

  /** The codec descriptors: `Any`, the scalar codecs, and the generic
      `TypedArr(valueT)` and `TypedMap(keyT, valueT)`. */
  datatype Type =
    | AnyT
    | NilT
    | BoolT
    | IntT
    | UintT
    | FloatT
    | BytesT
    | StrT
    | TimeT
    | ArrT(elem: Type)
    | MapT(key: Type, val: Type)

  /** Termination measure: number of constructors in a value. */
  function Size(v: Value): (n: nat)
    ensures n >= 1
  {
    match v
    case Array(items) => 1 + SizeItems(items)
    case Map(entries) => 1 + SizeEntries(entries)
    case _ => 1
  }

  function SizeItems(items: seq<Value>): (n: nat) {
    if |items| == 0 then 0 else Size(items[0]) + SizeItems(items[1..])
  }

  function SizeEntries(entries: seq<Entry>): (n: nat) {
    if |entries| == 0 then 0 else 1 + Size(entries[0].val) + SizeEntries(entries[1..])
  }

  /** `Any` delegates to another codec, so it ranks above all of them. */
  function TypeRank(t: Type): nat {
    if t.AnyT? then 1 else 0
  }

  /** The codec `Any.enc` picks for a value: `undefined` and `null` go to
      Nil, non-negative integers to Uint, negative ones to Int, arrays to
      `Arr` (= `TypedArr(Any)`) and other objects to `Map` (= `TypedMap(Any, Any)`). */
  function AnyEncType(v: Value): (t: Type)
    ensures !t.AnyT?
    ensures t.NilT? <==> v.Undefined? || v.Null?
    ensures v.Int? ==> (t.UintT? <==> v.i >= 0) && (t.IntT? <==> v.i < 0)
    ensures t.ArrT? <==> v.Array?
    ensures t.MapT? <==> v.Map?
    ensures t.ArrT? ==> t.elem.AnyT?
    ensures t.MapT? ==> t.key.AnyT? && t.val.AnyT?
  {
    match v
    case Undefined => NilT
    case Null => NilT
    case Bool(_) => BoolT
    case Int(i) => if i < 0 then IntT else UintT
    case Float(_) => FloatT
    case Str(_) => StrT
    case Bytes(_) => BytesT
    case Time(_) => TimeT
    case Array(_) => ArrT(AnyT)
    case Map(_) => MapT(AnyT, AnyT)
  }

  /** The key codecs of `TypedMap(keyT, valueT)` that the model covers:
      `Str`, `Any`, and the integer codecs `Int` and `Uint`. */
  predicate IsKeyType(k: Type) {
    k.StrT? || k.AnyT? || k.IntT? || k.UintT?
  }

  /** The values a codec's static type admits. `Nil.enc` ignores its
      argument, so it admits everything; a number is an 8-byte binary64
      payload; a map's keys are property names, handed to a key codec that
      takes strings or numbers. */
  predicate Fits(t: Type, v: Value)
    decreases Size(v), TypeRank(t)
  {
    match t
    case AnyT => Fits(AnyEncType(v), v)
    case NilT => true
    case BoolT => v.Bool?
    case IntT => v.Int?
    case UintT => v.Int?
    case FloatT => v.Float? && |v.bits| == 8
    case BytesT => v.Bytes?
    case StrT => v.Str?
    case TimeT => v.Time?
    case ArrT(e) => v.Array? && FitsItems(e, v.items)
    case MapT(k, e) => v.Map? && IsKeyType(k) && FitsEntries(e, v.entries)
  }

  predicate FitsItems(t: Type, items: seq<Value>)
    decreases SizeItems(items), 2
  {
    |items| > 0 ==> Fits(t, items[0]) && FitsItems(t, items[1..])
  }

  predicate FitsEntries(t: Type, entries: seq<Entry>)
    decreases SizeEntries(entries), 2
  {
    |entries| > 0 ==> Fits(t, entries[0].val) && FitsEntries(t, entries[1..])
  }

  /** The values a running program can hold: integers within the 64-bit
      range the integer codecs cover, well-formed strings, valid dates
      (within 8.64e15 ms of the epoch) and objects with distinct property
      names. */
  predicate Wf(v: Value)
    decreases Size(v), 0
  {
    match v
    case Int(i) => -TwoTo63 <= i < TwoTo63
    case Str(s) => WellFormed(s)
    case Time(ms) => -MaxTime <= ms <= MaxTime
    case Array(items) => WfItems(items)
    case Map(entries) => DistinctKeys(entries) && WfEntries(entries)
    case _ => true
  }

  predicate WfItems(items: seq<Value>)
    decreases SizeItems(items), 1
  {
    |items| > 0 ==> Wf(items[0]) && WfItems(items[1..])
  }

  predicate WfEntries(entries: seq<Entry>)
    decreases SizeEntries(entries), 1
  {
    |entries| > 0 ==> WellFormed(entries[0].key) && Wf(entries[0].val) && WfEntries(entries[1..])
  }

  predicate DistinctKeys(entries: seq<Entry>) {
    forall i, j :: 0 <= i < j < |entries| ==> entries[i].key != entries[j].key
  }

  predicate HasKey(entries: seq<Entry>, key: seq<CodeUnit>) {
    exists i :: 0 <= i < |entries| && entries[i].key == key
  }

  /** `res[k] = v` on an object under construction: an existing property
      takes the new value in its place, a new one goes last. */
  function Assign(entries: seq<Entry>, key: seq<CodeUnit>, val: Value): (r: seq<Entry>)
    ensures HasKey(entries, key) ==> |r| == |entries|
    ensures !HasKey(entries, key) ==> r == entries + [Entry(key, val)]
  {
    if |entries| == 0 then [Entry(key, val)]
    else if entries[0].key == key then [Entry(key, val)] + entries[1..]
    else
      assert HasKey(entries, key) <==> HasKey(entries[1..], key) by {
        if HasKey(entries, key) {
          var i :| 0 <= i < |entries| && entries[i].key == key;
          assert entries[1..][i - 1] == entries[i];
        }
        if HasKey(entries[1..], key) {
          var i :| 0 <= i < |entries[1..]| && entries[1..][i].key == key;
          assert entries[i + 1] == entries[1..][i];
        }
      }
      assert [entries[0]] + (entries[1..] + [Entry(key, val)]) == entries + [Entry(key, val)];
      [entries[0]] + Assign(entries[1..], key, val)
  }

  /** Assigning to an existing property replaces the first entry with that
      name and leaves every other entry where it was. */
  lemma {:induction false} AssignExisting(entries: seq<Entry>, key: seq<CodeUnit>, val: Value, i: nat)
    requires i < |entries| && entries[i].key == key
    requires forall j :: 0 <= j < i ==> entries[j].key != key
    ensures Assign(entries, key, val) == entries[..i] + [Entry(key, val)] + entries[i + 1..]
  {
    if i > 0 {
      var tail := entries[1..];
      forall j | 0 <= j < i - 1
        ensures tail[j].key != key
      {
        assert tail[j] == entries[j + 1];
      }
      AssignExisting(tail, key, val, i - 1);
      assert entries[..i] == [entries[0]] + tail[..i - 1];
      assert entries[i + 1..] == tail[i..];
    }
  }

  /** What a value reads back as after the codec `t` wrote it: Nil forgets
      the value and leaves `null`, `undefined` comes back as `null`, and
      everything else comes back as it was written. */
  function Normalize(t: Type, v: Value): Value
    decreases Size(v), TypeRank(t)
  {
    match t
    case AnyT => Normalize(AnyEncType(v), v)
    case NilT => Null
    case ArrT(e) => if v.Array? then Array(NormalizeItems(e, v.items)) else v
    case MapT(_, e) => if v.Map? then Map(NormalizeEntries(e, v.entries)) else v
    case _ => v
  }

  function NormalizeItems(t: Type, items: seq<Value>): (r: seq<Value>)
    ensures |r| == |items|
    decreases SizeItems(items), 2
  {
    if |items| == 0 then [] else [Normalize(t, items[0])] + NormalizeItems(t, items[1..])
  }

  function NormalizeEntries(t: Type, entries: seq<Entry>): (r: seq<Entry>)
    ensures |r| == |entries|
    ensures forall i :: 0 <= i < |r| ==> r[i].key == entries[i].key
    decreases SizeEntries(entries), 2
  {
    if |entries| == 0 then []
    else [Entry(entries[0].key, Normalize(t, entries[0].val))] + NormalizeEntries(t, entries[1..])
  }

  /** Assigning to an existing property keeps every property name where it was. */
  lemma {:induction false} AssignSameKeys(entries: seq<Entry>, key: seq<CodeUnit>, val: Value)
    requires HasKey(entries, key)
    ensures |Assign(entries, key, val)| == |entries|
    ensures forall j :: 0 <= j < |entries| ==> Assign(entries, key, val)[j].key == entries[j].key
  {
    var r := Assign(entries, key, val);
    if entries[0].key == key {
      forall j | 0 <= j < |entries|
        ensures r[j].key == entries[j].key
      {
        if j > 0 {
          assert r[j] == entries[1..][j - 1];
        }
      }
    } else {
      var tail := entries[1..];
      assert HasKey(tail, key) by {
        var i :| 0 <= i < |entries| && entries[i].key == key;
        assert tail[i - 1] == entries[i];
      }
      AssignSameKeys(tail, key, val);
      forall j | 0 <= j < |entries|
        ensures r[j].key == entries[j].key
      {
        if j > 0 {
          assert r[j] == Assign(tail, key, val)[j - 1];
          assert entries[j] == tail[j - 1];
        }
      }
    }
  }

  /** `res[k] = v` never gives an object two properties with the same name,
      and the object has the property afterwards. */
  lemma AssignDistinct(entries: seq<Entry>, key: seq<CodeUnit>, val: Value)
    ensures DistinctKeys(entries) ==> DistinctKeys(Assign(entries, key, val))
    ensures HasKey(Assign(entries, key, val), key)
  {
    var r := Assign(entries, key, val);
    if HasKey(entries, key) {
      AssignSameKeys(entries, key, val);
      var i :| 0 <= i < |entries| && entries[i].key == key;
      assert r[i].key == key;
    } else {
      if DistinctKeys(entries) {
        forall i, j | 0 <= i < j < |r|
          ensures r[i].key != r[j].key
        {
          if j == |entries| {
            assert r[i] == entries[i];
          } else {
            assert r[i] == entries[i] && r[j] == entries[j];
          }
        }
      }
      assert r[|entries|].key == key;
    }
  }

  /** No `undefined` anywhere in the value. */
  predicate Defined(v: Value)
    decreases Size(v), 0
  {
    match v
    case Undefined => false
    case Array(items) => DefinedItems(items)
    case Map(entries) => DefinedEntries(entries)
    case _ => true
  }

  predicate DefinedItems(items: seq<Value>)
    decreases SizeItems(items), 1
  {
    |items| > 0 ==> Defined(items[0]) && DefinedItems(items[1..])
  }

  predicate DefinedEntries(entries: seq<Entry>)
    decreases SizeEntries(entries), 1
  {
    |entries| > 0 ==> Defined(entries[0].val) && DefinedEntries(entries[1..])
  }

  /** `Any` loses nothing but `undefined`: it reads back exactly the values
      with no `undefined` in them. */
  lemma {:induction false} AnyExact(v: Value)
    ensures Normalize(AnyT, v) == v <==> Defined(v)
    decreases Size(v), 1
  {
    match v
    case Array(items) => AnyExactItems(items);
    case Map(entries) => AnyExactEntries(entries);
    case _ =>
  }

  lemma {:induction false} AnyExactItems(items: seq<Value>)
    ensures NormalizeItems(AnyT, items) == items <==> DefinedItems(items)
    decreases SizeItems(items), 2
  {
    if |items| > 0 {
      AnyExact(items[0]);
      AnyExactItems(items[1..]);
      var n := NormalizeItems(AnyT, items);
      assert n == [Normalize(AnyT, items[0])] + NormalizeItems(AnyT, items[1..]);
      if n == items {
        assert n[0] == items[0] && n[1..] == items[1..];
      }
      if DefinedItems(items) {
        assert items == [items[0]] + items[1..];
      }
    }
  }

  lemma {:induction false} AnyExactEntries(entries: seq<Entry>)
    ensures NormalizeEntries(AnyT, entries) == entries <==> DefinedEntries(entries)
    decreases SizeEntries(entries), 2
  {
    if |entries| > 0 {
      AnyExact(entries[0].val);
      AnyExactEntries(entries[1..]);
      var n := NormalizeEntries(AnyT, entries);
      var e := Entry(entries[0].key, Normalize(AnyT, entries[0].val));
      assert n == [e] + NormalizeEntries(AnyT, entries[1..]);
      if n == entries {
        assert n[0] == entries[0] && n[1..] == entries[1..];
      }
      if DefinedEntries(entries) {
        assert entries == [entries[0]] + entries[1..];
      }
    }
  }
}

=== FILE: words.dfy ===
/** Byte-level arithmetic: big-endian words, two's-complement
    interpretation, and the ECMAScript integer conversions (`|0`, `~`,
    truncating `/` and `%`) that the buffer code relies on. */
module Words {

  type Byte = b: int | 0 <= b < 0x100

  const TwoTo15: int := 0x8000
  const TwoTo16: int := 0x1_0000
  const TwoTo31: int := 0x8000_0000
  const TwoTo32: int := 0x1_0000_0000
  const TwoTo63: int := 0x8000_0000_0000_0000
  const TwoTo64: int := 0x1_0000_0000_0000_0000

  /** Number.MAX_SAFE_INTEGER: the largest integer a JS number holds exactly. */
  const MaxSafeInteger: nat := 0x1f_ffff_ffff_ffff

  /** 256^k, the number of distinct k-byte words. */
  function Pow256(k: nat): (p: nat)
    ensures p >= 1
  {
    if k == 0 then 1 else 0x100 * Pow256(k - 1)
  }

  /** The unsigned value of a big-endian byte sequence. */
  function FromBigEndian(bs: seq<Byte>): (v: nat)
    ensures v < Pow256(|bs|)
  {
    if |bs| == 0 then 0 else FromBigEndian(bs[..|bs| - 1]) * 0x100 + bs[|bs| - 1]
  }

  /** The `width` bytes a DataView `setUintN`/`setIntN` stores for `v`:
      big-endian, most significant byte first, `v` reduced modulo 256^width. */
  function BigEndian(v: int, width: nat): (r: seq<Byte>)
    ensures |r| == width
    decreases width
  {
    if width == 0 then [] else BigEndian(v / 0x100, width - 1) + [v % 0x100]
  }

  /** The word `BigEndian(v, w)` reads back as `v` modulo 256^w. */
  lemma {:induction false} BigEndianValue(v: int, width: nat)
    ensures FromBigEndian(BigEndian(v, width)) == v % Pow256(width)
    decreases width
  {
    if width > 0 {
      var r := BigEndian(v, width);
      assert r[..width - 1] == BigEndian(v / 0x100, width - 1);
      BigEndianValue(v / 0x100, width - 1);
      ModSplit(v, 0x100, Pow256(width - 1));
    }
  }

  /** The two's-complement value of a `width`-byte unsigned word. */
  function Signed(u: nat, width: nat): (s: int)
    requires 1 <= width && u < Pow256(width)
    ensures -(Pow256(width) as int) / 2 <= s < Pow256(width) / 2
    ensures s % Pow256(width) == u
  {
    if u >= Pow256(width) / 2 then
      DivModUnique(u - Pow256(width), Pow256(width), -1, u);
      u - Pow256(width)
    else
      DivModUnique(u, Pow256(width), 0, u);
      u
  }

  /** ECMAScript ToInt32 on an integer (what `x|0` does): wrap into [-2^31, 2^31). */
  function ToInt32(x: int): (r: int)
    ensures -TwoTo31 <= r < TwoTo31
    ensures r % TwoTo32 == x % TwoTo32
  {
    var m := x % TwoTo32;
    if m >= TwoTo31 then m - TwoTo32 else m
  }

  /** JS `~x`: bitwise complement of ToInt32(x). */
  function BitNot(x: int): (r: int)
    ensures -TwoTo31 <= r < TwoTo31
    ensures (r + x + 1) % TwoTo32 == 0
  {
    -ToInt32(x) - 1
  }

  /** JS `a / b` for a positive divisor, truncated toward zero (by `|0` or `Math.trunc`). */
  function TruncDiv(a: int, b: int): (q: int)
    requires b > 0
    ensures a >= 0 ==> q == a / b
    ensures a < 0 ==> q == -((-a) / b)
  {
    if a >= 0 then a / b else -((-a) / b)
  }

  /** JS `a % b` for a positive divisor: the remainder takes the sign of `a`. */
  function TruncRem(a: int, b: int): (r: int)
    requires b > 0
    ensures a == b * TruncDiv(a, b) + r
    ensures -b < r < b
    ensures a >= 0 ==> r >= 0
    ensures a <= 0 ==> r <= 0
  {
    if a >= 0 then a % b else -((-a) % b)
  }

  // ---------------------------------------------------------------------------
  // Arithmetic facts
  // ---------------------------------------------------------------------------

  /** Euclidean division is characterised by its quotient/remainder equation. */
  lemma DivModUnique(v: int, m: int, k: int, x: int)
    requires 0 < m && v == m * k + x && 0 <= x < m
    ensures v / m == k && v % m == x
  {
    var q, r := v / m, v % m;
    assert v == m * q + r;
    assert m * (q - k) == x - r;
    if q > k {
      MulAtLeast(m, q - k);
    } else if q < k {
      MulAtLeast(m, k - q);
    }
  }

  lemma MulAtLeast(m: int, d: int)
    requires m > 0 && d >= 1
    ensures m * d >= m
  {
    assert m * d == m * (d - 1) + m;
    assert m * (d - 1) >= 0;
  }

  lemma MulDistrib(a: int, p: int, b: int)
    ensures (a * p + b) * 0x100 == a * (0x100 * p) + b * 0x100
  {
  }

  /** Splitting the low digit off in base `d`: v mod dp from (v div d) mod p
      and v mod d, and v div dp as (v div d) div p. */
  lemma ModSplit(v: int, d: nat, p: nat)
    requires d >= 1 && p >= 1
    ensures v % (d * p) == (v / d % p) * d + v % d
    ensures v / (d * p) == v / d / p
  {
    var q, r := v / d, v % d;
    var a, b := q / p, q % p;
    assert q == p * a + b;
    assert v == (d * p) * a + (b * d + r) by {
      assert v == d * q + r;
      assert d * q == d * (p * a) + d * b;
      assert d * (p * a) == (d * p) * a;
    }
    assert b * d + r < d * p by {
      assert b <= p - 1;
      assert b * d <= (p - 1) * d;
    }
    DivModUnique(v, d * p, a, b * d + r);
  }

  /** A big-endian word splits into its high and low parts. */
  lemma {:induction false} FromBigEndianAppend(hi: seq<Byte>, lo: seq<Byte>)
    ensures FromBigEndian(hi + lo) == FromBigEndian(hi) * Pow256(|lo|) + FromBigEndian(lo)
  {
    if |lo| == 0 {
      assert hi + lo == hi;
    } else {
      var s := hi + lo;
      var init, c := lo[..|lo| - 1], lo[|lo| - 1];
      assert s[..|s| - 1] == hi + init;
      FromBigEndianAppend(hi, init);
      var a, p, b := FromBigEndian(hi), Pow256(|lo| - 1), FromBigEndian(init);
      assert FromBigEndian(s) == (a * p + b) * 0x100 + c;
      assert FromBigEndian(lo) == b * 0x100 + c;
      assert Pow256(|lo|) == 0x100 * p;
      MulDistrib(a, p, b);
    }
  }

  /** Reading a big-endian word back and re-encoding it gives the same bytes. */
  lemma {:induction false} BigEndianOfFromBigEndian(bs: seq<Byte>)
    ensures BigEndian(FromBigEndian(bs), |bs|) == bs
  {
    if |bs| > 0 {
      var init, last := bs[..|bs| - 1], bs[|bs| - 1];
      var v := FromBigEndian(bs);
      assert v == FromBigEndian(init) * 0x100 + last;
      DivModUnique(v, 0x100, FromBigEndian(init), last);
      BigEndianOfFromBigEndian(init);
      assert bs == init + [last];
    }
  }

  /** The bytes of a width-`w` word are determined by its value modulo 256^w. */
  lemma BigEndianUnique(v: int, bs: seq<Byte>)
    requires FromBigEndian(bs) == v % Pow256(|bs|)
    ensures BigEndian(v, |bs|) == bs
  {
    var w := |bs|;
    var r := BigEndian(v, w);
    BigEndianValue(v, w);
    BigEndianOfFromBigEndian(r);
    BigEndianOfFromBigEndian(bs);
  }

  /** The value of four bytes written out digit by digit. */
  function Digits4(a: seq<Byte>): int
    requires |a| == 4
  {
    ((a[0] as int * 0x100 + a[1] as int) * 0x100 + a[2] as int) * 0x100 + a[3] as int
  }

  /** The four bytes of a 32-bit word, given its value modulo 2^32 digit by digit. */
  lemma Word4(v: int, a: seq<Byte>)
    requires |a| == 4
    requires v % TwoTo32 == Digits4(a)
    ensures BigEndian(v, 4) == a
  {
    var a1, a2, a3 := a[..1], a[..2], a[..3];
    assert a1[..0] == [] && a2[..1] == a1 && a3[..2] == a2 && a[..3] == a3;
    assert FromBigEndian(a1) == a[0];
    assert FromBigEndian(a2) == a[0] as int * 0x100 + a[1] as int;
    assert FromBigEndian(a3) == (a[0] as int * 0x100 + a[1] as int) * 0x100 + a[2] as int;
    assert FromBigEndian(a) == Digits4(a);
    assert Pow256(4) == TwoTo32;
    BigEndianUnique(v, a);
  }

  /** The eight bytes of a 64-bit word from its two halves' bytes. */
  lemma Word8(v: int, hi: int, lo: int, a: seq<Byte>, b: seq<Byte>)
    requires v == hi * TwoTo32 + lo && 0 <= lo < TwoTo32
    requires |a| == 4 && hi % TwoTo32 == Digits4(a)
    requires |b| == 4 && lo == Digits4(b)
    ensures BigEndian(v, 8) == a + b
  {
    DivModUnique(v, TwoTo32, hi, lo);
    DivModUnique(lo, TwoTo32, 0, lo);
    BigEndianSplit8(v);
    Word4(hi, a);
    Word4(lo, b);
  }

  /** A value that fits in `w` bytes reads back unchanged from its encoding. */
  lemma BigEndianBelow(n: nat, w: nat)
    requires n < Pow256(w)
    ensures FromBigEndian(BigEndian(n, w)) == n
  {
    BigEndianValue(n, w);
    DivModUnique(n, Pow256(w), 0, n);
  }

  /** Two integers with the same residue modulo 256^w have the same w-byte encoding. */
  lemma BigEndianCongruent(a: int, b: int, w: nat)
    requires a % Pow256(w) == b % Pow256(w)
    ensures BigEndian(a, w) == BigEndian(b, w)
  {
    BigEndianValue(a, w);
    BigEndianUnique(b, BigEndian(a, w));
  }

  /** Two integers in one window of width m with equal residues are equal. */
  lemma ResidueInjective(a: int, b: int, m: int, lo: int)
    requires m > 0 && lo <= a < lo + m && lo <= b < lo + m && a % m == b % m
    ensures a == b
  {
    var qa, qb := a / m, b / m;
    assert a == m * qa + a % m && b == m * qb + b % m;
    assert m * (qa - qb) == a - b;
    if qa > qb {
      MulAtLeast(m, qa - qb);
    } else if qa < qb {
      MulAtLeast(m, qb - qa);
    }
  }

  lemma {:induction false} Pow256Add(a: nat, b: nat)
    ensures Pow256(a + b) == Pow256(a) * Pow256(b)
  {
    if a > 0 {
      Pow256Add(a - 1, b);
      assert Pow256(a + b) == 0x100 * Pow256(a - 1 + b);
    }
  }

  /** An (a+b)-byte word is its high a bytes followed by its low b bytes. */
  lemma BigEndianSplit(v: int, a: nat, b: nat)
    ensures BigEndian(v, a + b) == BigEndian(v / Pow256(b), a) + BigEndian(v % Pow256(b), b)
  {
    var p, q := Pow256(b), Pow256(a);
    var hi, lo := BigEndian(v / p, a), BigEndian(v % p, b);
    FromBigEndianAppend(hi, lo);
    BigEndianValue(v / p, a);
    BigEndianValue(v % p, b);
    DivModUnique(v % p, p, 0, v % p);
    ModSplit(v, p, q);
    Pow256Add(a, b);
    assert p * q == q * p;
    BigEndianUnique(v, hi + lo);
  }

  /** An eight-byte word is its high four bytes followed by its low four bytes. */
  lemma BigEndianSplit8(v: int)
    ensures BigEndian(v, 8) == BigEndian(v / TwoTo32, 4) + BigEndian(v % TwoTo32, 4)
  {
    assert Pow256(4) == TwoTo32;
    BigEndianSplit(v, 4, 4);
  }

  // ---------------------------------------------------------------------------
  // Bitwise operators
  // ---------------------------------------------------------------------------

  /** 2^k. */
  function Pow2(k: nat): (p: nat)
    ensures p >= 1
  {
    if k == 0 then 1 else 2 * Pow2(k - 1)
  }

  /** Bitwise AND of two non-negative integers, bit by bit from the lowest. */
  function BitAnd(a: nat, b: nat): nat
    decreases a
  {
    if a == 0 || b == 0 then 0
    else 2 * BitAnd(a / 2, b / 2) + (if a % 2 == 1 && b % 2 == 1 then 1 else 0)
  }

  /** Bitwise OR of two non-negative integers. */
  function BitOr(a: nat, b: nat): nat
    decreases a + b
  {
    if a == 0 then b
    else if b == 0 then a
    else 2 * BitOr(a / 2, b / 2) + (if a % 2 == 1 || b % 2 == 1 then 1 else 0)
  }

  /** JS `x & m` for a mask `0 <= m < 2^31`: the AND of the 32-bit pattern of
      ToInt32(x) with `m`, which is never negative. */
  function JsAnd(x: int, m: nat): nat
    requires m < TwoTo31
  {
    BitAnd(x % TwoTo32, m)
  }

  lemma {:induction false} Pow2Add(a: nat, b: nat)
    ensures Pow2(a + b) == Pow2(a) * Pow2(b)
  {
    if a > 0 {
      Pow2Add(a - 1, b);
      assert Pow2(a + b) == 2 * Pow2(a - 1 + b);
    }
  }

  lemma Pow2Mono(k: nat, n: nat)
    requires k <= n
    ensures Pow2(k) <= Pow2(n)
  {
    Pow2Add(k, n - k);
    MulAtLeast(Pow2(k), Pow2(n - k));
  }

  /** Reducing modulo pq and then modulo p is reducing modulo p. */
  lemma ModMod(x: int, p: nat, q: nat)
    requires p >= 1 && q >= 1
    ensures x % (p * q) % p == x % p
  {
    var a, r := x / (p * q), x % (p * q);
    var b, c := r / p, r % p;
    assert x == p * (q * a + b) + c by {
      assert x == (p * q) * a + r;
      assert r == p * b + c;
      assert (p * q) * a == p * (q * a);
    }
    DivModUnique(x, p, q * a + b, c);
  }

  /** A low mask 2^k - 1 keeps the remainder modulo 2^k. */
  lemma {:induction false} BitAndLowMask(a: nat, k: nat)
    ensures BitAnd(a, Pow2(k) - 1) == a % Pow2(k)
  {
    if k == 0 {
      assert Pow2(0) == 1;
    } else if a == 0 {
      DivModUnique(0, Pow2(k), 0, 0);
    } else {
      var p := Pow2(k - 1);
      var m := Pow2(k) - 1;
      assert m == 2 * p - 1;
      assert m / 2 == p - 1 && m % 2 == 1;
      assert BitAnd(a, m) == 2 * BitAnd(a / 2, p - 1) + a % 2;
      BitAndLowMask(a / 2, k - 1);
      ModSplit(a, 2, p);
    }
  }

  /** A high mask 2^n - 2^k on an n-bit number clears the low k bits. */
  lemma {:induction false} BitAndHighMask(a: nat, k: nat, n: nat)
    requires k <= n && a < Pow2(n)
    ensures Pow2(k) <= Pow2(n)
    ensures BitAnd(a, Pow2(n) - Pow2(k)) == a - a % Pow2(k)
    decreases k, 1
  {
    Pow2Mono(k, n);
    if k == 0 {
      assert Pow2(0) == 1;
      BitAndLowMask(a, n);
      DivModUnique(a, Pow2(n), 0, a);
      DivModUnique(a, 1, a, 0);
    } else if k == n {
      DivModUnique(a, Pow2(n), 0, a);
      assert BitAnd(a, 0) == 0;
    } else if a == 0 {
      DivModUnique(0, Pow2(k), 0, 0);
    } else {
      BitAndHighMaskStep(a, k, n);
    }
  }

  /** The inductive step: shift one bit out of both the number and the mask. */
  lemma {:induction false} BitAndHighMaskStep(a: nat, k: nat, n: nat)
    requires 0 < k < n && 0 < a < Pow2(n)
    ensures Pow2(k) <= Pow2(n)
    ensures BitAnd(a, Pow2(n) - Pow2(k)) == a - a % Pow2(k)
    decreases k, 0
  {
    var q, p := Pow2(k - 1), Pow2(n - 1);
    assert Pow2(k) == 2 * q && Pow2(n) == 2 * p;
    BitAndHighMask(a / 2, k - 1, n - 1);
    var m := Pow2(n) - Pow2(k);
    assert m / 2 == p - q && m % 2 == 0;
    BitAndEven(a, m);
    var x, y := BitAnd(a, m), BitAnd(a / 2, p - q);
    assert x == 2 * y;
    ModSplit(a, 2, q);
    var z := a % (2 * q);
    assert z == (a / 2 % q) * 2 + a % 2;
    HighMaskStep(a, q, x, y, z);
  }

  /** With an even mask the low bit is clear and the rest shifts down. */
  lemma BitAndEven(a: nat, b: nat)
    requires b % 2 == 0
    ensures BitAnd(a, b) == 2 * BitAnd(a / 2, b / 2)
  {
  }

  lemma HighMaskStep(a: int, q: int, x: int, y: int, z: int)
    requires q >= 1 && y == a / 2 - a / 2 % q && x == 2 * y
    requires z == (a / 2 % q) * 2 + a % 2
    ensures x == a - z
  {
  }

  /** OR of a multiple of 2^k and a number below 2^k is their sum. */
  lemma {:induction false} BitOrDisjoint(a: nat, b: nat, k: nat)
    requires a % Pow2(k) == 0 && b < Pow2(k)
    ensures BitOr(a, b) == a + b
  {
    if k > 0 && a > 0 && b > 0 {
      var q := Pow2(k - 1);
      ModSplit(a, 2, q);
      BitOrDisjoint(a / 2, b / 2, k - 1);
    }
  }

  lemma Pow2Words()
    ensures Pow2(31) == TwoTo31 && Pow2(32) == TwoTo32
  {
    assert Pow2(4) == 0x10;
    Pow2Add(4, 4);
    Pow2Add(8, 8);
    Pow2Add(16, 16);
    assert Pow2(32) == 2 * Pow2(31);
  }

  /** `x & (2^k - 1)` in JS is x modulo 2^k, for negative x as well. */
  lemma JsAndLowMask(x: int, k: nat)
    requires k <= 31
    ensures Pow2(k) - 1 < TwoTo31
    ensures JsAnd(x, Pow2(k) - 1) == x % Pow2(k)
  {
    var p := Pow2(k);
    Pow2Words();
    Pow2Mono(k, 31);
    Pow2Add(k, 32 - k);
    var w := x % TwoTo32;
    assert w % p == x % p by {
      ModMod(x, p, Pow2(32 - k));
    }
    BitAndLowMask(w, k);
  }
}

=== FILE: wrappers.dfy ===
/** Failure-compatible wrappers used throughout the codec model.
    Every decoder, and every encoder that can throw, returns a `Result` whose
    `Failure` carries the exception the TypeScript code would raise. */
module Wrappers {

  /** An optional value, used for the optional `expect` argument of array headers. */
  datatype Option<+T> = None | Some(value: T)

  /** Success with a value, or Failure with an error; usable with `:-`. */
  datatype Result<+T, +E> = Success(value: T) | Failure(error: E) {

    predicate IsFailure() {
      Failure?
    }

    function PropagateFailure<U>(): Result<U, E>
      requires Failure?
    {
      Failure(error)
    }

    function Extract(): T
      requires Success?
    {
      value
    }
  }
}

/** The exceptions the codec raises, one constructor per kind of throw site. */
module Errors {
  import opened Wrappers

  datatype Error =
    /** DataView RangeError: a fixed-width read past the end of the input. */
    | OutOfBounds
    /** `typeError(tag, expected)`: a tag that the requested codec does not accept. */
    | UnexpectedTag(tag: int, expected: string)
    /** `Any.dec`: a tag no codec handles (Ext16, Ext32, FixExt1/2/16, 0xc1). */
    | UnsupportedTag(tag: int)
    /** RangeError "length limit exceeded": a blob or collection longer than 2^32 - 1. */
    | LengthLimit
    /** `Uint.enc` on a negative number. */
    | NotUnsigned(v: int)
    /** `Uint.dec` when the wire value is negative. */
    | UnsignedUnderflow
    /** `TypedArr.decHeader` when the decoded length differs from the expected one. */
    | HeaderSizeMismatch(n: int)
    /** RangeError from `String.fromCodePoint` on a code point above U+10FFFF. */
    | InvalidCodePoint(c: int)
    /** A property name `Int` or `Uint` would convert other than by its
        canonical decimal form, or a decoded key whose conversion to a
        property name is not modelled. */
    | UnsupportedKey

  type Outcome<T> = Result<T, Error>
}

/** Generic sequence facts, stated once so that proofs about sequences of
    constrained elements (bytes, code units) need not redo them. */
module Seqs {

  lemma AppendAssociative<T>(a: seq<T>, b: seq<T>, c: seq<T>)
    ensures a + (b + c) == (a + b) + c
  {
  }

  lemma DropAppend<T>(a: seq<T>, b: seq<T>, k: nat)
    requires k <= |a|
    ensures (a + b)[k..] == a[k..] + b
    ensures (a + b)[..k] == a[..k]
  {
  }

  lemma SplitAt<T>(a: seq<T>, k: nat)
    requires k <= |a|
    ensures a[..k] + a[k..] == a
  {
  }
}
